=== FILE: README.md ===
# nexusflow pin definitions and GUI rules, modelled in Dafny

nexusflow is a desktop tool for test benches. A hardware module is described
in an Excel workbook with one row per pin. The tool imports those rows into
pin definitions and registers each module as a predefined GUI component. It
then builds a GUI of input, output, container and controller items on a
panel. A router carries messages between the GUI items and hardware
controllers such as the Opal Kelly FPGA controller.

This project models the logic of that pipeline as pure functions over
immutable data:

- **Pin definitions.** The records and the way their constructors default
  missing values (`PinDefinitions`).
- **Workbook import.** Importing an already loaded worksheet, given as a
  sequence of rows of cells (`Cells`, `ExcelImport`).
- **Modules and the registry.** Building modules from imported records, the
  module manager, and the predefined GUI component registry (`Modules`,
  `PredefinedWidgets`).
- **Messaging.** The message router (`Router`) and the FPGA controller's
  message handling and id decoding (`OkFpga`).
- **System data.** The typed key/value store of a system, the type-name codec
  it relies on, and the way the system's name is displayed (`SystemDesigner`,
  `Utils`).
- **GUI items.** The GUI items' settings, descriptions and defaults
  (`GuiItems`); the LED widget (`Outputs`); the panel's item tree and its
  add, remove and predefined-component handlers (`GuiDesigner`); the
  generic settings dialog (`SettingsDialog`).

`Wrappers` holds `Option`, `Result` and the Python exceptions raised. A Python
exception is an `Err` value. `PyStrings` gives the Python string operations
the code relies on: negative indexing, slicing, `split`, `replace`,
`capitalize` and `int()`.

Four defects of the code are recorded under "## Findings". Each has a member
that models the code as written and a corrected member with the intended
property proved.

## Model

| member | source | states |
|---|---|---|
| Cells.Str | nexusflow/systemdesigner/excelimport.py:47-50 | `str(cell)` gives a text cell's text, an int's decimal digits, `"True"` or `"False"` for a bool, the host's float rendering for a real, and `"None"` for an empty cell |
| Cells.Float | nexusflow/systemdesigner/excelimport.py:52-53 | `float(cell)` gives the number for an int or real cell, 1.0 or 0.0 for a bool, and the host's parse of a text cell; an empty cell and a text that does not parse fail, and the model tags that failure with the column read |
| Cells.EqIntIsNotTruthiness | nexusflow/systemdesigner/excelimport.py:56 | flag columns compare with `== 1` or `== 0` by number, not by truthiness: `2`, `"1"` and an empty cell are not equal to 1, while `True` equals 1 |
| Cells.At | nexusflow/systemdesigner/excelimport.py:46-90 | `row[column]` succeeds exactly when the column is inside the row, and otherwise raises IndexError for that column |
| Cells.TryImport | nexusflow/systemdesigner/excelimport.py:27-32 | the cell at the column when the row reaches it, else `None` |
| ExcelImport.GetDisplayType | nexusflow/systemdesigner/excelimport.py:14-24 | maps DIG_IN, DIG_OUT, ADC and DAC to bool/output, bool/input, float/output and float/input; succeeds exactly for those four; raises ValueError otherwise |
| ExcelImport.DisplayTypeShape | nexusflow/systemdesigner/excelimport.py:14-24 | every recognised function displays as bool (the digital ones) or float, with direction input exactly for the hardware outputs DIG_OUT and DAC; distinct functions get distinct type and direction pairs |
| ExcelImport.RowFilter | nexusflow/systemdesigner/excelimport.py:45 | reading the function cell fails exactly on rows shorter than two cells; a row is kept exactly when its function is neither `'PWR'` nor empty |
| ExcelImport.ImportCoefficients | nexusflow/systemdesigner/excelimport.py:51-54 | succeeds exactly when columns 4 and 5 exist and parse as floats, and then holds those two floats |
| ExcelImport.ImportGui | nexusflow/systemdesigner/excelimport.py:55-61 | a GUI placement succeeds exactly when its row column exists and the function is known; `display` is the display cell compared with the sentinel; type and direction come from the function |
| ExcelImport.ImportValue | nexusflow/systemdesigner/excelimport.py:62-67 | succeeds exactly when the row reaches column 22 and min, max and initial parse; `enable_initial` is column 22 `== 1` |
| ExcelImport.ImportAlarm | nexusflow/systemdesigner/excelimport.py:82-87 | succeeds exactly when the row reaches column 26; `enable` is column 23 `== 1`; `above` is 1 iff column 24 `== 1` and is otherwise 0; the values are defaulted |
| ExcelImport.ImportRow | nexusflow/systemdesigner/excelimport.py:46-93 | a kept row imports exactly when it is importable; the record's every field is the stated function of the stated column |
| ExcelImport.KeptRows | nexusflow/systemdesigner/excelimport.py:44-45 | the rows the loop keeps are exactly those that pass the filter: every kept row passes it, every row that passes it is kept, and no row is kept more often than it occurs |
| ExcelImport.KeptRowsCounts | nexusflow/systemdesigner/excelimport.py:44-45 | each row that passes the filter is kept exactly as often as it occurs in the sheet, and no other row is kept |
| ExcelImport.KeptRowsAppend | nexusflow/systemdesigner/excelimport.py:44-45 | the rows kept from two consecutive blocks are those of the first block followed by those of the second, so sheet order is kept |
| ExcelImport.SheetImportableCons | nexusflow/systemdesigner/excelimport.py:44-95 | a sheet is importable iff its first row is readable, is skipped or imports, and the rest of the sheet is importable |
| ExcelImport.ImportExcelSucceeds | nexusflow/systemdesigner/excelimport.py:35-99 | the import succeeds exactly when every row has a function cell and every kept row imports |
| ExcelImport.ImportExcelRecords | nexusflow/systemdesigner/excelimport.py:44-99 | a successful import returns one record per kept row, in sheet order, each the record built from that row |
| ExcelImport.ImportExcel | nexusflow/systemdesigner/excelimport.py:35-99 | a successful import has one record per kept row, so never more records than rows; a first row without a function cell fails the import; a failure always comes from a row without a function cell or a kept row that does not import |
| ExcelImport.ImportIsAtomic | nexusflow/systemdesigner/excelimport.py:44-99 | one kept row that fails makes the whole import fail: there is no partial result |
| ExcelImport.ShortRowHasNoPowerdrop | nexusflow/systemdesigner/excelimport.py:88-92 | a row of 27 to 39 cells still imports, with `disable_powerdrop` `None` |
| ExcelImport.ImportAcceptsValueOutsideRange | nexusflow/systemdesigner/excelimport.py:62-67 | the importer accepts an initial value outside `[min, max]` |
| PinDefinitions.OrDefault | nexusflow/systemdesigner/module/pindefinition.py:19-23 | `x if x is not None else d` keeps a present value and replaces `None` |
| PinDefinitions.MakeAlarm | nexusflow/systemdesigner/module/pindefinition.py:12-23 | an Alarm keeps `enable` and `above`, and a missing warning or interlock value becomes 0.0 |
| PinDefinitions.MakeExponential | nexusflow/systemdesigner/module/pindefinition.py:26-39 | an Exponential keeps `enable`, and a missing B, R0 or T0 becomes 0.0 |
| PinDefinitions.MakeGui | nexusflow/systemdesigner/module/pindefinition.py:50-62 | a Gui keeps display, type and direction, and a missing column or row becomes 0 |
| PinDefinitions.DefaultGui | nexusflow/systemdesigner/module/pindefinition.py:50-57 | `Gui(display)` has column and row 0 and empty type and direction |
| PinDefinitions.MakePinDefinition | nexusflow/systemdesigner/module/pindefinition.py:71-84 | a PinDefinition keeps each given field: id, function, name, unit, main GUI, value, important GUI, `active_low` and miscellaneous; the conversion coefficients, exponential and alarm default to `None` |
| PinDefinitions.AlarmDefaulting | nexusflow/systemdesigner/module/pindefinition.py:19-23 | every constructed Alarm is in normal form (no `None` values), and an Alarm is a fixed point of construction iff it is normal |
| PinDefinitions.ExponentialDefaulting | nexusflow/systemdesigner/module/pindefinition.py:33-39 | the same for Exponential |
| PinDefinitions.GuiDefaulting | nexusflow/systemdesigner/module/pindefinition.py:58-62 | the same for Gui |
| PinDefinitions.DefaultingIdempotent | nexusflow/systemdesigner/module/pindefinition.py:19-62 | constructing again from a constructed record changes nothing |
| Utils.TypeRoundTrip | nexusflow/utils.py:13-72 | `datatype_to_str` succeeds exactly on the eight supported classes, and `str_to_datatype` of its result gives the class back; otherwise TypeError |
| Utils.NameRoundTrip | nexusflow/utils.py:13-72 | `str_to_datatype` succeeds exactly on the eight names, and `datatype_to_str` of its result gives the name back; otherwise TypeError |
| Utils.CodecInjective | nexusflow/utils.py:13-72 | distinct names give distinct classes, and distinct classes give distinct names |
| Utils.DatatypeToStr | nexusflow/utils.py:13-41 | `datatype_to_str` succeeds exactly on the eight supported classes and then gives one of the eight names; any other class raises TypeError; `Utils.TypeRoundTrip` states that the name reads back as the class |
| Utils.StrToDatatype | nexusflow/utils.py:44-72 | `str_to_datatype` succeeds exactly on the eight names and then gives a supported class; any other name raises TypeError; `Utils.NameRoundTrip` states that the class writes back as the name |
| Router.Empty | nexusflow/router.py:4 | the route table starts empty |
| Router.RegisterRoute | nexusflow/router.py:7-8 | registering adds the id to the table with the new handler, replacing an earlier one, and keeps every other id and its handler |
| Router.Route | nexusflow/router.py:11-12 | routing succeeds exactly for a registered id, calling its handler with exactly the payload; an unregistered id raises KeyError for that id |
| Router.RouteAfterRegister | nexusflow/router.py:7-12 | after `register_route(id, h)`, `route(id, p)` calls `h` with exactly `p` |
| Router.RegisterIsLocal | nexusflow/router.py:7-12 | registering one id leaves the routing of every other id unchanged |
| Router.RouteUnregistered | nexusflow/router.py:11-12 | routing to an unregistered id raises KeyError |
| Router.LastRegistrationWins | nexusflow/router.py:7-12 | after a sequence of registrations, an id routes to its last handler |
| Router.NotRegisteredLater | nexusflow/router.py:7-12 | registrations of other ids do not change how an id routes |
| PredefinedWidgets.EmptyRegistry | nexusflow/systemdesigner/module/predefinedwidgetmanager.py:7 | the registry starts empty |
| PredefinedWidgets.Register | nexusflow/systemdesigner/module/predefinedwidgetmanager.py:10-12 | registering stores the component under the name, adds only that key, and keeps the other entries |
| PredefinedWidgets.KeysAreRegisteredNames | nexusflow/systemdesigner/module/predefinedwidgetmanager.py:10-16 | the getter's keys are the old keys plus exactly the names registered |
| PredefinedWidgets.KeysFromEmpty | nexusflow/systemdesigner/module/predefinedwidgetmanager.py:7-16 | starting empty, the keys are exactly the registered names |
| PredefinedWidgets.LaterRegistrationReplaces | nexusflow/systemdesigner/module/predefinedwidgetmanager.py:10-12 | registering a name twice is the same as registering it once with the second component |
| Modules.NewModule | nexusflow/systemdesigner/module/module.py:15-18 | a new module has its name and no functions |
| Modules.ImportFunctionsAppends | nexusflow/systemdesigner/module/module.py:38-42 | importing appends one list id and one pin definition per record, in order, after the existing ones, which are unchanged |
| Modules.ImportIntoNewModule | nexusflow/systemdesigner/module/module.py:38-42 | in a new module, the list ids are the records' ids and the pin definitions are the records |
| Modules.ManagerImportFunctions | nexusflow/systemdesigner/module/module.py:62-73 | the manager's import fails exactly when the workbook import fails; on success a tab is appended and the module is registered under its stem and under stem + `-important`; no other key is added and every other entry keeps its component |
| SystemDesigner.DefaultData | nexusflow/systemdesigner/systemdesigner.py:19-26 | the dict literal holds only an empty, displayed and editable `str` description |
| SystemDesigner.SetDataValue | nexusflow/systemdesigner/systemdesigner.py:174-191 | an unknown key raises KeyError; a known key is set exactly when its stored type name reads back as the value's exact class, and otherwise raises TypeError; on success the keys are unchanged and the key holds the value |
| SystemDesigner.GetDataValue | nexusflow/systemdesigner/systemdesigner.py:193-207 | reading succeeds exactly for a present key, giving its stored value, and raises KeyError for that key otherwise |
| SystemDesigner.SetDataValueSpec | nexusflow/systemdesigner/systemdesigner.py:185-191 | an unknown key raises KeyError; a known key is set iff the value's exact class is the stored type's class, and otherwise raises TypeError; only that value changes |
| SystemDesigner.GetAfterSet | nexusflow/systemdesigner/systemdesigner.py:185-207 | a value set successfully is read back |
| SystemDesigner.SetDataValueExactType | nexusflow/systemdesigner/systemdesigner.py:187 | the type check is on the exact class: a bool is refused for an int entry and an int for a float entry |
| SystemDesigner.GetMissing | nexusflow/systemdesigner/systemdesigner.py:204-207 | reading a missing key raises KeyError |
| SystemDesigner.DashesToSpaces | nexusflow/systemdesigner/systemdesigner.py:110-112 | replacing dashes by spaces keeps the length |
| SystemDesigner.CapitalizedWordsFold | nexusflow/systemdesigner/systemdesigner.py:111-112 | up to case, the capitalized words each followed by a space are the words joined by spaces, plus a trailing space |
| SystemDesigner.DashesToSpacesJoin | nexusflow/systemdesigner/systemdesigner.py:111 | dash-free words joined by dashes become the words joined by spaces |
| SystemDesigner.DisplayNameFolds | nexusflow/systemdesigner/systemdesigner.py:110-112 | up to case, the displayed name is the system name with dashes turned to spaces and one trailing space |
| SystemDesigner.DisplayNameStartsCapitalized | nexusflow/systemdesigner/systemdesigner.py:110-112 | the displayed name starts with the upper-case first letter of the name |
| SystemDesigner.DisplayNameOfWords | nexusflow/systemdesigner/systemdesigner.py:110-112 | a name built from dash-free words shows those words capitalized |
| SystemDesigner.CapitalizedWords | nexusflow/systemdesigner/systemdesigner.py:111-112 | the capitalized words of a non-empty list are non-empty and end with a space |
| SystemDesigner.DisplayName | nexusflow/systemdesigner/systemdesigner.py:110-112 | the displayed name is never empty and always ends with a space; `SystemDesigner.DisplayNameFolds` relates it to the name |
| OkFpga.Lookup | nexusflow/systemdesigner/controllers/okfpga.py:49-69 | `payload[key]` gives the entry, or raises KeyError naming the key |
| OkFpga.EncodedIdTokens | nexusflow/systemdesigner/controllers/okfpga.py:56-57 | removing `ADD` from an encoded id and splitting on spaces gives the IC digit and the channel digits |
| OkFpga.DecodeEncodedId | nexusflow/systemdesigner/controllers/okfpga.py:55-66 | decoding an encoded id gives the device of its IC and its channel; an unknown IC raises ValueError |
| OkFpga.BadChannelFailsFirst | nexusflow/systemdesigner/controllers/okfpga.py:56-66 | the channel is parsed before the IC is checked, so a bad channel raises the int-parsing ValueError |
| OkFpga.DisconnectUnreachable | nexusflow/systemdesigner/controllers/okfpga.py:50-54 | as written, no message ever closes the device or drops its attribute |
| OkFpga.DisconnectMessageIgnored | nexusflow/systemdesigner/controllers/okfpga.py:50-54 | as written, the `fpga`/`disconnect` message does nothing |
| OkFpga.IntendedDisconnect | nexusflow/systemdesigner/controllers/okfpga.py:41-54 | with the test on the function, `disconnect` closes an open device and announces it, and every other message handles as written |
| OkFpga.ConnectLoadsModule | nexusflow/systemdesigner/controllers/okfpga.py:33-52 | `connect` opens the device, routes status `on` and loads the module |
| OkFpga.OtherIdsIgnored | nexusflow/systemdesigner/controllers/okfpga.py:49-69 | an id that is neither `fpga` nor starts with `ADD` changes nothing |
| OkFpga.DigitalWriteRoundTrip | nexusflow/systemdesigner/controllers/okfpga.py:55-69 | a `DIG_OUT` on an encoded id writes exactly the value to that device and channel |
| OkFpga.OnlyDigOutWrites | nexusflow/systemdesigner/controllers/okfpga.py:55-69 | for `ADD` ids, any function other than `DIG_OUT` does nothing |
| OkFpga.HandleRoute | nexusflow/systemdesigner/controllers/okfpga.py:49-69 | a payload without `id` raises KeyError for `id`, and an `fpga` payload without `function` raises KeyError for `function`; only connecting changes the controller; a handled message emits nothing, the connect sequence, or digital writes |
| OkFpga.IcMapper | nexusflow/systemdesigner/controllers/okfpga.py:8-19 | an id not starting with `ADD` maps to `None`, and only `ADD` ids can raise |
| OkFpga.IcMapperAlwaysFails | nexusflow/systemdesigner/controllers/okfpga.py:8-19 | as written, `ic_mapper` raises ValueError on every `ADD` id and maps every other id to `None` |
| OkFpga.IcMapperIntended | nexusflow/systemdesigner/controllers/okfpga.py:8-19 | keeping the result of `replace`, an id not starting with `ADD` still maps to `None`, only `ADD` ids raise, and a mapped device index is 0, 1 or 2 |
| OkFpga.IcMapperIntendedDecodes | nexusflow/systemdesigner/controllers/okfpga.py:8-19 | keeping the result of `replace`, `ic_mapper` maps an encoded id to its device and channel, as `handle_route` does |
| Outputs.ColorByName | nexusflow/guidesigner/guicomponents/primitives/outputs.py:48-54 | exactly the five names red, green, yellow, blue and off have a colour |
| Outputs.ColorNamesRoundTrip | nexusflow/guidesigner/guicomponents/primitives/outputs.py:48-54 | each colour is found under its name, and only under it |
| Outputs.NewLed | nexusflow/guidesigner/guicomponents/primitives/outputs.py:56-84 | a new LED succeeds iff both colour names are valid, and checks the on colour first; it starts in the given state, showing the matching colour |
| Outputs.TurnOn | nexusflow/guidesigner/guicomponents/primitives/outputs.py:87-91 | turning on shows the on colour and keeps both colours |
| Outputs.TurnOff | nexusflow/guidesigner/guicomponents/primitives/outputs.py:93-98 | turning off shows the off colour and keeps both colours |
| Outputs.Toggle | nexusflow/guidesigner/guicomponents/primitives/outputs.py:101-107 | toggling flips the state and shows the matching colour |
| Outputs.SetOn | nexusflow/guidesigner/guicomponents/primitives/outputs.py:110-121 | `set_on(v)` ends with the state `v`, showing the matching colour |
| Outputs.GetOnAfterTransitions | nexusflow/guidesigner/guicomponents/primitives/outputs.py:87-168 | `get_on` reports the last transition |
| Outputs.SetOnColor | nexusflow/guidesigner/guicomponents/primitives/outputs.py:123-134 | an invalid name raises `Invalid color`; a valid one replaces only the on colour |
| Outputs.SetOffColor | nexusflow/guidesigner/guicomponents/primitives/outputs.py:136-147 | the same for the off colour |
| Outputs.ToggleTwice | nexusflow/guidesigner/guicomponents/primitives/outputs.py:101-107 | two toggles restore an LED that shows its state |
| Outputs.TransitionsKeepShows | nexusflow/guidesigner/guicomponents/primitives/outputs.py:87-121 | every on/off transition leaves the LED showing its state |
| Outputs.ColorSettersKeepOnAndStyle | nexusflow/guidesigner/guicomponents/primitives/outputs.py:123-147 | colour setters change neither the state nor the colour shown, and fail exactly on invalid names |
| Outputs.NewOnColorNotShownYet | nexusflow/guidesigner/guicomponents/primitives/outputs.py:87-134 | a lit LED keeps showing its old colour after a new on colour is set, until it is next turned on |
| Outputs.SetColors | nexusflow/guidesigner/guicomponents/primitives/outputs.py:149-160 | `set_colors` raises exactly when a name is invalid, naming the on colour if that one is invalid and otherwise the off colour; it never changes the state or the colour shown; the off colour changes only on success |
| Outputs.SetColorsSpec | nexusflow/guidesigner/guicomponents/primitives/outputs.py:149-160 | `set_colors` succeeds iff both names are valid and then installs both colours; it raises on the first invalid name |
| Outputs.SetColorsNotAtomic | nexusflow/guidesigner/guicomponents/primitives/outputs.py:149-160 | a valid on colour followed by an invalid off colour raises with the new on colour already installed |
| GuiItems.DefaultPosition | nexusflow/guidesigner/guiitems.py:28-32 | a new position is column 0, row 0, editable |
| GuiItems.NewContainer | nexusflow/guidesigner/guiitems.py:35-49 | a new container is an editable, ungrouped grid named `New Container` at the default position |
| GuiItems.ContainerDescription | nexusflow/guidesigner/guiitems.py:51-59 | the description exists exactly for type indices -3 to 2, naming the type as Python's negative indexing selects it, between the group prefix and the container suffix; any other index raises IndexError for it |
| GuiItems.LayoutFor | nexusflow/guidesigner/guiitems.py:139-146 | `get_gui` builds a layout exactly for type indices 0 to 2, and raises ValueError otherwise |
| GuiItems.NewContainerDescription | nexusflow/guidesigner/guiitems.py:52-59 | a new container is described as `grid_container@(0,0)` |
| GuiItems.LayoutMatchesDescription | nexusflow/guidesigner/guiitems.py:52-59 | for indices 0 to 2 the layout built is the one the description names; indices -3 to -1 are described but not built; other indices fail both |
| GuiItems.ContainerDescriptionInjective | nexusflow/guidesigner/guiitems.py:52-59 | at one position, equal descriptions mean equal group flag and type index |
| GuiItems.TypePrefixInjective | nexusflow/guidesigner/guiitems.py:52-59 | the type part of a description determines the group flag and type index |
| GuiItems.DefaultSettings | nexusflow/guidesigner/guiitems.py:216-221 | new input or output settings select index 0, are editable and hold no value |
| GuiItems.InitInputValueSettings | nexusflow/guidesigner/guiitems.py:223-242 | initialising succeeds exactly for type indices -6 to 5 and installs the declared default variant of the selected type, keeping the index and the editable flag; any other index raises IndexError for it |
| GuiItems.InitOutputValueSettings | nexusflow/guidesigner/guiitems.py:550-576 | the same for output settings: succeeds exactly for -6 to 5, installs the declared default output variant of the selected type, keeps the index and the editable flag, and raises IndexError for any other index |
| GuiItems.InitInstallsSelectedVariant | nexusflow/guidesigner/guiitems.py:223-240 | for input and output settings alike, initialising succeeds exactly for indices -6 to 5, installs the declared default variant of the selected type, and otherwise raises IndexError |
| GuiItems.InitValueSettingsByIndex | nexusflow/guidesigner/guiitems.py:164-240 | index by index, 0 to 5 install the int, float, bool, str, list and path defaults as declared (input: 0/0/100, 0.0/0.0/1.0, False, "", 0 with no options, "" with the JSON validator; output: 0, 0.0, False, "", 0 with no options, "" with the JSON validator), a negative index selects as its index plus 6, and any other index raises IndexError |
| GuiItems.ValueDefaults | nexusflow/guidesigner/guiitems.py:164-240 | the selected type starts as `int`, and every input and output variant's declared defaults are those of its dataclass |
| GuiItems.Describe | nexusflow/guidesigner/guiitems.py:252-260 | a description starts with the main display type and the kind word and ends with the closing parenthesis of the coordinates |
| GuiItems.DescriptionUsesPlacement | nexusflow/guidesigner/guiitems.py:252-260 | an important item is described at its important coordinates, and a normal one at its main coordinates |
| GuiItems.InputOutputDescriptions | nexusflow/guidesigner/guiitems.py:252-260 | input and output descriptions of the same data differ only in the kind word; without data both raise AttributeError |
| GuiItems.NewControllerItem | nexusflow/guidesigner/guiitems.py:637-658 | a new controller item shows disconnected at the default position |
| GuiItems.IndicatorFollowsStatus | nexusflow/guidesigner/guiitems.py:644-650 | `on` turns the indicator to connected, `off` to disconnected, and anything else changes nothing |
| GuiItems.ButtonsRaise | nexusflow/guidesigner/guiitems.py:659-671 | as written, both buttons' messages make the controller raise KeyError for `id` |
| GuiItems.ButtonsIntended | nexusflow/guidesigner/guiitems.py:659-671 | with `id: 'fpga'`, Connect opens the device and its status turns the indicator to connected; Disconnect, under the corrected handler, closes it |
| GuiDesigner.NewPanel | nexusflow/guidesigner/guidesigner.py:20-28 | a new panel has no items and no current item |
| GuiDesigner.AppendChildAt | nexusflow/guidesigner/guidesigner.py:52-54 | adding a child keeps the number of top-level items |
| GuiDesigner.RemoveAt | nexusflow/guidesigner/guidesigner.py:63-67 | removing a top-level item drops one top-level item; removing a nested one keeps their number |
| GuiDesigner.SizeAllAppend | nexusflow/guidesigner/guidesigner.py:43-67 | the size of concatenated forests is the sum of their sizes |
| GuiDesigner.SizeAllSplit | nexusflow/guidesigner/guidesigner.py:43-67 | a forest's size is the size before a tree, plus the tree, plus the size after it |
| GuiDesigner.SizeAllUpdate | nexusflow/guidesigner/guidesigner.py:43-67 | replacing one tree changes the size by the difference |
| GuiDesigner.AppendChildAtSpec | nexusflow/guidesigner/guidesigner.py:52-54 | adding a child appends exactly it under the item at the path, keeps that item, and adds the child's size |
| GuiDesigner.ParentPath | nexusflow/guidesigner/guidesigner.py:63-65 | the parent of a nested item is reached by the path without its last step, and the item is that parent's child at the last step |
| GuiDesigner.RemoveAtParent | nexusflow/guidesigner/guidesigner.py:63-65 | removing a nested item leaves its parent at the same path with the same item, and with the children before and after the removed one, in order; every other top-level tree is unchanged |
| GuiDesigner.RemoveAtSpec | nexusflow/guidesigner/guidesigner.py:63-67 | removing takes out exactly the subtree at the path: a top-level item leaves the other top-level trees in order; a nested item leaves its parent with the other children in order and every other top-level tree unchanged |
| GuiDesigner.ClickHandler | nexusflow/guidesigner/guidesigner.py:35-41 | a click flips the selected flag; when selected the current item is the one clicked, else there is none |
| GuiDesigner.ClickHandlerValid | nexusflow/guidesigner/guidesigner.py:35-41 | clicking an item keeps the panel valid, and two clicks on it clear the selection |
| GuiDesigner.AddWidget | nexusflow/guidesigner/guidesigner.py:43-61 | a message is emitted exactly when a top-level item already exists and nothing is current, or the current item is not a container; then the panel is unchanged; an item added to an empty panel is its only item; the current item and selection flag never change |
| GuiDesigner.AddWidgetSpec | nexusflow/guidesigner/guidesigner.py:43-61 | adding to an empty panel makes the item top-level; a second top-level item is refused with a message; otherwise the item goes under the current container, or is refused with a message; the panel stays valid |
| GuiDesigner.RemoveWidget | nexusflow/guidesigner/guidesigner.py:63-67 | removing leaves a valid panel with no current item |
| GuiDesigner.RemoveWidgetSpec | nexusflow/guidesigner/guidesigner.py:63-67 | removing fails exactly without a current item; a top-level item clears the panel; a nested item is removed from its parent, which keeps its place, its item and its other children in order, and every other top-level tree is unchanged |
| GuiDesigner.ShownPins | nexusflow/guidesigner/guidesigner.py:78-80 | the pins that get editors are exactly those shown in the chosen view: each selected pin is shown, each shown pin is selected, and none is selected more often than it occurs |
| GuiDesigner.ShownPinsCounts | nexusflow/guidesigner/guidesigner.py:78-80 | each shown pin is selected exactly as often as it occurs in the module, and a pin not shown never |
| GuiDesigner.ShownPinsAppend | nexusflow/guidesigner/guidesigner.py:78-80 | the pins shown from two consecutive blocks are those of the first block followed by those of the second, so module order is kept |
| GuiDesigner.Editor | nexusflow/guidesigner/guidesigner.py:82-91 | a pin's editor exists exactly when its main direction is input or output, and is otherwise a ValueError |
| GuiDesigner.Editors | nexusflow/guidesigner/guidesigner.py:78-102 | successful editors are never more than the module's pins; `GuiDesigner.EditorsSpec` states which editors they are |
| GuiDesigner.EditorsSucceed | nexusflow/guidesigner/guidesigner.py:78-102 | the editors are built exactly when every pin shown in the view has an input or output direction |
| GuiDesigner.EditorsValues | nexusflow/guidesigner/guidesigner.py:78-102 | built editors are one per shown pin, in module order, each the editor of its pin |
| GuiDesigner.EditorsSpec | nexusflow/guidesigner/guidesigner.py:78-102 | the editors succeed exactly when every shown pin has a direction, and are then the editors of the shown pins in order |
| GuiDesigner.AddPredefinedGuiComponents | nexusflow/guidesigner/guidesigner.py:69-103 | adding a controller never raises; the current item never changes; when a message is emitted the panel is unchanged |
| GuiDesigner.AddModuleComponentSpec | nexusflow/guidesigner/guidesigner.py:69-103 | adding a module component fails exactly when a shown pin has no direction; otherwise it adds a container named after the module, holding the editors |
| GuiDesigner.ErrorsAreValueErrors | nexusflow/guidesigner/guidesigner.py:86-91 | every failure of the editors is a ValueError |
| GuiDesigner.ShownPinsAreModulePins | nexusflow/guidesigner/guidesigner.py:78-80 | only the module's own pins are shown |
| GuiDesigner.ImportedPinsHaveDirection | nexusflow/systemdesigner/excelimport.py:55-74 | every imported record has an input or output direction |
| GuiDesigner.ImportedModuleAddsCleanly | nexusflow/guidesigner/guidesigner.py:69-103 | adding the GUI of a module imported from a workbook never raises |
| GuiDesigner.LookupKeyDropsOneCharacter | nexusflow/guidesigner/guidesigner.py:247-249 | as written, the key of an `-important` entry loses the last character of the module name |
| GuiDesigner.LookupKeyIntendedRoundTrip | nexusflow/guidesigner/guidesigner.py:247-249 | stripping exactly the suffix gives the module name back, and names without it are unchanged |
| GuiDesigner.AddPredefinedGuiHandler | nexusflow/guidesigner/guidesigner.py:240-254 | without a panel the no-panel message is emitted, and for the `Empty` entry the nothing-to-add message; a key that is not registered raises KeyError for it; a registered plain entry adds `registry[text]` with important false, and an entry ending in `-important` adds the entry under the text minus 11 characters with important true; a panel is returned exactly when there was one |
| GuiDesigner.NormalEntryOfImportedModule | nexusflow/guidesigner/guidesigner.py:251-254 | after a workbook is imported, choosing the module's plain entry adds the imported module's normal view and does not raise (a module named `Empty` only shows the nothing-to-add message) |
| GuiDesigner.ImportantEntryOfImportedModule | nexusflow/guidesigner/guidesigner.py:240-254 | after importing a module, its `-important` entry raises KeyError as written, and adds the module's important GUI with the corrected key |
| SettingsDialog.Get | nexusflow/settingsdialog.py:24-66 | `setting[key]` succeeds exactly for present keys, and otherwise raises KeyError |
| SettingsDialog.GetOr | nexusflow/settingsdialog.py:35-47 | `setting.get(key, default)` gives the entry or the default |
| SettingsDialog.EditorFor | nexusflow/settingsdialog.py:29-70 | a built editor is the one for the setting's type; a failure is either KeyError for `type`, `value`, `options` or `validator`, or the unknown-type ValueError |
| SettingsDialog.EditorForSpec | nexusflow/settingsdialog.py:29-70 | the editor is chosen by type; an unknown type raises ValueError and a missing type KeyError; an int or float editor is built from the value, `min_value`, `max_value` and `step` entries, a missing value defaulting to 0 or 0.0 and a missing bound or step to `None`; a str or bool editor is built from `value`, a list editor from `value` and `options`, a path editor from `value` and `validator`, and a missing one of these raises KeyError, `value` being checked first |
| SettingsDialog.NewSettingsDialog | nexusflow/settingsdialog.py:13-77 | the dialog builds exactly when every setting's editable flag and editor can be read; it has one capitalized label and one editor per editable setting, in order; the buttons go in the row after them |
| SettingsDialog.NonEditableNeverInspected | nexusflow/settingsdialog.py:23-24 | settings that are not editable get no row, and their type is never read |
| SettingsDialog.NoEditableKeys | nexusflow/settingsdialog.py:23-24 | without editable settings there are no rows |
| SettingsDialog.HandleAccept | nexusflow/settingsdialog.py:79-84 | accepting keeps the number of settings |
| SettingsDialog.HandleAcceptSpec | nexusflow/settingsdialog.py:79-84 | accepting keeps every key in place; it writes each editable setting's held value and nothing else, and leaves non-editable settings unchanged |

## Left out

- Loading the workbook (`openpyxl`): the import starts from the rows of the first sheet, from row 6 and column B on.
- Float parsing and printing: `float(str)` and `str(float)` are the `Conv` parameter. Reals are exact, with no IEEE rounding.
- `int()` on text accepts only an optional sign (`+` or `-`) and ASCII digits. Python's whitespace stripping, underscores and non-ASCII digits are not modelled.
- `capitalize` and `lower` map only ASCII letters.
- Qt is not modelled. The widgets, layouts, dialogs, signals, the status bar and the rendering of stylesheets are left out, and so are the editor widgets' own behaviour and `get_value`. What an editor holds on accept is an input of `SettingsDialog.HandleAccept`.
- Qt's choice of current item after a removal, and its automatic `setCurrentItem` on mouse press, are not modelled. A removal leaves no current item.
- `PanelWidget.get_gui` and the JSON export and import of a GUI are left out, because they only serialise widgets.
- The `Path(path).stem` extraction is left out: the stem is a parameter of `Modules.ManagerImportFunctions`.
- FPGA hardware calls are events (`OpenFpga`, `RouteStatus`, `LoadModule`, `CloseFpga`, `DigitalWrite`). The status route sent from `init` is an event, not a nested call into the router.
- `string_uuid`, logging and the read-only GUI primitives (label and LCD displays) are left out.
- SettingsDialog.EditorFor: the ValueError message does not include the offending type value, because Python's formatting of an arbitrary value is not modelled.
- SystemDesigner.SetDataValue: the KeyError and TypeError carry the key or a reason, not Python's formatted message.
- Modules.ManagerImportFunctions: building a module's widgets is not modelled. `Module.import_functions` (nexusflow/systemdesigner/module/module.py:41) builds one HWFunction editor per record, and that editor puts the raw DAC and ADC range cells (nexusflow/systemdesigner/module/hwfunction.py:62, 70) and the raw GUI column and row (hwfunction.py:114, 125) into spin boxes. An empty or text cell there, which the workbook import accepts, can make the program raise before anything is registered, where the model reports success.
- SystemDesigner.DefaultData: the contract describes the module-level dict literal. A new system stores that dict itself, not a copy (nexusflow/systemdesigner/systemdesigner.py:69), and `set_data_value` (line 187) and the edit handler (line 212) change it in place. So in the program a later system of the same process starts with the edits of earlier ones; the model gives every new system a fresh copy.
- GuiItems.NewControllerItem: the route registration and the widget's lifetime are not modelled. Each new controller item registers its handler under the fixed id `asdoncdsajcbds` (nexusflow/guidesigner/guiitems.py:642), replacing the handler of any earlier controller item. The indicator label exists only once `get_gui` has run (guiitems.py:655), so a status message before that raises AttributeError in the program, where the model sets the connection state.
- Cells.Float: `NotAFloat(column)` stands for two Python exceptions: `float(None)` raises TypeError and `float('x')` raises ValueError. Neither names the column; the column in the model's error is added for the reader.

## Findings

| source | as written | input that shows it | evidently intended | confidence | as-written member | corrected member |
|---|---|---|---|---|---|---|
| nexusflow/guidesigner/guidesigner.py:247-249 | the registry key of an entry ending in `-important` is `text[:-11]`, but the suffix has 10 characters | module `probe` gives the key `prob`, which is not registered, so choosing `probe-important` raises KeyError | strip exactly the 10-character suffix | not executed | GuiDesigner.LookupKeyDropsOneCharacter | GuiDesigner.LookupKeyIntendedRoundTrip |
| nexusflow/systemdesigner/controllers/okfpga.py:8-19 | `ic_mapper` calls `id.replace('ADD', '')` and discards the result, then splits the unstripped id | `ic_mapper('ADD1 5')` reads IC `'A'` and raises ValueError | split the id with `ADD` removed, mapping `ADD1 5` to device 0, channel 5 | not executed | OkFpga.IcMapperAlwaysFails | OkFpga.IcMapperIntendedDecodes |
| nexusflow/systemdesigner/controllers/okfpga.py:50-54 | inside the `id == 'fpga'` branch, the disconnect test compares `id` rather than `function` with `'disconnect'` | payload `{'id': 'fpga', 'function': 'disconnect'}` does nothing | the test is on the function, so the device is closed | not executed | OkFpga.DisconnectUnreachable | OkFpga.IntendedDisconnect |
| nexusflow/guidesigner/guiitems.py:659-671 | the controller item's Connect and Disconnect buttons send `{'function': ...}` with no `'id'` | pressing Connect makes `handle_route` raise KeyError for `id` | send `'id': 'fpga'` as well | not executed | GuiItems.ButtonsRaise | GuiItems.ButtonsIntended |

=== FILE: cells.dfy ===
/** Worksheet cells and the three ways the importer reads a cell: Python's
    `str(value)`, `float(value)` and `value == n` against an int literal.

    A cell holds what the workbook reader yields for it: nothing (`None`),
    an int, a float, a bool or a text. Python's float parsing of text and
    its rendering of a float are not modelled; they are the two functions
    of a `Conv` record that the caller supplies.
 */
module Cells {
  import opened Wrappers
  import opened PyStrings

  datatype Cell = Empty | Int(i: int) | Real(r: real) | Bool(b: bool) | Text(s: string)

  /** The float parser and float printer of the host Python, as parameters. */
  datatype Conv = Conv(parseFloat: string -> Option<real>, reprFloat: real -> string)

  /** `str(value)`. */
  function Str(c: Cell, conv: Conv): (s: string)
    ensures c.Text? ==> s == c.s
    ensures c.Int? ==> s == IntToString(c.i)
    ensures c.Empty? ==> s == "None"
    ensures c.Bool? ==> s == (if c.b then "True" else "False")
    ensures c.Real? ==> s == conv.reprFloat(c.r)
  {
    match c
    case Empty => "None"
    case Int(i) => IntToString(i)
    case Real(r) => conv.reprFloat(r)
    case Bool(b) => if b then "True" else "False"
    case Text(s) => s
  }

  /** `float(value)`; the cell's column is carried in the error. `float(None)`
      is a TypeError and `float("x")` a ValueError in Python; both are
      `NotAFloat` here. */
  function Float(c: Cell, column: nat, conv: Conv): (r: Result<real>)
    ensures c.Int? ==> r == Ok(c.i as real)
    ensures c.Real? ==> r == Ok(c.r)
    ensures c.Empty? ==> r == Err(NotAFloat(column))
    ensures c.Bool? ==> r == Ok(if c.b then 1.0 else 0.0)
    ensures c.Text? ==> r == (if conv.parseFloat(c.s).Some? then Ok(conv.parseFloat(c.s).value) else Err(NotAFloat(column)))
    ensures r.Err? ==> r.error == NotAFloat(column)
  {
    match c
    case Empty => Err(NotAFloat(column))
    case Int(i) => Ok(i as real)
    case Real(x) => Ok(x)
    case Bool(b) => Ok(if b then 1.0 else 0.0)
    case Text(s) =>
      match conv.parseFloat(s)
      case Some(x) => Ok(x)
      case None => Err(NotAFloat(column))
  }

  /** Python's `value == n` for an int literal `n`: equal numbers compare
      equal across int, float and bool (`True == 1`, `0.0 == 0`); text and
      `None` never equal a number. */
  predicate EqInt(c: Cell, n: int) {
    match c
    case Int(i) => i == n
    case Real(x) => x == n as real
    case Bool(b) => (if b then 1 else 0) == n
    case _ => false
  }

  /** Exact equality, not truthiness: a true flag needs a cell numerically
      equal to the sentinel, and text never qualifies. */
  lemma EqIntIsNotTruthiness(n: int)
    ensures !EqInt(Int(n + 1), n)
    ensures !EqInt(Text("1"), 1)
    ensures EqInt(Bool(true), 1) && EqInt(Real(0.0), 0)
    ensures !EqInt(Empty, 0)
  {
  }

  /** `row[column].value`, raising IndexError past the end. */
  function At(row: seq<Cell>, column: nat): (r: Result<Cell>)
    ensures r.Ok? <==> column < |row|
    ensures r.Ok? ==> r.value == row[column]
    ensures r.Err? ==> r.error == IndexError(column)
  {
    if column < |row| then Ok(row[column]) else Err(IndexError(column))
  }

  /** `try_import`: the cell at `column`, or `None` when the row is too short. */
  function TryImport(row: seq<Cell>, column: nat): (c: Cell)
    ensures column < |row| ==> c == row[column]
    ensures column >= |row| ==> c == Empty
  {
    if column < |row| then row[column] else Empty
  }
}

=== FILE: excelimport.dfy ===
/** The spreadsheet importer: worksheet rows to pin definitions.

    The worksheet is a sequence of rows that already starts at sheet row 6
    and column B, so column offset 0 is the pin id and offset 1 its
    function. Every field is read at a fixed offset; the sub-builders below
    follow the order in which Python evaluates the keyword arguments, so the
    error a failing row produces is the first one Python would raise.
 */
module ExcelImport {
  import opened Wrappers
  import opened Cells
  import opened PinDefinitions
  import PyStrings

  /** Function values whose rows are skipped. */
  const IgnoreRows: seq<Cell> := [Text("PWR")]

  const DisplayTypeBool: string := "bool"
  const DisplayTypeFloat: string := "float"
  const DirectionInput: string := "input"
  const DirectionOutput: string := "output"

  /** The column of the optional `disable_powerdrop` extension field. */
  const PowerdropColumn: nat := 39

  // ---------------------------------------------------------------------
  // get_display_type
  // ---------------------------------------------------------------------

  predicate IsKnownFunction(pinFunction: Cell) {
    pinFunction in {Text("DIG_IN"), Text("DIG_OUT"), Text("ADC"), Text("DAC")}
  }

  /** The display type and direction of a pin function. A hardware input is
      a GUI output and vice versa. */
  function GetDisplayType(pinFunction: Cell, conv: Conv): (r: Result<(string, string)>)
    ensures pinFunction == Text("DIG_IN") ==> r == Ok((DisplayTypeBool, DirectionOutput))
    ensures pinFunction == Text("DIG_OUT") ==> r == Ok((DisplayTypeBool, DirectionInput))
    ensures pinFunction == Text("ADC") ==> r == Ok((DisplayTypeFloat, DirectionOutput))
    ensures pinFunction == Text("DAC") ==> r == Ok((DisplayTypeFloat, DirectionInput))
    ensures r.Ok? <==> IsKnownFunction(pinFunction)
    ensures r.Err? ==> r.error.ValueError?
  {
    if pinFunction == Text("DIG_IN") then Ok((DisplayTypeBool, DirectionOutput))
    else if pinFunction == Text("DIG_OUT") then Ok((DisplayTypeBool, DirectionInput))
    else if pinFunction == Text("ADC") then Ok((DisplayTypeFloat, DirectionOutput))
    else if pinFunction == Text("DAC") then Ok((DisplayTypeFloat, DirectionInput))
    else Err(ValueError("Unknown pin function " + Str(pinFunction, conv)))
  }

  /** Every recognised function gets a bool or float display and an input
      or output direction: digital functions display as bool, and the
      direction is the reverse of the hardware's, so a GUI input drives an
      output pin. Distinct functions get distinct pairs. */
  lemma DisplayTypeShape(f: Cell, g: Cell, conv: Conv)
    ensures GetDisplayType(f, conv).Ok? ==>
      var (displayType, direction) := GetDisplayType(f, conv).value;
      && displayType in {DisplayTypeBool, DisplayTypeFloat}
      && direction in {DirectionInput, DirectionOutput}
      && (displayType == DisplayTypeBool <==> f in {Text("DIG_IN"), Text("DIG_OUT")})
      && (direction == DirectionInput <==> f in {Text("DIG_OUT"), Text("DAC")})
    ensures (GetDisplayType(f, conv).Ok? && GetDisplayType(g, conv).Ok?
             && GetDisplayType(f, conv).value == GetDisplayType(g, conv).value) ==> f == g
  {
  }

  // ---------------------------------------------------------------------
  // Row filter
  // ---------------------------------------------------------------------

  /** A row is imported when its function is neither ignored nor empty. */
  predicate IsKept(row: seq<Cell>) {
    |row| >= 2 && row[1] !in IgnoreRows && row[1] != Empty
  }

  /** The filter of the import loop; reading `row[1]` raises on a row with
      fewer than two cells. */
  function RowFilter(row: seq<Cell>): (r: Result<bool>)
    ensures r.Ok? <==> |row| >= 2
    ensures r.Ok? ==> (r.value <==> IsKept(row))
  {
    var pinFunction :- At(row, 1);
    Ok(pinFunction !in IgnoreRows && pinFunction != Empty)
  }

  // ---------------------------------------------------------------------
  // One row to one record
  // ---------------------------------------------------------------------

  /** The conditions under which a row with at least two cells imports:
      every fixed column up to offset 26 is present, the five `float()`
      columns hold numbers, and the function is one of the four known ones. */
  predicate RowImportable(row: seq<Cell>, conv: Conv) {
    && |row| >= 27
    && Float(row[4], 4, conv).Ok?
    && Float(row[5], 5, conv).Ok?
    && IsKnownFunction(row[1])
    && Float(row[11], 11, conv).Ok?
    && Float(row[12], 12, conv).Ok?
    && Float(row[13], 13, conv).Ok?
  }

  function ImportCoefficients(row: seq<Cell>, conv: Conv): (r: Result<ConversionCoefficients>)
    ensures r.Ok? <==> |row| > 5 && Float(row[4], 4, conv).Ok? && Float(row[5], 5, conv).Ok?
    ensures r.Ok? ==> r.value.k == Float(row[4], 4, conv).value && r.value.c == Float(row[5], 5, conv).value
  {
    var k0 :- At(row, 4);
    var k :- Float(k0, 4, conv);
    var c0 :- At(row, 5);
    var c :- Float(c0, 5, conv);
    Ok(ConversionCoefficients(k, c))
  }

  /** One of the two GUI placements: `display` is `row[displayColumn] ==
      sentinel`, position copied raw, type and direction from the function. */
  function ImportGui(row: seq<Cell>, displayColumn: nat, sentinel: int, columnColumn: nat, rowColumn: nat,
                     conv: Conv): (r: Result<Gui>)
    requires |row| >= 2
    requires displayColumn < columnColumn < rowColumn
    ensures r.Ok? <==> rowColumn < |row| && IsKnownFunction(row[1])
    ensures r.Ok? ==>
      && r.value.display == EqInt(row[displayColumn], sentinel)
      && r.value.column == OrDefault(row[columnColumn], IntZero)
      && r.value.row == OrDefault(row[rowColumn], IntZero)
      && (r.value.displayType, r.value.displayDirection) == GetDisplayType(row[1], conv).value
  {
    var display :- At(row, displayColumn);
    var column :- At(row, columnColumn);
    var position :- At(row, rowColumn);
    var displayType :- GetDisplayType(row[1], conv);
    Ok(MakeGui(EqInt(display, sentinel), column, position, displayType.0, displayType.1))
  }

  function ImportValue(row: seq<Cell>, conv: Conv): (r: Result<Value>)
    ensures r.Ok? <==> |row| > 22 && Float(row[11], 11, conv).Ok? && Float(row[12], 12, conv).Ok?
                                   && Float(row[13], 13, conv).Ok?
    ensures r.Ok? ==>
      && r.value.min == Float(row[11], 11, conv).value
      && r.value.max == Float(row[12], 12, conv).value
      && r.value.initial == Float(row[13], 13, conv).value
      && r.value.enableInitial == EqInt(row[22], 1)
  {
    var lo :- At(row, 11);
    var min :- Float(lo, 11, conv);
    var hi :- At(row, 12);
    var max :- Float(hi, 12, conv);
    var init :- At(row, 13);
    var initial :- Float(init, 13, conv);
    var enableInitial :- At(row, 22);
    Ok(Value(min, max, initial, EqInt(enableInitial, 1)))
  }

  function ImportAlarm(row: seq<Cell>): (r: Result<Alarm>)
    ensures r.Ok? <==> |row| > 26
    ensures r.Ok? ==> r.value.enable == EqInt(row[23], 1)
    ensures r.Ok? ==> (r.value.above == 1 <==> EqInt(row[24], 1)) && r.value.above in {0, 1}
    ensures r.Ok? ==> r.value == MakeAlarm(r.value.enable, r.value.above, row[25], row[26])
  {
    var enable :- At(row, 23);
    var above :- At(row, 24);
    var warning :- At(row, 25);
    var interlock :- At(row, 26);
    Ok(MakeAlarm(EqInt(enable, 1), if EqInt(above, 1) then 1 else 0, warning, interlock))
  }

  /** The record built from one kept row. */
  function ImportRow(row: seq<Cell>, conv: Conv): (r: Result<PinDefinition>)
    requires |row| >= 2
    ensures r.Ok? <==> RowImportable(row, conv)
    ensures r.Ok? ==>
      var p := r.value;
      && p.id == Str(row[0], conv)
      && p.pinFunction == Str(row[1], conv)
      && p.name == Str(row[2], conv)
      && p.unit == Str(row[3], conv)
      && p.mainGui.display == EqInt(row[6], 0)
      && p.importantGui.display == EqInt(row[14], 1)
      && p.activeLow == EqInt(row[17], 1)
      && p.value.enableInitial == EqInt(row[22], 1)
      && (p.mainGui.displayType, p.mainGui.displayDirection) == GetDisplayType(row[1], conv).value
      && (p.importantGui.displayType, p.importantGui.displayDirection) == GetDisplayType(row[1], conv).value
      && p.mainGui.column == OrDefault(row[7], IntZero) && p.mainGui.row == OrDefault(row[8], IntZero)
      && p.importantGui.column == OrDefault(row[15], IntZero) && p.importantGui.row == OrDefault(row[16], IntZero)
      && p.conversionCoefficients == Some(ConversionCoefficients(Float(row[4], 4, conv).value, Float(row[5], 5, conv).value))
      && p.value.min == Float(row[11], 11, conv).value
      && p.value.max == Float(row[12], 12, conv).value
      && p.value.initial == Float(row[13], 13, conv).value
      && p.exponential == Some(MakeExponential(EqInt(row[18], 1), row[19], row[20], row[21]))
      && p.alarm.Some? && p.alarm.value.enable == EqInt(row[23], 1)
      && (p.alarm.value.above == 1 <==> EqInt(row[24], 1)) && p.alarm.value.above in {0, 1}
      && p.alarm.value.warningValue == OrDefault(row[25], FloatZero)
      && p.alarm.value.interlockValue == OrDefault(row[26], FloatZero)
      && p.miscellaneous == Miscellaneous(row[9], row[10], TryImport(row, PowerdropColumn))
  {
    // Python reads row[0] and row[1] in the loop's filter already.
    var name :- At(row, 2);
    var unit :- At(row, 3);
    var coefficients :- ImportCoefficients(row, conv);
    var mainGui :- ImportGui(row, 6, 0, 7, 8, conv);
    var value :- ImportValue(row, conv);
    // Columns up to 22 and the function were read successfully above, so
    // the important placement, active_low, the exponential and the
    // miscellaneous part cannot fail; only the alarm columns 23-26 can.
    var importantGui := MakeGui(EqInt(row[14], 1), row[15], row[16],
                                mainGui.displayType, mainGui.displayDirection);
    var exponential := MakeExponential(EqInt(row[18], 1), row[19], row[20], row[21]);
    var alarm :- ImportAlarm(row);
    var miscellaneous := Miscellaneous(row[9], row[10], TryImport(row, PowerdropColumn));
    Ok(PinDefinition(
      Str(row[0], conv), Str(row[1], conv), Str(name, conv), Str(unit, conv),
      mainGui, value, importantGui, EqInt(row[17], 1), miscellaneous,
      Some(coefficients), Some(exponential), Some(alarm)))
  }

  // ---------------------------------------------------------------------
  // The import loop
  // ---------------------------------------------------------------------

  /** `import_excel` on an already loaded worksheet: one record per kept
      row, in sheet order; the first failing row fails the whole call. */
  function ImportExcel(rows: seq<seq<Cell>>, conv: Conv): (r: Result<seq<PinDefinition>>)
    ensures r.Ok? ==> |r.value| == |KeptRows(rows)| <= |rows|
    ensures |rows| > 0 && |rows[0]| < 2 ==> r.Err?
    ensures r.Err? ==> exists i :: 0 <= i < |rows| && (|rows[i]| < 2 || (IsKept(rows[i]) && ImportRow(rows[i], conv).Err?))
  {
    if |rows| == 0 then Ok([])
    else
      var keep :- RowFilter(rows[0]);
      if keep then
        var pin :- ImportRow(rows[0], conv);
        var rest :- ImportExcel(rows[1..], conv);
        Ok([pin] + rest)
      else
        ImportExcel(rows[1..], conv)
  }

  /** The rows the loop keeps, in sheet order. */
  function KeptRows(rows: seq<seq<Cell>>): (kept: seq<seq<Cell>>)
    ensures forall j :: 0 <= j < |kept| ==> IsKept(kept[j])
    ensures forall i :: 0 <= i < |rows| && IsKept(rows[i]) ==> rows[i] in kept
    ensures multiset(kept) <= multiset(rows)
  {
    if |rows| == 0 then []
    else
      assert rows == [rows[0]] + rows[1..];
      assert forall i :: 0 < i < |rows| ==> rows[i] == rows[1..][i - 1];
      if IsKept(rows[0]) then [rows[0]] + KeptRows(rows[1..])
      else KeptRows(rows[1..])
  }

  /** Each row that passes the filter is kept exactly as often as it occurs
      in the sheet, and no other row is kept. */
  lemma {:induction false} KeptRowsCounts(rows: seq<seq<Cell>>)
    ensures forall x :: multiset(KeptRows(rows))[x] == (if IsKept(x) then multiset(rows)[x] else 0)
  {
    if |rows| > 0 {
      KeptRowsCounts(rows[1..]);
      KeptRowsCons(rows);
      var head: seq<seq<Cell>> := if IsKept(rows[0]) then [rows[0]] else [];
      assert multiset(rows) == multiset([rows[0]]) + multiset(rows[1..]) by {
        assert rows == [rows[0]] + rows[1..];
      }
      assert multiset(KeptRows(rows)) == multiset(head) + multiset(KeptRows(rows[1..]));
    }
  }

  /** The kept rows of two consecutive blocks of the sheet are those of the
      first block followed by those of the second: the loop keeps sheet
      order. */
  lemma {:induction false} KeptRowsAppend(a: seq<seq<Cell>>, b: seq<seq<Cell>>)
    ensures KeptRows(a + b) == KeptRows(a) + KeptRows(b)
  {
    if |a| > 0 {
      PyStrings.ConsAppend(a, b);
      KeptRowsAppend(a[1..], b);
      KeptRowsCons(a + b);
      KeptRowsCons(a);
      PyStrings.AppendAssoc(if IsKept(a[0]) then [a[0]] else [], KeptRows(a[1..]), KeptRows(b));
    } else {
      assert a + b == b;
    }
  }

  /** The kept rows of a non-empty sheet: the first row, if kept, then the
      kept rows of the rest. */
  lemma KeptRowsCons(rows: seq<seq<Cell>>)
    requires |rows| > 0
    ensures KeptRows(rows) == (if IsKept(rows[0]) then [rows[0]] else []) + KeptRows(rows[1..])
  {
  }

  /** What a whole worksheet must satisfy for the import to succeed. */
  predicate SheetImportable(rows: seq<seq<Cell>>, conv: Conv) {
    forall i :: 0 <= i < |rows| ==> |rows[i]| >= 2 && (IsKept(rows[i]) ==> RowImportable(rows[i], conv))
  }

  lemma SheetImportableCons(rows: seq<seq<Cell>>, conv: Conv)
    requires |rows| > 0
    ensures SheetImportable(rows, conv) <==>
      && |rows[0]| >= 2 && (IsKept(rows[0]) ==> RowImportable(rows[0], conv))
      && SheetImportable(rows[1..], conv)
  {
    if SheetImportable(rows[1..], conv) {
      forall i | 0 < i < |rows|
        ensures |rows[i]| >= 2 && (IsKept(rows[i]) ==> RowImportable(rows[i], conv))
      {
        assert rows[i] == rows[1..][i - 1];
      }
    }
  }

  /** The import succeeds exactly when every row has a function cell and
      every kept row imports. */
  lemma {:induction false} ImportExcelSucceeds(rows: seq<seq<Cell>>, conv: Conv)
    ensures ImportExcel(rows, conv).Ok? <==> SheetImportable(rows, conv)
  {
    if |rows| > 0 {
      ImportExcelSucceeds(rows[1..], conv);
      SheetImportableCons(rows, conv);
    }
  }

  /** `pins` are the records of `kept`, index by index. */
  predicate RecordsOf(pins: seq<PinDefinition>, kept: seq<seq<Cell>>, conv: Conv) {
    && |pins| == |kept|
    && forall j :: 0 <= j < |pins| ==> |kept[j]| >= 2 && ImportRow(kept[j], conv) == Ok(pins[j])
  }

  lemma RecordsOfCons(pin: PinDefinition, pins: seq<PinDefinition>, row: seq<Cell>, kept: seq<seq<Cell>>,
                      conv: Conv)
    requires |row| >= 2 && ImportRow(row, conv) == Ok(pin) && RecordsOf(pins, kept, conv)
    ensures RecordsOf([pin] + pins, [row] + kept, conv)
  {
    var ps := [pin] + pins;
    var ks := [row] + kept;
    forall j | 0 <= j < |ps|
      ensures |ks[j]| >= 2 && ImportRow(ks[j], conv) == Ok(ps[j])
    {
      if j > 0 {
        assert ps[j] == pins[j - 1] && ks[j] == kept[j - 1];
      }
    }
  }

  /** A successful import returns one record per kept row, in sheet order,
      and nothing for the ignored rows. */
  lemma {:induction false} ImportExcelRecords(rows: seq<seq<Cell>>, conv: Conv)
    requires ImportExcel(rows, conv).Ok?
    ensures RecordsOf(ImportExcel(rows, conv).value, KeptRows(rows), conv)
  {
    if |rows| > 0 {
      ImportExcelRecords(rows[1..], conv);
      if IsKept(rows[0]) {
        ImportExcelRecordsKept(rows, conv);
      } else {
        assert RowFilter(rows[0]) == Ok(false);
        assert ImportExcel(rows, conv) == ImportExcel(rows[1..], conv);
      }
    }
  }

  /** The step of `ImportExcelRecords` for a kept first row. */
  lemma ImportExcelRecordsKept(rows: seq<seq<Cell>>, conv: Conv)
    requires |rows| > 0 && IsKept(rows[0]) && ImportExcel(rows, conv).Ok?
    requires ImportExcel(rows[1..], conv).Ok?
    requires RecordsOf(ImportExcel(rows[1..], conv).value, KeptRows(rows[1..]), conv)
    ensures RecordsOf(ImportExcel(rows, conv).value, KeptRows(rows), conv)
  {
    assert RowFilter(rows[0]) == Ok(true);
    var pin := ImportRow(rows[0], conv).value;
    assert ImportExcel(rows, conv).value == [pin] + ImportExcel(rows[1..], conv).value;
    assert KeptRows(rows) == [rows[0]] + KeptRows(rows[1..]);
    RecordsOfCons(pin, ImportExcel(rows[1..], conv).value, rows[0], KeptRows(rows[1..]), conv);
  }

  /** A kept row that fails to import fails the whole import: no partial
      list is ever returned. */
  lemma ImportIsAtomic(rows: seq<seq<Cell>>, conv: Conv, i: nat)
    requires i < |rows| && IsKept(rows[i]) && ImportRow(rows[i], conv).Err?
    ensures ImportExcel(rows, conv).Err?
  {
    ImportExcelSucceeds(rows, conv);
  }

  /** Rows shorter than 40 cells still import; their `disable_powerdrop`
      is `None`. */
  lemma ShortRowHasNoPowerdrop(row: seq<Cell>, conv: Conv)
    requires 27 <= |row| < 40
    requires IsKept(row) && RowImportable(row, conv)
    ensures ImportRow(row, conv).Ok?
    ensures ImportRow(row, conv).value.miscellaneous.disablePowerdrop == Empty
  {
  }

  /** The importer does not check `min <= initial <= max`. */
  lemma ImportAcceptsValueOutsideRange(conv: Conv)
    ensures var row := [Text("ADD1 0"), Text("DAC"), Text("out"), Text("V"), Int(1), Int(0),
                        Int(0), Int(0), Int(0), Empty, Empty, Int(10), Int(0), Int(50),
                        Int(0), Int(0), Int(0), Int(0), Int(0), Empty, Empty, Empty,
                        Int(1), Int(0), Int(0), Empty, Empty];
            && ImportRow(row, conv).Ok?
            && var v := ImportRow(row, conv).value.value;
            v.min > v.max && v.initial > v.max
  {
    var row := [Text("ADD1 0"), Text("DAC"), Text("out"), Text("V"), Int(1), Int(0),
                Int(0), Int(0), Int(0), Empty, Empty, Int(10), Int(0), Int(50),
                Int(0), Int(0), Int(0), Int(0), Int(0), Empty, Empty, Empty,
                Int(1), Int(0), Int(0), Empty, Empty];
    assert RowImportable(row, conv);
    var v := ImportValue(row, conv).value;
    assert v.min == 10.0 && v.max == 0.0 && v.initial == 50.0;
  }
}

=== FILE: guidesigner.dfy ===
/** The GUI designer's panel: a tree of GUI items with at most one top-level
    item, a current item and a selection flag, and the way predefined
    components (imported modules and the FPGA controller) are added to it.

    The Qt tree widget is modelled as a rose tree; an item is addressed by
    its path of child indices from the top level.
 */
module GuiDesigner {
  import opened Wrappers
  import opened PyStrings
  import opened Cells
  import opened PinDefinitions
  import opened GuiItems
  import Modules
  import ExcelImport
  import PredefinedWidgets

  datatype Item =
    | ContainerNode(container: ContainerItem)
    | InputNode(input: WidgetItem)
    | OutputNode(output: WidgetItem)
    | ControllerNode(controller: ControllerItem)

  datatype Node = Node(item: Item, children: seq<Node>)

  /** `PanelWidget`: its top-level items, the current item and
      `item_selected`. */
  datatype Panel = Panel(roots: seq<Node>, current: Option<seq<nat>>, itemSelected: bool)

  function NewPanel(): (p: Panel)
    ensures p.roots == [] && p.current.None? && !p.itemSelected
  {
    Panel([], None, false)
  }

  // ---------------------------------------------------------------------
  // Trees and paths
  // ---------------------------------------------------------------------

  function SizeOf(n: Node): nat
    decreases n
  {
    1 + SizeAll(n.children)
  }

  /** The number of items in a forest. */
  function SizeAll(ns: seq<Node>): nat
    decreases ns
  {
    if |ns| == 0 then 0 else SizeOf(ns[0]) + SizeAll(ns[1..])
  }

  /** A path that names an item of the forest. */
  predicate ValidPath(ns: seq<Node>, path: seq<nat>)
    decreases |path|
  {
    && |path| > 0
    && path[0] < |ns|
    && (|path| == 1 || ValidPath(ns[path[0]].children, path[1..]))
  }

  function NodeAt(ns: seq<Node>, path: seq<nat>): Node
    requires ValidPath(ns, path)
    decreases |path|
  {
    if |path| == 1 then ns[path[0]] else NodeAt(ns[path[0]].children, path[1..])
  }

  /** `addChild` on the item at `path`. */
  function AppendChildAt(ns: seq<Node>, path: seq<nat>, w: Node): (r: seq<Node>)
    requires ValidPath(ns, path)
    ensures |r| == |ns|
    decreases |path|
  {
    var n := ns[path[0]];
    if |path| == 1 then ns[path[0] := n.(children := n.children + [w])]
    else ns[path[0] := n.(children := AppendChildAt(n.children, path[1..], w))]
  }

  /** `removeChild` of the item at `path` from its parent, or from the top
      level. */
  function RemoveAt(ns: seq<Node>, path: seq<nat>): (r: seq<Node>)
    requires ValidPath(ns, path)
    ensures |path| == 1 ==> |r| == |ns| - 1
    ensures |path| > 1 ==> |r| == |ns|
    decreases |path|
  {
    var i := path[0];
    if |path| == 1 then ns[..i] + ns[i + 1..]
    else ns[i := ns[i].(children := RemoveAt(ns[i].children, path[1..]))]
  }

  lemma {:induction false} SizeAllAppend(a: seq<Node>, b: seq<Node>)
    ensures SizeAll(a + b) == SizeAll(a) + SizeAll(b)
    decreases |a|
  {
    if |a| > 0 {
      assert (a + b)[0] == a[0];
      assert (a + b)[1..] == a[1..] + b;
      SizeAllAppend(a[1..], b);
    } else {
      assert a + b == b;
    }
  }

  lemma SizeAllSplit(ns: seq<Node>, i: nat)
    requires i < |ns|
    ensures SizeAll(ns) == SizeAll(ns[..i]) + SizeOf(ns[i]) + SizeAll(ns[i + 1..])
  {
    var tail := [ns[i]] + ns[i + 1..];
    assert tail[0] == ns[i] && tail[1..] == ns[i + 1..];
    assert SizeAll(tail) == SizeOf(ns[i]) + SizeAll(ns[i + 1..]);
    assert ns == ns[..i] + tail;
    SizeAllAppend(ns[..i], tail);
  }

  /** Replacing one tree of a forest changes its size by the difference. */
  lemma SizeAllUpdate(ns: seq<Node>, i: nat, m: Node)
    requires i < |ns|
    ensures SizeAll(ns[i := m]) == SizeAll(ns) - SizeOf(ns[i]) + SizeOf(m)
  {
    SizeAllSplit(ns, i);
    SizeAllSplit(ns[i := m], i);
    assert ns[i := m][..i] == ns[..i];
    assert ns[i := m][i + 1..] == ns[i + 1..];
  }

  /** Appending a child adds exactly that subtree under the item at `path`. */
  lemma {:induction false} AppendChildAtSpec(ns: seq<Node>, path: seq<nat>, w: Node)
    requires ValidPath(ns, path)
    ensures ValidPath(AppendChildAt(ns, path, w), path)
    ensures NodeAt(AppendChildAt(ns, path, w), path).children == NodeAt(ns, path).children + [w]
    ensures NodeAt(AppendChildAt(ns, path, w), path).item == NodeAt(ns, path).item
    ensures SizeAll(AppendChildAt(ns, path, w)) == SizeAll(ns) + SizeOf(w)
    decreases |path|
  {
    var i := path[0];
    var n := ns[i];
    if |path| == 1 {
      SizeAllAppend(n.children, [w]);
      assert SizeAll([w]) == SizeOf(w);
      SizeAllUpdate(ns, i, n.(children := n.children + [w]));
    } else {
      AppendChildAtSpec(n.children, path[1..], w);
      SizeAllUpdate(ns, i, n.(children := AppendChildAt(n.children, path[1..], w)));
    }
  }

  /** Removing takes out exactly the subtree at `path`. */
  lemma {:induction false} RemoveAtSpec(ns: seq<Node>, path: seq<nat>)
    requires ValidPath(ns, path)
    ensures SizeAll(RemoveAt(ns, path)) == SizeAll(ns) - SizeOf(NodeAt(ns, path))
    ensures |path| == 1 ==>
      var r := RemoveAt(ns, path);
      && (forall j :: 0 <= j < path[0] ==> r[j] == ns[j])
      && (forall j :: path[0] <= j < |r| ==> r[j] == ns[j + 1])
    ensures |path| > 1 ==>
      var parent, k, r := path[..|path| - 1], path[|path| - 1], RemoveAt(ns, path);
      && ValidPath(ns, parent) && ValidPath(r, parent)
      && NodeAt(r, parent).item == NodeAt(ns, parent).item
      && k < |NodeAt(ns, parent).children|
      && NodeAt(r, parent).children == NodeAt(ns, parent).children[..k] + NodeAt(ns, parent).children[k + 1..]
      && forall j :: 0 <= j < |ns| && j != path[0] ==> r[j] == ns[j]
    decreases |path|
  {
    var i := path[0];
    if |path| == 1 {
      SizeAllSplit(ns, i);
      SizeAllAppend(ns[..i], ns[i + 1..]);
      var r := RemoveAt(ns, path);
      assert r == ns[..i] + ns[i + 1..];
      assert forall j :: 0 <= j < i ==> r[j] == ns[..i][j];
      assert forall j :: i <= j < |r| ==> r[j] == ns[i + 1..][j - i];
    } else {
      RemoveAtParent(ns, path);
      RemoveAtSpec(ns[i].children, path[1..]);
      SizeAllUpdate(ns, i, ns[i].(children := RemoveAt(ns[i].children, path[1..])));
    }
  }

  /** The path of an item's parent names an item, and the item is the
      parent's child at the path's last index. */
  lemma {:induction false} ParentPath(ns: seq<Node>, path: seq<nat>)
    requires ValidPath(ns, path) && |path| > 1
    ensures ValidPath(ns, path[..|path| - 1])
    ensures path[|path| - 1] < |NodeAt(ns, path[..|path| - 1]).children|
    ensures NodeAt(ns, path) == NodeAt(ns, path[..|path| - 1]).children[path[|path| - 1]]
    decreases |path|
  {
    var parent := path[..|path| - 1];
    if |path| > 2 {
      var tail := path[1..];
      ParentPath(ns[path[0]].children, tail);
      assert parent[1..] == tail[..|tail| - 1];
      assert tail[|tail| - 1] == path[|path| - 1];
    }
  }

  /** Removing a nested item takes exactly it out of its parent's children,
      keeps the parent, and leaves every other top-level tree as it was. */
  lemma {:induction false} RemoveAtParent(ns: seq<Node>, path: seq<nat>)
    requires ValidPath(ns, path) && |path| > 1
    ensures ValidPath(ns, path[..|path| - 1])
    ensures var parent, k, r := path[..|path| - 1], path[|path| - 1], RemoveAt(ns, path);
      && ValidPath(r, parent)
      && NodeAt(r, parent).item == NodeAt(ns, parent).item
      && k < |NodeAt(ns, parent).children|
      && NodeAt(r, parent).children == NodeAt(ns, parent).children[..k] + NodeAt(ns, parent).children[k + 1..]
      && forall j :: 0 <= j < |ns| && j != path[0] ==> r[j] == ns[j]
    decreases |path|
  {
    ParentPath(ns, path);
    var parent, k, r := path[..|path| - 1], path[|path| - 1], RemoveAt(ns, path);
    var i := path[0];
    if |path| > 2 {
      var tail := path[1..];
      RemoveAtParent(ns[i].children, tail);
      assert parent[1..] == tail[..|tail| - 1];
      assert tail[|tail| - 1] == k;
      assert r[i].children == RemoveAt(ns[i].children, tail);
    } else {
      assert parent == [i];
    }
  }

  // ---------------------------------------------------------------------
  // The panel
  // ---------------------------------------------------------------------

  /** The current item, if any, is an item of the tree. */
  predicate Valid(p: Panel) {
    p.current.Some? ==> ValidPath(p.roots, p.current.value)
  }

  /** At most one top-level item. */
  predicate SingleRoot(p: Panel) {
    |p.roots| <= 1
  }

  /** `click_handler`: a click clears a selection, or selects the item. */
  function ClickHandler(p: Panel, clicked: seq<nat>): (r: Panel)
    ensures r.roots == p.roots
    ensures r.itemSelected == !p.itemSelected
    ensures r.itemSelected <==> r.current == Some(clicked)
    ensures !r.itemSelected ==> r.current.None?
  {
    if p.itemSelected then p.(current := None, itemSelected := false)
    else p.(current := Some(clicked), itemSelected := true)
  }

  /** Clicking an item of the tree keeps the panel valid; two clicks on it
      return to the unselected state with no current item. */
  lemma ClickHandlerValid(p: Panel, clicked: seq<nat>)
    requires Valid(p) && ValidPath(p.roots, clicked)
    ensures Valid(ClickHandler(p, clicked))
    ensures !p.itemSelected ==> ClickHandler(ClickHandler(p, clicked), clicked) == p.(current := None)
  {
  }

  const OneTopLevelMessage: string := "There can only be one top level widget"

  function IsContainer(n: Node): bool {
    n.item.ContainerNode?
  }

  /** `add_widget`: returns the panel and the status-bar message, if one is
      emitted. With no current item the widget becomes the top-level item
      unless there already is one; a current item that is not a container
      refuses the widget; a current container receives it as last child. */
  function AddWidget(p: Panel, w: Node): (r: (Panel, Option<string>))
    requires Valid(p)
    ensures r.1.Some? <==> (p.current.None? && |p.roots| >= 1)
                           || (p.current.Some? && !IsContainer(NodeAt(p.roots, p.current.value)))
    ensures r.1.Some? ==> r.0 == p && r.1.value == OneTopLevelMessage
    ensures r.1.None? && p.current.None? ==> r.0.roots == [w]
    ensures r.0.current == p.current && r.0.itemSelected == p.itemSelected
  {
    match p.current
    case None =>
      if |p.roots| >= 1 then (p, Some(OneTopLevelMessage))
      else (p.(roots := p.roots + [w]), None)
    case Some(path) =>
      if !IsContainer(NodeAt(p.roots, path)) then (p, Some(OneTopLevelMessage))
      else (p.(roots := AppendChildAt(p.roots, path, w)), None)
  }

  /** What `add_widget` does, case by case; the panel stays valid and never
      gets a second top-level item. */
  lemma AddWidgetSpec(p: Panel, w: Node)
    requires Valid(p)
    ensures var (r, message) := AddWidget(p, w);
      && Valid(r) && r.current == p.current && r.itemSelected == p.itemSelected
      && (SingleRoot(p) ==> SingleRoot(r))
      && (message.Some? <==> (p.current.None? && |p.roots| >= 1)
                              || (p.current.Some? && !IsContainer(NodeAt(p.roots, p.current.value))))
      && (message.Some? ==> r == p && message.value == OneTopLevelMessage)
      && (message.None? ==> SizeAll(r.roots) == SizeAll(p.roots) + SizeOf(w))
      && (message.None? && p.current.None? ==> r.roots == [w])
      && (message.None? && p.current.Some? ==>
            |r.roots| == |p.roots|
            && NodeAt(r.roots, p.current.value).children == NodeAt(p.roots, p.current.value).children + [w])
  {
    if p.current.Some? && IsContainer(NodeAt(p.roots, p.current.value)) {
      AppendChildAtSpec(p.roots, p.current.value, w);
    } else if p.current.None? && |p.roots| == 0 {
      assert SizeAll([w]) == SizeOf(w);
    }
  }

  /** `remove_widget`: removes the current item's subtree from its parent,
      or clears the panel when the current item is top-level. Without a
      current item, `currentItem().parent()` raises AttributeError. Qt's
      choice of the next current item is not modelled: none is current. */
  function RemoveWidget(p: Panel): (r: Result<Panel>)
    requires Valid(p)
    ensures r.Ok? ==> Valid(r.value) && r.value.current.None?
  {
    match p.current
    case None => Err(AttributeError("'NoneType' object has no attribute 'parent'"))
    case Some(path) =>
      if |path| > 1 then Ok(p.(roots := RemoveAt(p.roots, path), current := None))
      else Ok(p.(roots := [], current := None))
  }

  /** Removing an item with a parent takes out only its subtree and keeps
      the top level; removing a top-level item empties the panel. */
  lemma RemoveWidgetSpec(p: Panel)
    requires Valid(p)
    ensures RemoveWidget(p).Err? <==> p.current.None?
    ensures RemoveWidget(p).Ok? ==>
      var path := p.current.value;
      var r := RemoveWidget(p).value;
      && (|path| > 1 ==> |r.roots| == |p.roots|
                         && SizeAll(r.roots) == SizeAll(p.roots) - SizeOf(NodeAt(p.roots, path)))
      && (|path| > 1 ==>
            var parent, k := path[..|path| - 1], path[|path| - 1];
            && ValidPath(p.roots, parent) && ValidPath(r.roots, parent)
            && NodeAt(r.roots, parent).item == NodeAt(p.roots, parent).item
            && k < |NodeAt(p.roots, parent).children|
            && NodeAt(r.roots, parent).children
               == NodeAt(p.roots, parent).children[..k] + NodeAt(p.roots, parent).children[k + 1..]
            && forall j :: 0 <= j < |p.roots| && j != path[0] ==> r.roots[j] == p.roots[j])
      && (|path| == 1 ==> r.roots == [])
      && (SingleRoot(p) ==> SingleRoot(r))
  {
    if p.current.Some? && |p.current.value| > 1 {
      RemoveAtSpec(p.roots, p.current.value);
    }
  }

  // ---------------------------------------------------------------------
  // Predefined components
  // ---------------------------------------------------------------------

  const ImportantSuffix: string := "-important"

  /** Whether a pin gets an editor in the normal or the important view. */
  predicate Shown(pin: PinDefinition, important: bool) {
    (pin.mainGui.display && !important) || (important && pin.importantGui.display)
  }

  function ShownPins(pins: seq<PinDefinition>, important: bool): (r: seq<PinDefinition>)
    ensures |r| <= |pins|
    ensures forall j :: 0 <= j < |r| ==> Shown(r[j], important)
    ensures forall i :: 0 <= i < |pins| && Shown(pins[i], important) ==> pins[i] in r
    ensures multiset(r) <= multiset(pins)
    decreases |pins|
  {
    if |pins| == 0 then []
    else
      assert pins == [pins[0]] + pins[1..];
      assert forall i :: 0 < i < |pins| ==> pins[i] == pins[1..][i - 1];
      if Shown(pins[0], important) then [pins[0]] + ShownPins(pins[1..], important)
      else ShownPins(pins[1..], important)
  }

  /** Each shown pin is selected exactly as often as it occurs in the
      module, and no other pin is selected. */
  lemma {:induction false} ShownPinsCounts(pins: seq<PinDefinition>, important: bool)
    ensures forall x :: multiset(ShownPins(pins, important))[x]
                        == (if Shown(x, important) then multiset(pins)[x] else 0)
  {
    if |pins| > 0 {
      ShownPinsCounts(pins[1..], important);
      ShownPinsCons(pins, important);
      var head: seq<PinDefinition> := if Shown(pins[0], important) then [pins[0]] else [];
      assert multiset(pins) == multiset([pins[0]]) + multiset(pins[1..]) by {
        assert pins == [pins[0]] + pins[1..];
      }
      assert multiset(ShownPins(pins, important)) == multiset(head) + multiset(ShownPins(pins[1..], important));
    }
  }

  /** The shown pins of two consecutive blocks of pins are those of the
      first block followed by those of the second: module order is kept. */
  lemma {:induction false} ShownPinsAppend(a: seq<PinDefinition>, b: seq<PinDefinition>, important: bool)
    ensures ShownPins(a + b, important) == ShownPins(a, important) + ShownPins(b, important)
  {
    if |a| > 0 {
      ConsAppend(a, b);
      ShownPinsAppend(a[1..], b, important);
      ShownPinsCons(a + b, important);
      ShownPinsCons(a, important);
      AppendAssoc(if Shown(a[0], important) then [a[0]] else [], ShownPins(a[1..], important), ShownPins(b, important));
    } else {
      assert a + b == b;
    }
  }

  predicate HasDirection(pin: PinDefinition) {
    pin.mainGui.displayDirection in {"input", "output"}
  }

  /** The editor item of a pin: by its main direction, with the pin's data
      attached. Any other direction raises ValueError. */
  function Editor(pin: PinDefinition, important: bool): (r: Result<Node>)
    ensures r.Ok? <==> HasDirection(pin)
    ensures r.Err? ==> r.error.ValueError?
  {
    var item := WidgetItem(Some(PinData(pin, important)));
    if pin.mainGui.displayDirection == "input" then Ok(Node(InputNode(item), []))
    else if pin.mainGui.displayDirection == "output" then Ok(Node(OutputNode(item), []))
    else Err(ValueError("Could not determine if " + pin.pinFunction + " is input or output."))
  }

  /** The editors of the shown pins, in module order. */
  function Editors(pins: seq<PinDefinition>, important: bool): (r: Result<seq<Node>>)
    ensures r.Ok? ==> |r.value| <= |pins|
    decreases |pins|
  {
    if |pins| == 0 then Ok([])
    else if Shown(pins[0], important) then
      var editor :- Editor(pins[0], important);
      var rest :- Editors(pins[1..], important);
      Ok([editor] + rest)
    else
      Editors(pins[1..], important)
  }

  /** Every pin of `pins` has an input or output direction. */
  predicate AllDirected(pins: seq<PinDefinition>) {
    forall j :: 0 <= j < |pins| ==> HasDirection(pins[j])
  }

  /** The shown pins of a non-empty list: the first pin, if shown, then the
      shown pins of the rest. */
  lemma ShownPinsCons(pins: seq<PinDefinition>, important: bool)
    requires |pins| > 0
    ensures Shown(pins[0], important) ==> ShownPins(pins, important) == [pins[0]] + ShownPins(pins[1..], important)
    ensures !Shown(pins[0], important) ==> ShownPins(pins, important) == ShownPins(pins[1..], important)
  {
  }

  lemma AllDirectedCons(x: PinDefinition, rest: seq<PinDefinition>)
    ensures AllDirected([x] + rest) <==> HasDirection(x) && AllDirected(rest)
  {
    var xs := [x] + rest;
    assert xs[0] == x;
    assert forall j :: 0 <= j < |rest| ==> xs[j + 1] == rest[j];
  }

  /** The editors succeed iff every shown pin has a direction. */
  lemma {:induction false} EditorsSucceed(pins: seq<PinDefinition>, important: bool)
    ensures Editors(pins, important).Ok? <==> AllDirected(ShownPins(pins, important))
    decreases |pins|
  {
    if |pins| > 0 {
      EditorsSucceed(pins[1..], important);
      ShownPinsCons(pins, important);
      if Shown(pins[0], important) {
        EditorsSucceedShown(pins, important);
      } else {
        assert Editors(pins, important) == Editors(pins[1..], important);
      }
    }
  }

  /** The step of `EditorsSucceed` for a shown first pin. */
  lemma EditorsSucceedShown(pins: seq<PinDefinition>, important: bool)
    requires |pins| > 0 && Shown(pins[0], important)
    requires Editors(pins[1..], important).Ok? <==> AllDirected(ShownPins(pins[1..], important))
    ensures Editors(pins, important).Ok? <==> AllDirected(ShownPins(pins, important))
  {
    ShownPinsCons(pins, important);
    AllDirectedCons(pins[0], ShownPins(pins[1..], important));
    assert Editors(pins, important).Ok? <==>
      Editor(pins[0], important).Ok? && Editors(pins[1..], important).Ok?;
  }

  /** `editors` are the editors of `shown`, index by index. */
  predicate EditorsOf(editors: seq<Node>, shown: seq<PinDefinition>, important: bool) {
    && |editors| == |shown|
    && forall j :: 0 <= j < |shown| ==> Ok(editors[j]) == Editor(shown[j], important)
  }

  lemma EditorsOfCons(e: Node, editors: seq<Node>, x: PinDefinition, shown: seq<PinDefinition>, important: bool)
    requires Ok(e) == Editor(x, important) && EditorsOf(editors, shown, important)
    ensures EditorsOf([e] + editors, [x] + shown, important)
  {
    var es := [e] + editors;
    var xs := [x] + shown;
    forall j | 0 <= j < |xs|
      ensures Ok(es[j]) == Editor(xs[j], important)
    {
      if j > 0 {
        assert es[j] == editors[j - 1] && xs[j] == shown[j - 1];
      }
    }
  }

  /** Successful editors are one per shown pin, in order, each carrying its
      pin. */
  lemma {:induction false} EditorsValues(pins: seq<PinDefinition>, important: bool)
    requires Editors(pins, important).Ok?
    ensures var shown := ShownPins(pins, important);
      var editors := Editors(pins, important).value;
      && |editors| == |shown|
      && forall j :: 0 <= j < |shown| ==> Ok(editors[j]) == Editor(shown[j], important)
    decreases |pins|
  {
    if |pins| > 0 {
      ShownPinsCons(pins, important);
      if Shown(pins[0], important) {
        assert Editor(pins[0], important).Ok? && Editors(pins[1..], important).Ok?;
        EditorsValues(pins[1..], important);
        EditorsValuesShown(pins, important);
      } else {
        assert Editors(pins, important) == Editors(pins[1..], important);
        EditorsValues(pins[1..], important);
      }
    }
  }

  /** The step of `EditorsValues` for a shown first pin. */
  lemma EditorsValuesShown(pins: seq<PinDefinition>, important: bool)
    requires |pins| > 0 && Shown(pins[0], important)
    requires Editors(pins, important).Ok? && Editors(pins[1..], important).Ok?
    requires EditorsOf(Editors(pins[1..], important).value, ShownPins(pins[1..], important), important)
    ensures EditorsOf(Editors(pins, important).value, ShownPins(pins, important), important)
  {
    ShownPinsCons(pins, important);
    var e := Editor(pins[0], important).value;
    assert Editors(pins, important).value == [e] + Editors(pins[1..], important).value;
    EditorsOfCons(e, Editors(pins[1..], important).value, pins[0], ShownPins(pins[1..], important), important);
  }

  /** The editors succeed iff every shown pin has a direction, and are then
      one per shown pin, in order, each carrying its pin. */
  lemma EditorsSpec(pins: seq<PinDefinition>, important: bool)
    ensures Editors(pins, important).Ok? <==> AllDirected(ShownPins(pins, important))
    ensures Editors(pins, important).Ok? ==>
      var shown := ShownPins(pins, important);
      var editors := Editors(pins, important).value;
      && |editors| == |shown|
      && forall j :: 0 <= j < |shown| ==> Ok(editors[j]) == Editor(shown[j], important)
  {
    EditorsSucceed(pins, important);
    if Editors(pins, important).Ok? {
      EditorsValues(pins, important);
    }
  }

  /** The node of a new container named after the module. */
  function ModuleContainer(name: string, important: bool, editors: seq<Node>): Node {
    var c := NewContainer();
    var title := name + (if important then ImportantSuffix else "");
    Node(ContainerNode(c.(name := c.name.(name := title))), editors)
  }

  /** `add_predefined_gui_components`: a controller item for the
      controller; for a module, a container of the shown pins' editors,
      added through `add_widget` only once every editor is built. */
  function AddPredefinedGuiComponents(p: Panel, component: Modules.Component, important: bool)
    : (r: Result<(Panel, Option<string>)>)
    requires Valid(p)
    ensures component.ControllerComponent? ==> r.Ok?
    ensures r.Ok? ==> r.value.0.current == p.current
    ensures r.Ok? && r.value.1.Some? ==> r.value.0 == p && r.value.1.value == OneTopLevelMessage
  {
    match component
    case ControllerComponent(_) => Ok(AddWidget(p, Node(ControllerNode(NewControllerItem()), [])))
    case ModuleComponent(m) =>
      var editors :- Editors(m.pinDefinitions, important);
      Ok(AddWidget(p, ModuleContainer(m.name, important, editors)))
  }

  /** Adding a module's component fails iff a shown pin has no direction,
      and otherwise adds its container, with the editors, exactly as
      `add_widget` would. */
  lemma AddModuleComponentSpec(p: Panel, m: Modules.Module, important: bool)
    requires Valid(p)
    ensures var r := AddPredefinedGuiComponents(p, Modules.ModuleComponent(m), important);
      && (r.Err? <==> exists j :: 0 <= j < |ShownPins(m.pinDefinitions, important)|
                                   && !HasDirection(ShownPins(m.pinDefinitions, important)[j]))
      && (r.Err? ==> r.error.ValueError?)
      && (r.Ok? ==>
            var container := ModuleContainer(m.name, important, Editors(m.pinDefinitions, important).value);
            && r.value == AddWidget(p, container)
            && container.item.container.name.name == m.name + (if important then ImportantSuffix else "")
            && |container.children| == |ShownPins(m.pinDefinitions, important)|)
  {
    EditorsSpec(m.pinDefinitions, important);
    if Editors(m.pinDefinitions, important).Err? {
      var e := Editors(m.pinDefinitions, important);
      ErrorsAreValueErrors(m.pinDefinitions, important);
    }
  }

  lemma {:induction false} ErrorsAreValueErrors(pins: seq<PinDefinition>, important: bool)
    ensures Editors(pins, important).Err? ==> Editors(pins, important).error.ValueError?
    decreases |pins|
  {
    if |pins| > 0 {
      ErrorsAreValueErrors(pins[1..], important);
    }
  }

  lemma {:induction false} ShownPinsAreModulePins(pins: seq<PinDefinition>, important: bool)
    ensures forall x :: x in ShownPins(pins, important) ==> x in pins
    decreases |pins|
  {
    if |pins| > 0 {
      ShownPinsAreModulePins(pins[1..], important);
    }
  }

  /** Every record the importer builds has an input or output direction. */
  lemma ImportedPinsHaveDirection(rows: seq<seq<Cell>>, conv: Conv)
    requires ExcelImport.ImportExcel(rows, conv).Ok?
    ensures forall x :: x in ExcelImport.ImportExcel(rows, conv).value ==> HasDirection(x)
  {
    var pins := ExcelImport.ImportExcel(rows, conv).value;
    ExcelImport.ImportExcelRecords(rows, conv);
    forall x | x in pins
      ensures HasDirection(x)
    {
      var j :| 0 <= j < |pins| && pins[j] == x;
      var row := ExcelImport.KeptRows(rows)[j];
      assert ExcelImport.ImportRow(row, conv) == Ok(x);
      assert ExcelImport.IsKnownFunction(row[1]);
    }
  }

  /** Hence adding the GUI of a module imported from a workbook never
      raises: every shown pin gets its editor. */
  lemma ImportedModuleAddsCleanly(p: Panel, stem: string, rows: seq<seq<Cell>>, conv: Conv, important: bool)
    requires Valid(p)
    requires ExcelImport.ImportExcel(rows, conv).Ok?
    ensures var m := Modules.ImportFunctions(Modules.NewModule(stem), ExcelImport.ImportExcel(rows, conv).value);
      AddPredefinedGuiComponents(p, Modules.ModuleComponent(m), important).Ok?
  {
    var pins := ExcelImport.ImportExcel(rows, conv).value;
    Modules.ImportIntoNewModule(stem, pins);
    ImportedPinsHaveDirection(rows, conv);
    ShownPinsAreModulePins(pins, important);
    EditorsSpec(pins, important);
  }

  // ---------------------------------------------------------------------
  // The designer's "Add" handler
  // ---------------------------------------------------------------------

  /** The key `add_predefined_gui_handler` looks up, and whether the
      important view is meant, as written: the suffix is cut with
      `[:-11]`. */
  function LookupKey(text: string): (string, bool) {
    if EndsWith(text, ImportantSuffix) then (DropLast(text, 11), true) else (text, false)
  }

  /** The key with exactly the suffix removed. */
  function LookupKeyIntended(text: string): (string, bool) {
    if EndsWith(text, ImportantSuffix) then (DropLast(text, |ImportantSuffix|), true) else (text, false)
  }

  /** As written, the key of a module's important entry misses the last
      character of the module name. */
  lemma LookupKeyDropsOneCharacter(name: string)
    requires |name| >= 1
    ensures LookupKey(name + ImportantSuffix) == (name[..|name| - 1], true)
    ensures LookupKey(name + ImportantSuffix).0 != name
  {
    EndsWithAppend(name, ImportantSuffix);
    assert (name + ImportantSuffix)[..|name| - 1] == name[..|name| - 1];
  }

  /** As intended, the key of the important entry is the module name; any
      other text is its own key. */
  lemma LookupKeyIntendedRoundTrip(name: string)
    ensures LookupKeyIntended(name + ImportantSuffix) == (name, true)
    ensures !EndsWith(name, ImportantSuffix) ==> LookupKeyIntended(name) == (name, false)
  {
    EndsWithAppend(name, ImportantSuffix);
    assert DropLast(name + ImportantSuffix, |ImportantSuffix|) == name;
  }

  const NoPanelMessage: string := "There is no panel to add a widget to."
  const NothingToAddMessage: string := "There are no predefined GUI components to add."

  /** `add_predefined_gui_handler` with the current tab's panel (if any),
      the combo box text and the registry, for a given key derivation:
      the panel after the call and the status-bar message, if any. */
  function AddPredefinedWith(keyOf: string -> (string, bool), panel: Option<Panel>, text: string,
                             registry: PredefinedWidgets.Registry<Modules.Component>)
    : Result<(Option<Panel>, Option<string>)>
    requires panel.Some? ==> Valid(panel.value)
  {
    match panel
    case None => Ok((None, Some(NoPanelMessage)))
    case Some(p) =>
      if text == "Empty" then Ok((panel, Some(NothingToAddMessage)))
      else
        var (key, important) := keyOf(text);
        if key !in registry.components then Err(KeyError(key))
        else
          var (p', message) :- AddPredefinedGuiComponents(p, registry.components[key], important);
          Ok((Some(p'), message))
  }

  function AddPredefinedGuiHandler(panel: Option<Panel>, text: string,
                                   registry: PredefinedWidgets.Registry<Modules.Component>)
    : (r: Result<(Option<Panel>, Option<string>)>)
    requires panel.Some? ==> Valid(panel.value)
    ensures panel.None? ==> r == Ok((None, Some(NoPanelMessage)))
    ensures panel.Some? && text == "Empty" ==> r == Ok((panel, Some(NothingToAddMessage)))
    ensures panel.Some? && text != "Empty" && LookupKey(text).0 !in registry.components ==>
      r == Err(KeyError(LookupKey(text).0))
    ensures r.Ok? ==> (r.value.0.Some? <==> panel.Some?)
    ensures panel.Some? && text != "Empty" && !EndsWith(text, ImportantSuffix) && text in registry.components ==>
      r == Added(AddPredefinedGuiComponents(panel.value, registry.components[text], false))
    ensures panel.Some? && text != "Empty" && EndsWith(text, ImportantSuffix) && DropLast(text, 11) in registry.components ==>
      r == Added(AddPredefinedGuiComponents(panel.value, registry.components[DropLast(text, 11)], true))
  {
    AddPredefinedWith(LookupKey, panel, text, registry)
  }

  /** The handler's result once the chosen component is added to the panel. */
  function Added(r: Result<(Panel, Option<string>)>): Result<(Option<Panel>, Option<string>)> {
    if r.Ok? then Ok((Some(r.value.0), r.value.1)) else Err(r.error)
  }

  function AddPredefinedGuiHandlerIntended(panel: Option<Panel>, text: string,
                                           registry: PredefinedWidgets.Registry<Modules.Component>)
    : Result<(Option<Panel>, Option<string>)>
    requires panel.Some? ==> Valid(panel.value)
  {
    AddPredefinedWith(LookupKeyIntended, panel, text, registry)
  }

  /** After importing a workbook into a fresh registry, choosing the
      module's important entry raises KeyError as written, and adds the
      module's important view as intended. */
  lemma ImportantEntryOfImportedModule(p: Panel, stem: string, rows: seq<seq<Cell>>, conv: Conv)
    requires Valid(p) && |stem| >= 1
    requires Modules.ManagerImportFunctions(Modules.ModuleManager([]), PredefinedWidgets.EmptyRegistry(),
                                            stem, rows, conv).Ok?
    ensures var registry := Modules.ManagerImportFunctions(Modules.ModuleManager([]),
                              PredefinedWidgets.EmptyRegistry(), stem, rows, conv).value.1;
      && AddPredefinedGuiHandler(Some(p), stem + ImportantSuffix, registry)
           == Err(KeyError(stem[..|stem| - 1]))
      && AddPredefinedGuiHandlerIntended(Some(p), stem + ImportantSuffix, registry)
           == Added(AddPredefinedGuiComponents(p, registry.components[stem], true))
  {
    var registry := Modules.ManagerImportFunctions(Modules.ModuleManager([]),
                      PredefinedWidgets.EmptyRegistry(), stem, rows, conv).value.1;
    LookupKeyDropsOneCharacter(stem);
    LookupKeyIntendedRoundTrip(stem);
    var key := stem[..|stem| - 1];
    assert key != stem + ImportantSuffix by {
      assert |key| < |stem + ImportantSuffix|;
    }
    assert key !in registry.components;
  }

  /** After importing a workbook, choosing the module's plain entry adds the
      imported module's normal view, and never raises; a module named
      `Empty` only shows the nothing-to-add message. */
  lemma NormalEntryOfImportedModule(p: Panel, manager: Modules.ModuleManager,
                                    registry: PredefinedWidgets.Registry<Modules.Component>,
                                    stem: string, rows: seq<seq<Cell>>, conv: Conv)
    requires Valid(p) && !EndsWith(stem, ImportantSuffix)
    requires Modules.ManagerImportFunctions(manager, registry, stem, rows, conv).Ok?
    ensures var registry' := Modules.ManagerImportFunctions(manager, registry, stem, rows, conv).value.1;
      var m := Modules.ImportFunctions(Modules.NewModule(stem), ExcelImport.ImportExcel(rows, conv).value);
      var r := AddPredefinedGuiHandler(Some(p), stem, registry');
      && (stem == "Empty" ==> r == Ok((Some(p), Some(NothingToAddMessage))))
      && (stem != "Empty" ==>
            && AddPredefinedGuiComponents(p, Modules.ModuleComponent(m), false).Ok?
            && r == Added(AddPredefinedGuiComponents(p, Modules.ModuleComponent(m), false))
            && r.Ok?)
  {
    if stem != "Empty" {
      ImportedModuleAddsCleanly(p, stem, rows, conv, false);
    }
  }
}

=== FILE: guiitems.dfy ===
/** The items of the GUI designer's tree and the rules they carry that do
    not depend on Qt: their settings records with defaults, the type
    description shown in the tree's second column, the selection of a value
    type, and the container's layout choice.
 */
module GuiItems {
  import opened Wrappers
  import opened PyStrings
  import opened Cells
  import opened PinDefinitions
  import OkFpga

  datatype ItemName = ItemName(name: string, id: string, editable: bool)

  /** `GuiItemPositionData`; a coordinate may be `None`. */
  datatype PositionData = PositionData(column: Option<int>, row: Option<int>, editable: bool)

  function DefaultPosition(): (p: PositionData)
    ensures p.column == Some(0) && p.row == Some(0) && p.editable
  {
    PositionData(Some(0), Some(0), true)
  }

  /** How an optional int is formatted: `None` prints as `"None"`. */
  function OptionalIntStr(o: Option<int>): string {
    match o
    case Some(i) => IntToString(i)
    case None => "None"
  }

  // ---------------------------------------------------------------------
  // Containers
  // ---------------------------------------------------------------------

  const ContainerTypeOptions: seq<string> := ["grid", "vertical", "horizontal"]

  datatype ContainerSettings = ContainerSettings(group: bool, typ: int, editable: bool)

  datatype ContainerItem = ContainerItem(name: ItemName, settings: ContainerSettings, position: PositionData)

  function NewContainer(): (c: ContainerItem)
    ensures c.name.name == "New Container" && c.name.editable
    ensures !c.settings.group && c.settings.typ == 0 && c.settings.editable
    ensures c.position == DefaultPosition()
  {
    ContainerItem(ItemName("New Container", "", true), ContainerSettings(false, 0, true), DefaultPosition())
  }

  function GroupPrefix(group: bool): string {
    if group then "group_" else ""
  }

  function PositionSuffix(p: PositionData): string {
    "@(" + OptionalIntStr(p.column) + "," + OptionalIntStr(p.row) + ")"
  }

  function ContainerSuffix(p: PositionData): string {
    "_container" + PositionSuffix(p)
  }

  /** The container's type description; the type index is used as a Python
      tuple index, so -3 to -1 count from the end and anything else raises
      IndexError. */
  function ContainerDescription(c: ContainerItem): (r: Result<string>)
    ensures r.Ok? <==> -3 <= c.settings.typ < 3
    ensures r.Ok? ==>
      r.value == GroupPrefix(c.settings.group) + ContainerTypeOptions[(c.settings.typ + 3) % 3]
                 + ContainerSuffix(c.position)
    ensures r.Err? ==> r.error == IndexError(c.settings.typ)
  {
    var typeName :- PyIndex(ContainerTypeOptions, c.settings.typ);
    Ok(GroupPrefix(c.settings.group) + typeName + ContainerSuffix(c.position))
  }

  datatype Layout = GridLayout | VerticalLayout | HorizontalLayout

  function LayoutName(l: Layout): string {
    match l
    case GridLayout => "grid"
    case VerticalLayout => "vertical"
    case HorizontalLayout => "horizontal"
  }

  /** The layout `get_gui` builds for a container type index. */
  function LayoutFor(typ: int): (r: Result<Layout>)
    ensures r.Ok? <==> 0 <= typ < 3
    ensures r.Err? ==> r.error.ValueError?
  {
    if typ == 0 then Ok(GridLayout)
    else if typ == 1 then Ok(VerticalLayout)
    else if typ == 2 then Ok(HorizontalLayout)
    else Err(ValueError("Unknown container type index: " + IntToString(typ)))
  }

  /** A new container is described as a grid at the origin. */
  lemma NewContainerDescription()
    ensures ContainerDescription(NewContainer()) == Ok("grid_container@(0,0)")
  {
    assert IntToString(0) == "0";
    assert PositionSuffix(DefaultPosition()) == "@(0,0)";
    assert PyIndex(ContainerTypeOptions, 0) == Ok("grid");
    assert ContainerSuffix(DefaultPosition()) == "_container@(0,0)";
    assert GroupPrefix(false) + "grid" + "_container@(0,0)" == "grid_container@(0,0)";
  }

  /** For indices 0 to 2 the layout built is the one the description names;
      a negative index is described but cannot be built. */
  lemma LayoutMatchesDescription(c: ContainerItem)
    ensures 0 <= c.settings.typ < 3 ==>
      LayoutFor(c.settings.typ).Ok? &&
      ContainerDescription(c) == Ok(GroupPrefix(c.settings.group) + LayoutName(LayoutFor(c.settings.typ).value)
                                    + ContainerSuffix(c.position))
    ensures -3 <= c.settings.typ < 0 ==> ContainerDescription(c).Ok? && LayoutFor(c.settings.typ).Err?
    ensures !(-3 <= c.settings.typ < 3) ==>
      ContainerDescription(c) == Err(IndexError(c.settings.typ)) && LayoutFor(c.settings.typ).Err?
  {
  }

  lemma AppendCancelRight(a: string, b: string, s: string)
    requires a + s == b + s
    ensures a == b
  {
    assert a == (a + s)[..|a|];
    assert b == (b + s)[..|b|];
  }

  /** At the same position, the descriptions of two containers with
      buildable types are equal only if their group flag and type are. */
  lemma ContainerDescriptionInjective(c1: ContainerItem, c2: ContainerItem)
    requires 0 <= c1.settings.typ < 3 && 0 <= c2.settings.typ < 3
    requires c1.position == c2.position
    requires ContainerDescription(c1) == ContainerDescription(c2)
    ensures c1.settings.group == c2.settings.group && c1.settings.typ == c2.settings.typ
  {
    var p1 := TypePrefix(c1.settings.group, c1.settings.typ);
    var p2 := TypePrefix(c2.settings.group, c2.settings.typ);
    var s := ContainerSuffix(c1.position);
    assert PyIndex(ContainerTypeOptions, c1.settings.typ) == Ok(ContainerTypeOptions[c1.settings.typ]);
    assert PyIndex(ContainerTypeOptions, c2.settings.typ) == Ok(ContainerTypeOptions[c2.settings.typ]);
    assert p1 + s == ContainerDescription(c1).value;
    assert p2 + s == ContainerDescription(c2).value;
    AppendCancelRight(p1, p2, s);
    TypePrefixInjective(c1.settings.group, c1.settings.typ, c2.settings.group, c2.settings.typ);
  }

  function TypePrefix(group: bool, typ: nat): string
    requires typ < 3
  {
    GroupPrefix(group) + ContainerTypeOptions[typ]
  }

  lemma TypePrefixInjective(g1: bool, t1: nat, g2: bool, t2: nat)
    requires t1 < 3 && t2 < 3
    requires TypePrefix(g1, t1) == TypePrefix(g2, t2)
    ensures g1 == g2 && t1 == t2
  {
    var p1 := TypePrefix(g1, t1);
    var p2 := TypePrefix(g2, t2);
    assert |p1| == (if g1 then 6 else 0) + [4, 8, 10][t1];
    assert |p2| == (if g2 then 6 else 0) + [4, 8, 10][t2];
    assert p1[0] == (if g1 || t1 == 0 then 'g' else if t1 == 1 then 'v' else 'h');
    assert p2[0] == (if g2 || t2 == 0 then 'g' else if t2 == 1 then 'v' else 'h');
  }

  // ---------------------------------------------------------------------
  // Value settings of inputs and outputs
  // ---------------------------------------------------------------------

  const ValueTypeOptions: seq<string> := ["int", "float", "bool", "str", "list", "path"]

  const JsonValidator: string := "JSON (*.json)"

  datatype InputValue =
    | IntInput(initial: int, min: int, max: int, editable: bool)
    | FloatInput(initialReal: real, minReal: real, maxReal: real, editable: bool)
    | StringInput(initialText: string, editable: bool)
    | BoolInput(initialFlag: bool, editable: bool)
    | ListInput(initialIndex: int, options: seq<string>, editable: bool)
    | PathInput(initialPath: string, validator: string, editable: bool)

  datatype OutputValue =
    | IntOutput(value: int, editable: bool)
    | FloatOutput(realValue: real, editable: bool)
    | StringOutput(text: string, editable: bool)
    | BoolOutput(flag: bool, editable: bool)
    | ListOutput(index: int, options: seq<string>, editable: bool)
    | PathOutput(path: string, validator: string, editable: bool)

  /** `GuiInputSettings` / `GuiOutputSettings`: the selected type index and
      the value settings installed for it (`None` until initialised). */
  datatype ValueSettings<V> = ValueSettings(typ: int, editable: bool, value: Option<V>)

  function DefaultSettings<V>(): (s: ValueSettings<V>)
    ensures s.typ == 0 && s.editable && s.value.None?
  {
    ValueSettings(0, true, None)
  }

  /** `get_selected_type`: the type options indexed as a Python tuple. */
  function GetSelectedType(typ: int): Result<string> {
    PyIndex(ValueTypeOptions, typ)
  }

  /** The variant of each type name, with its declared defaults. */
  function DefaultInputValue(typeName: string): Option<InputValue> {
    if typeName == "str" then Some(StringInput("", true))
    else if typeName == "int" then Some(IntInput(0, 0, 100, true))
    else if typeName == "float" then Some(FloatInput(0.0, 0.0, 1.0, true))
    else if typeName == "bool" then Some(BoolInput(false, true))
    else if typeName == "list" then Some(ListInput(0, [], true))
    else if typeName == "path" then Some(PathInput("", JsonValidator, true))
    else None
  }

  function DefaultOutputValue(typeName: string): Option<OutputValue> {
    if typeName == "str" then Some(StringOutput("", true))
    else if typeName == "int" then Some(IntOutput(0, true))
    else if typeName == "float" then Some(FloatOutput(0.0, true))
    else if typeName == "bool" then Some(BoolOutput(false, true))
    else if typeName == "list" then Some(ListOutput(0, [], true))
    else if typeName == "path" then Some(PathOutput("", JsonValidator, true))
    else None
  }

  /** The type name a variant stands for. */
  function InputTypeName(v: InputValue): string {
    match v
    case IntInput(_, _, _, _) => "int"
    case FloatInput(_, _, _, _) => "float"
    case StringInput(_, _) => "str"
    case BoolInput(_, _) => "bool"
    case ListInput(_, _, _) => "list"
    case PathInput(_, _, _) => "path"
  }

  function OutputTypeName(v: OutputValue): string {
    match v
    case IntOutput(_, _) => "int"
    case FloatOutput(_, _) => "float"
    case StringOutput(_, _) => "str"
    case BoolOutput(_, _) => "bool"
    case ListOutput(_, _, _) => "list"
    case PathOutput(_, _, _) => "path"
  }

  function InitInputValueSettings(s: ValueSettings<InputValue>): (r: Result<ValueSettings<InputValue>>)
    ensures r.Ok? <==> -6 <= s.typ < 6
    ensures r.Ok? ==> r.value.typ == s.typ && r.value.editable == s.editable
    ensures r.Ok? ==> r.value.value.Some? && InputTypeName(r.value.value.value) == GetSelectedType(s.typ).value
    ensures r.Ok? ==> r.value.value == DefaultInputValue(GetSelectedType(s.typ).value)
    ensures r.Err? ==> r.error == IndexError(s.typ)
  {
    var selected :- GetSelectedType(s.typ);
    match DefaultInputValue(selected)
    case Some(v) => Ok(s.(value := Some(v)))
    case None => Err(ValueError("Unknown widget type: " + selected))
  }

  function InitOutputValueSettings(s: ValueSettings<OutputValue>): (r: Result<ValueSettings<OutputValue>>)
    ensures r.Ok? <==> -6 <= s.typ < 6
    ensures r.Ok? ==> r.value.typ == s.typ && r.value.editable == s.editable
    ensures r.Ok? ==> r.value.value.Some? && OutputTypeName(r.value.value.value) == GetSelectedType(s.typ).value
    ensures r.Ok? ==> r.value.value == DefaultOutputValue(GetSelectedType(s.typ).value)
    ensures r.Err? ==> r.error == IndexError(s.typ)
  {
    var selected :- GetSelectedType(s.typ);
    match DefaultOutputValue(selected)
    case Some(v) => Ok(s.(value := Some(v)))
    case None => Err(ValueError("Unknown widget type: " + selected))
  }

  /** Every index the tuple accepts selects a type that has a variant, so
      initialising succeeds exactly for -6 to 5 and installs the variant
      named by the selection; only `value` changes. */
  lemma InitInstallsSelectedVariant(si: ValueSettings<InputValue>, so: ValueSettings<OutputValue>)
    ensures InitInputValueSettings(si).Ok? <==> -6 <= si.typ < 6
    ensures InitOutputValueSettings(so).Ok? <==> -6 <= so.typ < 6
    ensures InitInputValueSettings(si).Ok? ==>
      var r := InitInputValueSettings(si).value;
      && r.value.Some? && InputTypeName(r.value.value) == GetSelectedType(si.typ).value
      && r.value == DefaultInputValue(GetSelectedType(si.typ).value)
      && r.typ == si.typ && r.editable == si.editable
    ensures InitOutputValueSettings(so).Ok? ==>
      var r := InitOutputValueSettings(so).value;
      && r.value.Some? && OutputTypeName(r.value.value) == GetSelectedType(so.typ).value
      && r.value == DefaultOutputValue(GetSelectedType(so.typ).value)
      && r.typ == so.typ && r.editable == so.editable
    ensures InitInputValueSettings(si).Err? ==> InitInputValueSettings(si).error == IndexError(si.typ)
    ensures InitOutputValueSettings(so).Err? ==> InitOutputValueSettings(so).error == IndexError(so.typ)
  {
  }

  /** The defaults: a new selection is `'int'`, and each variant starts
      from its declared values. */
  lemma ValueDefaults()
    ensures GetSelectedType(DefaultSettings<InputValue>().typ) == Ok("int")
    ensures InitInputValueSettings(DefaultSettings()) == Ok(ValueSettings(0, true, Some(IntInput(0, 0, 100, true))))
    ensures InitOutputValueSettings(DefaultSettings()) == Ok(ValueSettings(0, true, Some(IntOutput(0, true))))
    ensures GetSelectedType(1) == Ok("float") && DefaultInputValue("float") == Some(FloatInput(0.0, 0.0, 1.0, true))
    ensures GetSelectedType(4) == Ok("list") && DefaultInputValue("list") == Some(ListInput(0, [], true))
    ensures GetSelectedType(5) == Ok("path") && DefaultInputValue("path") == Some(PathInput("", JsonValidator, true))
    ensures GetSelectedType(2) == Ok("bool") && DefaultInputValue("bool") == Some(BoolInput(false, true))
    ensures GetSelectedType(3) == Ok("str") && DefaultInputValue("str") == Some(StringInput("", true))
    ensures DefaultOutputValue("float") == Some(FloatOutput(0.0, true))
    ensures DefaultOutputValue("bool") == Some(BoolOutput(false, true))
    ensures DefaultOutputValue("str") == Some(StringOutput("", true))
    ensures DefaultOutputValue("list") == Some(ListOutput(0, [], true))
    ensures DefaultOutputValue("path") == Some(PathOutput("", JsonValidator, true))
  {
  }

  /** Initialising by index, for every index: 0 to 5 install the declared
      defaults of int, float, bool, str, list and path, a negative index
      counts from the end, and anything else raises IndexError. */
  lemma InitValueSettingsByIndex(si: ValueSettings<InputValue>, so: ValueSettings<OutputValue>)
    ensures si.typ == 0 ==> InitInputValueSettings(si) == Ok(si.(value := Some(IntInput(0, 0, 100, true))))
    ensures si.typ == 1 ==> InitInputValueSettings(si) == Ok(si.(value := Some(FloatInput(0.0, 0.0, 1.0, true))))
    ensures si.typ == 2 ==> InitInputValueSettings(si) == Ok(si.(value := Some(BoolInput(false, true))))
    ensures si.typ == 3 ==> InitInputValueSettings(si) == Ok(si.(value := Some(StringInput("", true))))
    ensures si.typ == 4 ==> InitInputValueSettings(si) == Ok(si.(value := Some(ListInput(0, [], true))))
    ensures si.typ == 5 ==> InitInputValueSettings(si) == Ok(si.(value := Some(PathInput("", JsonValidator, true))))
    ensures -6 <= si.typ < 0 ==>
      InitInputValueSettings(si).Ok? && InitInputValueSettings(si.(typ := si.typ + 6)).Ok?
      && InitInputValueSettings(si).value.value == InitInputValueSettings(si.(typ := si.typ + 6)).value.value
    ensures !(-6 <= si.typ < 6) ==> InitInputValueSettings(si) == Err(IndexError(si.typ))
    ensures so.typ == 0 ==> InitOutputValueSettings(so) == Ok(so.(value := Some(IntOutput(0, true))))
    ensures so.typ == 1 ==> InitOutputValueSettings(so) == Ok(so.(value := Some(FloatOutput(0.0, true))))
    ensures so.typ == 2 ==> InitOutputValueSettings(so) == Ok(so.(value := Some(BoolOutput(false, true))))
    ensures so.typ == 3 ==> InitOutputValueSettings(so) == Ok(so.(value := Some(StringOutput("", true))))
    ensures so.typ == 4 ==> InitOutputValueSettings(so) == Ok(so.(value := Some(ListOutput(0, [], true))))
    ensures so.typ == 5 ==> InitOutputValueSettings(so) == Ok(so.(value := Some(PathOutput("", JsonValidator, true))))
    ensures -6 <= so.typ < 0 ==>
      InitOutputValueSettings(so).Ok? && InitOutputValueSettings(so.(typ := so.typ + 6)).Ok?
      && InitOutputValueSettings(so).value.value == InitOutputValueSettings(so.(typ := so.typ + 6)).value.value
    ensures !(-6 <= so.typ < 6) ==> InitOutputValueSettings(so) == Err(IndexError(so.typ))
  {
  }

  // ---------------------------------------------------------------------
  // Input and output items
  // ---------------------------------------------------------------------

  /** What `add_data` attaches to an input or output item. */
  datatype PinData = PinData(pin: PinDefinition, isImportant: bool)

  /** An input or output item; `data` is missing until `add_data`. */
  datatype WidgetItem = WidgetItem(data: Option<PinData>)

  /** The placement the item is shown at. */
  function Placement(d: PinData): Gui {
    if d.isImportant then d.pin.importantGui else d.pin.mainGui
  }

  /** The description of an item with data: the main display type, a kind
      suffix, and the coordinates of its placement. */
  function Describe(d: PinData, kind: string, conv: Conv): (r: string)
    ensures d.pin.mainGui.displayType + kind <= r
    ensures |r| > 0 && r[|r| - 1] == ')'
  {
    d.pin.mainGui.displayType + kind + Coordinates(Placement(d), conv)
  }

  function Coordinates(g: Gui, conv: Conv): string {
    "@(" + Str(g.column, conv) + "," + Str(g.row, conv) + ")"
  }

  function InputDescription(item: WidgetItem, conv: Conv): Result<string> {
    match item.data
    case None => Err(AttributeError("data"))
    case Some(d) => Ok(Describe(d, "_input", conv))
  }

  function OutputDescription(item: WidgetItem, conv: Conv): Result<string> {
    match item.data
    case None => Err(AttributeError("data"))
    case Some(d) => Ok(Describe(d, "_output", conv))
  }

  /** An important item is described at the important coordinates: exactly
      as an ordinary item whose main coordinates were the important ones.
      The display type always comes from the main placement. */
  lemma DescriptionUsesPlacement(p: PinDefinition, conv: Conv)
    ensures var moved := p.(mainGui := p.mainGui.(column := p.importantGui.column, row := p.importantGui.row));
      && InputDescription(WidgetItem(Some(PinData(p, true))), conv) == InputDescription(WidgetItem(Some(PinData(moved, false))), conv)
      && OutputDescription(WidgetItem(Some(PinData(p, true))), conv) == OutputDescription(WidgetItem(Some(PinData(moved, false))), conv)
    ensures p.importantGui.column == p.mainGui.column && p.importantGui.row == p.mainGui.row ==>
      InputDescription(WidgetItem(Some(PinData(p, true))), conv) == InputDescription(WidgetItem(Some(PinData(p, false))), conv)
  {
  }

  /** The input and output descriptions of the same data differ only in the
      kind suffix; an item without data raises AttributeError. */
  lemma InputOutputDescriptions(d: PinData, conv: Conv)
    ensures var at := Coordinates(Placement(d), conv);
      && InputDescription(WidgetItem(Some(d)), conv) == Ok(d.pin.mainGui.displayType + "_input" + at)
      && OutputDescription(WidgetItem(Some(d)), conv) == Ok(d.pin.mainGui.displayType + "_output" + at)
    ensures InputDescription(WidgetItem(None), conv) == Err(AttributeError("data"))
    ensures OutputDescription(WidgetItem(None), conv) == Err(AttributeError("data"))
  {
  }

  // ---------------------------------------------------------------------
  // The controller item
  // ---------------------------------------------------------------------

  /** The connection indicator of the controller item. */
  datatype Indicator = Connected | Disconnected

  /** The controller item; its indicator is red when its GUI is built. */
  datatype ControllerItem = ControllerItem(indicator: Indicator, position: PositionData)

  function NewControllerItem(): (c: ControllerItem)
    ensures c.indicator == Disconnected && c.position == DefaultPosition()
  {
    ControllerItem(Disconnected, DefaultPosition())
  }

  /** `route_handler`: `'on'` turns the indicator green, `'off'` red, any
      other function leaves it; a payload without `'function'` raises. */
  function ControllerRouteHandler(c: ControllerItem, fn: Option<string>): Result<ControllerItem> {
    match fn
    case None => Err(KeyError("function"))
    case Some(f) =>
      if f == "on" then Ok(c.(indicator := Connected))
      else if f == "off" then Ok(c.(indicator := Disconnected))
      else Ok(c)
  }

  /** The indicator shows the last `'on'` or `'off'` received. */
  lemma IndicatorFollowsStatus(c: ControllerItem, f: string)
    ensures ControllerRouteHandler(c, Some("on")) == Ok(c.(indicator := Connected))
    ensures ControllerRouteHandler(c, Some("off")) == Ok(c.(indicator := Disconnected))
    ensures f != "on" && f != "off" ==> ControllerRouteHandler(c, Some(f)) == Ok(c)
    ensures ControllerRouteHandler(ControllerRouteHandler(c, Some(f)).value, Some("off")).value.indicator == Disconnected
  {
  }

  /** The payloads the controller item's Connect and Disconnect buttons
      send to the FPGA controller, as written: without an `'id'`. */
  function ButtonPayload(fn: string): OkFpga.Payload {
    OkFpga.Payload(None, Some(fn), None)
  }

  /** The payloads with the `'id'` the controller dispatches on. */
  function ButtonPayloadIntended(fn: string): OkFpga.Payload {
    OkFpga.Payload(Some("fpga"), Some(fn), None)
  }

  /** As written, both buttons make the controller raise KeyError before
      anything happens. */
  lemma ButtonsRaise(c: OkFpga.Controller)
    ensures OkFpga.HandleRoute(c, ButtonPayload("connect")) == Err(KeyError("id"))
    ensures OkFpga.HandleRoute(c, ButtonPayload("disconnect")) == Err(KeyError("id"))
  {
  }

  /** With the id, Connect opens the device and its status message turns
      the indicator green; with the corrected disconnect test, Disconnect
      closes it and turns the indicator red. */
  lemma ButtonsIntended(c: OkFpga.Controller, item: ControllerItem)
    ensures var r := OkFpga.HandleRoute(c, ButtonPayloadIntended("connect"));
      && r.Ok? && r.value.0.fpgaAttribute && r.value.0.moduleLoaded
      && r.value.1[1] == OkFpga.RouteStatus("on")
      && ControllerRouteHandler(item, Some(r.value.1[1].status)) == Ok(item.(indicator := Connected))
    ensures var r := OkFpga.HandleRouteIntended(OkFpga.Init(c).0, ButtonPayloadIntended("disconnect"));
      && r.Ok? && !r.value.0.fpgaAttribute && r.value.1 == [OkFpga.CloseFpga, OkFpga.RouteStatus("off")]
      && ControllerRouteHandler(item, Some(r.value.1[1].status)) == Ok(item.(indicator := Disconnected))
  {
  }
}

=== FILE: module.dfy ===
/** Hardware modules: the list of pin definitions imported from one
    workbook, and the module manager that imports a workbook, names the
    module after the file and registers it for the GUI designer.

    The widgets a module shows for each pin (a list entry and an editor
    panel) are represented by the entry's id and the pin definition itself.
 */
module Modules {
  import opened Wrappers
  import opened Cells
  import opened PinDefinitions
  import ExcelImport
  import PredefinedWidgets

  /** `listIds` mirrors the module's list widget; `pinDefinitions` its
      editor panels, in the same order. */
  datatype Module = Module(name: string, listIds: seq<string>, pinDefinitions: seq<PinDefinition>)

  /** What can be registered as a predefined GUI component. */
  datatype Component = ModuleComponent(hwModule: Module) | ControllerComponent(controllerName: string)

  /** The suffix under which a module is registered a second time. */
  const ImportantSuffix: string := "-important"

  function NewModule(name: string): (m: Module)
    ensures m.name == name && m.listIds == [] && m.pinDefinitions == []
  {
    Module(name, [], [])
  }

  /** One iteration of `Module.import_functions`. */
  function AddFunction(m: Module, record: PinDefinition): Module {
    Module(m.name, m.listIds + [record.id], m.pinDefinitions + [record])
  }

  /** `Module.import_functions`: one list entry and one editor per record,
      in input order. */
  function ImportFunctions(m: Module, records: seq<PinDefinition>): Module
    decreases |records|
  {
    if |records| == 0 then m else ImportFunctions(AddFunction(m, records[0]), records[1..])
  }

  /** Importing appends after the existing entries without changing them,
      one id and one pin definition per record, in input order. */
  lemma {:induction false} ImportFunctionsAppends(m: Module, records: seq<PinDefinition>)
    ensures var m' := ImportFunctions(m, records);
      && m'.name == m.name
      && |m'.listIds| == |m.listIds| + |records|
      && |m'.pinDefinitions| == |m.pinDefinitions| + |records|
      && m'.listIds[..|m.listIds|] == m.listIds
      && m'.pinDefinitions[..|m.pinDefinitions|] == m.pinDefinitions
      && (forall i :: 0 <= i < |records| ==> m'.listIds[|m.listIds| + i] == records[i].id)
      && (forall i :: 0 <= i < |records| ==> m'.pinDefinitions[|m.pinDefinitions| + i] == records[i])
    decreases |records|
  {
    if |records| > 0 {
      var next := AddFunction(m, records[0]);
      ImportFunctionsAppends(next, records[1..]);
      var m' := ImportFunctions(m, records);
      assert m'.listIds[..|m.listIds|] == m'.listIds[..|next.listIds|][..|m.listIds|];
      assert m'.pinDefinitions[..|m.pinDefinitions|] == m'.pinDefinitions[..|next.pinDefinitions|][..|m.pinDefinitions|];
      forall i | 0 < i < |records|
        ensures m'.listIds[|m.listIds| + i] == records[i].id
        ensures m'.pinDefinitions[|m.pinDefinitions| + i] == records[i]
      {
        assert records[1..][i - 1] == records[i];
      }
    }
  }

  /** Importing into a new module: ids and pin definitions line up with the
      records, index by index. */
  lemma ImportIntoNewModule(name: string, records: seq<PinDefinition>)
    ensures var m := ImportFunctions(NewModule(name), records);
      && m.pinDefinitions == records
      && |m.listIds| == |m.pinDefinitions|
      && forall i :: 0 <= i < |records| ==> m.listIds[i] == records[i].id
  {
    var empty := NewModule(name);
    ImportFunctionsAppends(empty, records);
    var m := ImportFunctions(empty, records);
    forall i | 0 <= i < |records|
      ensures m.pinDefinitions[i] == records[i] && m.listIds[i] == records[i].id
    {
      assert |empty.pinDefinitions| + i == i && |empty.listIds| + i == i;
    }
  }

  /** The module manager: its tabs, one module each. */
  datatype ModuleManager = ModuleManager(tabs: seq<Module>)

  /** `ModuleManager.import_functions` for a workbook whose file stem is
      `stem` and whose first worksheet is `rows`. An import failure
      propagates before anything is created or registered. */
  function ManagerImportFunctions(manager: ModuleManager, registry: PredefinedWidgets.Registry<Component>,
                                  stem: string, rows: seq<seq<Cell>>, conv: Conv)
    : (r: Result<(ModuleManager, PredefinedWidgets.Registry<Component>)>)
    ensures r.Ok? <==> ExcelImport.ImportExcel(rows, conv).Ok?
    ensures r.Ok? ==>
      var (manager', registry') := r.value;
      var m := ImportFunctions(NewModule(stem), ExcelImport.ImportExcel(rows, conv).value);
      && manager'.tabs == manager.tabs + [m]
      && stem in registry'.components && registry'.components[stem] == ModuleComponent(m)
      && stem + ImportantSuffix in registry'.components
      && registry'.components[stem + ImportantSuffix] == ModuleComponent(m)
      && registry'.components.Keys == registry.components.Keys + {stem, stem + ImportantSuffix}
      && forall k :: k in registry.components && k != stem && k != stem + ImportantSuffix ==>
           registry'.components[k] == registry.components[k]
  {
    var data :- ExcelImport.ImportExcel(rows, conv);
    var m := ImportFunctions(NewModule(stem), data);
    var registry1 := PredefinedWidgets.Register(registry, m.name, ModuleComponent(m));
    var registry2 := PredefinedWidgets.Register(registry1, m.name + ImportantSuffix, ModuleComponent(m));
    ImportFunctionsAppends(NewModule(stem), data);
    Ok((ModuleManager(manager.tabs + [m]), registry2))
  }
}

=== FILE: okfpga.dfy ===
/** The FPGA controller's message handler and its channel-id decoding.

    Hardware access is not modelled: opening the device, loading the adapter
    module, closing the device, the status message sent to the connection
    indicator and each digital write are emitted as `Event`s, in order.

    Channel ids of the adapter board look like `"ADD3 12"`: the board's IC
    number (1, 3 or 4, which select device 0, 1 or 2) and the channel.
 */
module OkFpga {
  import opened Wrappers
  import opened PyStrings

  /** The payload dict the router delivers; a missing key is `None`. */
  datatype Payload = Payload(id: Option<string>, func: Option<string>, value: Option<bool>)

  /** `fpgaAttribute`: whether `self.fpga` exists (it is deleted on
      disconnect); `moduleLoaded`: whether the adapter module is in
      `self.modules`. A new controller has `self.fpga = None`. */
  datatype Controller = Controller(fpgaAttribute: bool, moduleLoaded: bool)

  datatype Event =
    | OpenFpga                   // fpga.FPGAController(bitfile)
    | RouteStatus(status: string) // router.route to the connection indicator
    | LoadModule                 // self.fpga.add_module(...)
    | CloseFpga                  // del self.fpga
    | DigitalWrite(device: nat, channel: int, value: bool)

  const AdapterModule: string := "ADD_adapter_test"
  const BadIntLiteral: string := "invalid literal for int()"

  function NewController(): Controller {
    Controller(true, false)
  }

  function Lookup<T>(entry: Option<T>, key: string): (r: Result<T>)
    ensures entry.Some? ==> r == Ok(entry.value)
    ensures entry.None? ==> r == Err(KeyError(key))
  {
    match entry
    case Some(v) => Ok(v)
    case None => Err(KeyError(key))
  }

  /** `init`: open the device, announce the connection, load the module. */
  function Init(c: Controller): (Controller, seq<Event>) {
    (Controller(true, true), [OpenFpga, RouteStatus("on"), LoadModule])
  }

  /** `disconnect`: delete the device attribute and announce it. The
      loaded module stays in `self.modules`. */
  function Disconnect(c: Controller): Result<(Controller, seq<Event>)> {
    if c.fpgaAttribute then Ok((c.(fpgaAttribute := false), [CloseFpga, RouteStatus("off")]))
    else Err(AttributeError("fpga"))
  }

  // ---------------------------------------------------------------------
  // Channel ids
  // ---------------------------------------------------------------------

  /** The IC number that selects a device index. */
  function DeviceIndex(ic: string): Option<nat> {
    if ic == "1" then Some(0) else if ic == "3" then Some(1) else if ic == "4" then Some(2) else None
  }

  /** The id of channel `channel` on the IC numbered `ic`. */
  function EncodeAddId(ic: char, channel: int): string {
    "ADD" + [ic] + " " + IntToString(channel)
  }

  /** The decoding in `handle_route`: remove every `"ADD"`, split on
      spaces, parse the channel from the second token and only then map the
      first token to a device. */
  function DecodeAddId(id: string): Result<(nat, int)> {
    var tokens := Split(RemoveAll(id, "ADD"), ' ');
    var second :- PyIndex(tokens, 1);
    match ParseInt(second)
    case None => Err(ValueError(BadIntLiteral))
    case Some(channel) =>
      match DeviceIndex(tokens[0])
      case Some(device) => Ok((device, channel))
      case None => Err(ValueError("Invalid IC ID " + id + " for ADD"))
  }

  lemma EncodedIdTokens(ic: char, channel: int)
    requires ic != 'A' && ic != ' '
    ensures Split(RemoveAll(EncodeAddId(ic, channel), "ADD"), ' ') == [[ic], IntToString(channel)]
  {
    var digits := IntToString(channel);
    IntToStringHasNoSpace(channel);
    assert EncodeAddId(ic, channel) == "ADD" + ([ic] + " " + digits);
    RemoveAllLeading("ADD", [ic] + " " + digits);
    RemoveAllAbsent([ic] + " " + digits, "ADD");
    SplitWithoutSep(digits, ' ');
    SplitAfterFirst([ic], ' ', digits);
  }

  /** Decoding an encoded id gives back the device of its IC and its
      channel; an IC other than 1, 3 or 4 raises ValueError. */
  lemma DecodeEncodedId(ic: char, channel: int)
    requires ic != 'A' && ic != ' '
    ensures DeviceIndex([ic]).Some? ==> DecodeAddId(EncodeAddId(ic, channel)) == Ok((DeviceIndex([ic]).value, channel))
    ensures DeviceIndex([ic]).None? ==> DecodeAddId(EncodeAddId(ic, channel)).Err?
    ensures DecodeAddId(EncodeAddId(ic, channel)).Err? ==> DecodeAddId(EncodeAddId(ic, channel)).error.ValueError?
  {
    EncodedIdTokens(ic, channel);
    ParseIntOfIntToString(channel);
  }

  /** The channel is parsed before the device is checked: a bad channel
      raises its error whatever the IC number. */
  lemma BadChannelFailsFirst(id: string)
    requires |Split(RemoveAll(id, "ADD"), ' ')| >= 2
    requires ParseInt(Split(RemoveAll(id, "ADD"), ' ')[1]).None?
    ensures DecodeAddId(id) == Err(ValueError(BadIntLiteral))
  {
  }

  // ---------------------------------------------------------------------
  // handle_route
  // ---------------------------------------------------------------------

  /** The `'ADD'` branch: decode, then write only for `DIG_OUT`. */
  function HandleAdd(c: Controller, id: string, payload: Payload): Result<(Controller, seq<Event>)> {
    var (device, channel) :- DecodeAddId(id);
    var fn :- Lookup(payload.func, "function");
    if fn == "DIG_OUT" then
      if !c.moduleLoaded then Err(KeyError(AdapterModule))
      else
        var value :- Lookup(payload.value, "value");
        Ok((c, [DigitalWrite(device, channel, value)]))
    else
      Ok((c, []))
  }

  /** `handle_route` as written: in the `'fpga'` branch the disconnect test
      compares the id, not the function, with `'disconnect'`. */
  function HandleRoute(c: Controller, payload: Payload): (r: Result<(Controller, seq<Event>)>)
    ensures payload.id.None? ==> r == Err(KeyError("id"))
    ensures payload.id == Some("fpga") && payload.func.None? ==> r == Err(KeyError("function"))
    ensures r.Ok? && OpenFpga !in r.value.1 ==> r.value.0 == c
    ensures r.Ok? && r.value.1 != [] ==>
      r.value.1 == [OpenFpga, RouteStatus("on"), LoadModule] || r.value.1[0].DigitalWrite?
  {
    var id :- Lookup(payload.id, "id");
    if id == "fpga" then
      var fn :- Lookup(payload.func, "function");
      if fn == "connect" then Ok(Init(c))
      else if id == "disconnect" then Disconnect(c)
      else Ok((c, []))
    else if Take(id, 3) == "ADD" then
      HandleAdd(c, id, payload)
    else
      Ok((c, []))
  }

  /** `handle_route` with the disconnect test on the function. */
  function HandleRouteIntended(c: Controller, payload: Payload): Result<(Controller, seq<Event>)> {
    var id :- Lookup(payload.id, "id");
    if id == "fpga" then
      var fn :- Lookup(payload.func, "function");
      if fn == "connect" then Ok(Init(c))
      else if fn == "disconnect" then Disconnect(c)
      else Ok((c, []))
    else if Take(id, 3) == "ADD" then
      HandleAdd(c, id, payload)
    else
      Ok((c, []))
  }

  /** As written, no payload ever closes the device. */
  lemma DisconnectUnreachable(c: Controller, payload: Payload)
    requires HandleRoute(c, payload).Ok?
    ensures CloseFpga !in HandleRoute(c, payload).value.1
    ensures c.fpgaAttribute ==> HandleRoute(c, payload).value.0.fpgaAttribute
  {
  }

  /** The message the connection indicator's disconnect button sends. */
  lemma DisconnectMessageIgnored(c: Controller)
    ensures HandleRoute(c, Payload(Some("fpga"), Some("disconnect"), None)) == Ok((c, []))
  {
  }

  /** With the test on the function, disconnecting closes the device; every
      other payload is handled as before. */
  lemma IntendedDisconnect(c: Controller, payload: Payload)
    ensures c.fpgaAttribute ==>
      HandleRouteIntended(c, Payload(Some("fpga"), Some("disconnect"), payload.value))
        == Ok((c.(fpgaAttribute := false), [CloseFpga, RouteStatus("off")]))
    ensures !(payload.id == Some("fpga") && payload.func == Some("disconnect")) ==>
      HandleRouteIntended(c, payload) == HandleRoute(c, payload)
  {
  }

  /** Connecting opens the device, announces it and loads the module. */
  lemma ConnectLoadsModule(c: Controller, value: Option<bool>)
    ensures HandleRoute(c, Payload(Some("fpga"), Some("connect"), value))
         == Ok((Controller(true, true), [OpenFpga, RouteStatus("on"), LoadModule]))
  {
  }

  /** Ids that are neither `'fpga'` nor start with `'ADD'` are ignored. */
  lemma OtherIdsIgnored(c: Controller, payload: Payload)
    requires payload.id.Some? && payload.id.value != "fpga" && Take(payload.id.value, 3) != "ADD"
    ensures HandleRoute(c, payload) == Ok((c, []))
  {
  }

  /** A routed `DIG_OUT` on an encoded id writes exactly that channel of
      that device once the module is loaded, and raises KeyError before. */
  lemma DigitalWriteRoundTrip(c: Controller, ic: char, channel: int, value: bool)
    requires DeviceIndex([ic]).Some?
    ensures var payload := Payload(Some(EncodeAddId(ic, channel)), Some("DIG_OUT"), Some(value));
      && (c.moduleLoaded ==>
            HandleRoute(c, payload) == Ok((c, [DigitalWrite(DeviceIndex([ic]).value, channel, value)])))
      && (!c.moduleLoaded ==> HandleRoute(c, payload) == Err(KeyError(AdapterModule)))
  {
    DecodeEncodedId(ic, channel);
    assert Take(EncodeAddId(ic, channel), 3) == "ADD";
  }

  /** For `'ADD'` ids, only `DIG_OUT` acts; every other function does
      nothing once the id decodes. */
  lemma OnlyDigOutWrites(c: Controller, payload: Payload)
    requires payload.id.Some? && payload.id.value != "fpga" && Take(payload.id.value, 3) == "ADD"
    requires DecodeAddId(payload.id.value).Ok?
    requires payload.func.Some? && payload.func.value != "DIG_OUT"
    ensures HandleRoute(c, payload) == Ok((c, []))
  {
  }

  // ---------------------------------------------------------------------
  // ic_mapper
  // ---------------------------------------------------------------------

  /** `ic_mapper` as written: the result of `replace` is discarded, so the
      character tested is always the `'A'` of `"ADD"`. */
  function IcMapper(id: string): (r: Result<Option<(nat, int)>>)
    ensures r.Err? ==> Take(id, 3) == "ADD"
    ensures Take(id, 3) != "ADD" ==> r == Ok(None)
  {
    if Take(id, 3) == "ADD" then
      match DeviceIndex([id[0]])
      case Some(device) => MapChannel(device, Split(id, ' '))
      case None => Err(ValueError("Invalid IC ID " + id))
    else
      Ok(None)
  }

  /** `(device, int(tokens[1]))`. */
  function MapChannel(device: nat, tokens: seq<string>): Result<Option<(nat, int)>> {
    var second :- PyIndex(tokens, 1);
    match ParseInt(second)
    case Some(channel) => Ok(Some((device, channel)))
    case None => Err(ValueError(BadIntLiteral))
  }

  /** `ic_mapper` with the replaced id kept. */
  function IcMapperIntended(id: string): (r: Result<Option<(nat, int)>>)
    ensures r.Err? ==> Take(id, 3) == "ADD"
    ensures Take(id, 3) != "ADD" ==> r == Ok(None)
    ensures r.Ok? && r.value.Some? ==> r.value.value.0 <= 2
  {
    if Take(id, 3) == "ADD" then
      var stripped := RemoveAll(id, "ADD");
      var tokens := Split(stripped, ' ');
      var first :- PyIndex(stripped, 0);
      match DeviceIndex([first])
      case Some(device) => MapChannel(device, tokens)
      case None => Err(ValueError("Invalid IC ID " + stripped))
    else
      Ok(None)
  }

  /** As written, every `"ADD"` id raises and every other id maps to `None`. */
  lemma IcMapperAlwaysFails(id: string)
    ensures Take(id, 3) == "ADD" ==> IcMapper(id).Err? && IcMapper(id).error.ValueError?
    ensures Take(id, 3) != "ADD" ==> IcMapper(id) == Ok(None)
  {
  }

  /** As intended, an encoded id maps to the same device and channel that
      `handle_route` decodes from it. */
  lemma IcMapperIntendedDecodes(ic: char, channel: int)
    requires DeviceIndex([ic]).Some?
    ensures IcMapperIntended(EncodeAddId(ic, channel)) == Ok(Some((DeviceIndex([ic]).value, channel)))
    ensures DecodeAddId(EncodeAddId(ic, channel)) == Ok((DeviceIndex([ic]).value, channel))
  {
    EncodedIdTokens(ic, channel);
    DecodeEncodedId(ic, channel);
    ParseIntOfIntToString(channel);
    var stripped := RemoveAll(EncodeAddId(ic, channel), "ADD");
    assert stripped == [ic] + " " + IntToString(channel) by {
      IntToStringHasNoSpace(channel);
      assert EncodeAddId(ic, channel) == "ADD" + ([ic] + " " + IntToString(channel));
      RemoveAllLeading("ADD", [ic] + " " + IntToString(channel));
      RemoveAllAbsent([ic] + " " + IntToString(channel), "ADD");
    }
    assert Take(EncodeAddId(ic, channel), 3) == "ADD";
  }
}

=== FILE: outputs.dfy ===
/** The LED output widget as a state machine: whether it is on, the colour
    shown when on, the colour shown when off, and the colour currently shown.

    A stylesheet is represented by the colour key it was chosen by: the five
    stylesheets of the widget differ only in their colour.
 */
module Outputs {
  import opened Wrappers

  datatype Color = Red | Green | Yellow | Blue | Off

  /** The widget's colour table, keyed by name. */
  function ColorByName(name: string): (r: Option<Color>)
    ensures r.Some? <==> name in {"red", "green", "yellow", "blue", "off"}
  {
    if name == "red" then Some(Red)
    else if name == "green" then Some(Green)
    else if name == "yellow" then Some(Yellow)
    else if name == "blue" then Some(Blue)
    else if name == "off" then Some(Off)
    else None
  }

  function ColorName(c: Color): string {
    match c
    case Red => "red"
    case Green => "green"
    case Yellow => "yellow"
    case Blue => "blue"
    case Off => "off"
  }

  /** Every colour is found under its name, and only under it. */
  lemma ColorNamesRoundTrip(c: Color, name: string)
    ensures ColorByName(ColorName(c)) == Some(c)
    ensures ColorByName(name).Some? ==> ColorName(ColorByName(name).value) == name
  {
  }

  datatype Led = Led(on: bool, onColor: Color, offColor: Color, style: Color)

  /** The style matches the state: the on colour when on, else the off colour. */
  predicate Shows(l: Led) {
    l.style == if l.on then l.onColor else l.offColor
  }

  function InvalidColor(name: string): Error {
    ValueError("Invalid color: " + name)
  }

  /** `LED.__init__`: the on colour is checked first, then the off colour. */
  function NewLed(on: bool, onName: string, offName: string): (r: Result<Led>)
    ensures r.Ok? <==> ColorByName(onName).Some? && ColorByName(offName).Some?
    ensures ColorByName(onName).None? ==> r == Err(InvalidColor(onName))
    ensures ColorByName(onName).Some? && ColorByName(offName).None? ==> r == Err(InvalidColor(offName))
    ensures r.Ok? ==> && r.value.on == on
                      && r.value.onColor == ColorByName(onName).value
                      && r.value.offColor == ColorByName(offName).value
                      && Shows(r.value)
  {
    match ColorByName(onName)
    case None => Err(InvalidColor(onName))
    case Some(onColor) =>
      match ColorByName(offName)
      case None => Err(InvalidColor(offName))
      case Some(offColor) =>
        Ok(Led(on, onColor, offColor, if on then onColor else offColor))
  }

  function TurnOn(l: Led): (r: Led)
    ensures r.on && r.style == l.onColor && Shows(r)
    ensures r.onColor == l.onColor && r.offColor == l.offColor
  {
    l.(on := true, style := l.onColor)
  }

  function TurnOff(l: Led): (r: Led)
    ensures !r.on && r.style == l.offColor && Shows(r)
    ensures r.onColor == l.onColor && r.offColor == l.offColor
  {
    l.(on := false, style := l.offColor)
  }

  function Toggle(l: Led): (r: Led)
    ensures r.on == !l.on && Shows(r)
    ensures r.onColor == l.onColor && r.offColor == l.offColor
  {
    if l.on then TurnOff(l) else TurnOn(l)
  }

  /** `set_on(v)`: whatever the state, it ends on iff `v`, showing the
      matching colour. */
  function SetOn(l: Led, v: bool): (r: Led)
    ensures r.on == v && Shows(r)
    ensures r.onColor == l.onColor && r.offColor == l.offColor
  {
    var l1 := l.(on := v);
    if v then TurnOn(l1) else TurnOff(l1)
  }

  function GetOn(l: Led): bool {
    l.on
  }

  /** `get_on` reports the last on/off transition. */
  lemma GetOnAfterTransitions(l: Led, v: bool)
    ensures GetOn(SetOn(l, v)) == v
    ensures GetOn(Toggle(l)) == !GetOn(l)
    ensures GetOn(TurnOn(l)) && !GetOn(TurnOff(l))
  {
  }

  function SetOnColor(l: Led, name: string): (r: Result<Led>)
    ensures ColorByName(name).None? ==> r == Err(InvalidColor(name))
    ensures ColorByName(name).Some? ==> r == Ok(l.(onColor := ColorByName(name).value))
  {
    match ColorByName(name)
    case Some(c) => Ok(l.(onColor := c))
    case None => Err(InvalidColor(name))
  }

  function SetOffColor(l: Led, name: string): (r: Result<Led>)
    ensures ColorByName(name).None? ==> r == Err(InvalidColor(name))
    ensures ColorByName(name).Some? ==> r == Ok(l.(offColor := ColorByName(name).value))
  {
    match ColorByName(name)
    case Some(c) => Ok(l.(offColor := c))
    case None => Err(InvalidColor(name))
  }

  /** `set_colors`: the two setters in turn. An exception from the second
      leaves the first one's change in place, so the state is returned
      together with the exception raised, if any. */
  function SetColors(l: Led, onName: string, offName: string): (r: (Led, Option<Error>))
    ensures r.1.None? <==> ColorByName(onName).Some? && ColorByName(offName).Some?
    ensures r.1.Some? ==> r.1.value == InvalidColor(if ColorByName(onName).None? then onName else offName)
    ensures r.0.on == l.on && r.0.style == l.style
    ensures r.0.offColor == if r.1.None? then ColorByName(offName).value else l.offColor
  {
    match SetOnColor(l, onName)
    case Err(e) => (l, Some(e))
    case Ok(l1) =>
      match SetOffColor(l1, offName)
      case Err(e) => (l1, Some(e))
      case Ok(l2) => (l2, None)
  }

  /** Two toggles restore the state of a widget that shows its state. */
  lemma ToggleTwice(l: Led)
    requires Shows(l)
    ensures Toggle(Toggle(l)) == l
  {
  }

  /** Every transition except a colour change keeps the style matching. */
  lemma TransitionsKeepShows(l: Led, v: bool)
    ensures Shows(TurnOn(l)) && Shows(TurnOff(l)) && Shows(Toggle(l)) && Shows(SetOn(l, v))
  {
  }

  /** A colour setter never changes whether the LED is on nor the style it
      shows: with an invalid name it raises and changes nothing. */
  lemma ColorSettersKeepOnAndStyle(l: Led, name: string)
    ensures SetOnColor(l, name).Ok? ==> SetOnColor(l, name).value.on == l.on && SetOnColor(l, name).value.style == l.style
    ensures SetOffColor(l, name).Ok? ==> SetOffColor(l, name).value.on == l.on && SetOffColor(l, name).value.style == l.style
    ensures SetOnColor(l, name).Err? <==> ColorByName(name).None?
    ensures SetOffColor(l, name).Err? <==> ColorByName(name).None?
  {
  }

  /** Hence a lit LED keeps showing its old colour after a new on colour is
      set, until it is next turned on. */
  lemma NewOnColorNotShownYet(l: Led)
    requires l.on && Shows(l) && l.onColor == Red
    ensures !Shows(SetOnColor(l, "green").value)
    ensures Shows(TurnOn(SetOnColor(l, "green").value))
  {
  }

  /** `set_colors` succeeds iff both names are valid, and then installs both
      colours; it raises on the first invalid name. */
  lemma SetColorsSpec(l: Led, onName: string, offName: string)
    ensures var (l', e) := SetColors(l, onName, offName);
      && (e.None? <==> ColorByName(onName).Some? && ColorByName(offName).Some?)
      && (e.None? ==> l' == l.(onColor := ColorByName(onName).value, offColor := ColorByName(offName).value))
      && (ColorByName(onName).None? ==> l' == l && e == Some(InvalidColor(onName)))
      && l'.on == l.on && l'.style == l.style
  {
  }

  /** `set_colors` is not atomic: a valid on colour followed by an invalid
      off colour raises with the new on colour already installed. */
  lemma SetColorsNotAtomic(l: Led, onName: string, offName: string)
    requires ColorByName(onName).Some? && ColorByName(offName).None?
    ensures SetColors(l, onName, offName) == (l.(onColor := ColorByName(onName).value), Some(InvalidColor(offName)))
  {
  }
}

=== FILE: pindefinition.dfy ===
/** The pin-definition records and the defaulting their `__post_init__`
    methods apply.

    Fields that the importer copies from the sheet without conversion keep
    the raw `Cell` type; fields that go through `float()` are `real`.
    A missing value (`None`) is `Cells.Empty`.
 */
module PinDefinitions {
  import opened Wrappers
  import opened Cells

  datatype Miscellaneous = Miscellaneous(dacRange: Cell, adcRange: Cell, disablePowerdrop: Cell)

  /** `above` is 0 for "below" and 1 for "above". */
  datatype Alarm = Alarm(enable: bool, above: int, warningValue: Cell, interlockValue: Cell)

  datatype Exponential = Exponential(enable: bool, b: Cell, r0: Cell, t0: Cell)

  /** No relation between `min`, `initial` and `max` is enforced. */
  datatype Value = Value(min: real, max: real, initial: real, enableInitial: bool)

  datatype Gui = Gui(display: bool, column: Cell, row: Cell, displayType: string, displayDirection: string)

  datatype ConversionCoefficients = ConversionCoefficients(k: real, c: real)

  datatype PinDefinition = PinDefinition(
    id: string,
    pinFunction: string,
    name: string,
    unit: string,
    mainGui: Gui,
    value: Value,
    importantGui: Gui,
    activeLow: bool,
    miscellaneous: Miscellaneous,
    conversionCoefficients: Option<ConversionCoefficients>,
    exponential: Option<Exponential>,
    alarm: Option<Alarm>)

  /** The float default `0.0` that replaces a missing value. */
  const FloatZero: Cell := Real(0.0)
  /** The int default `0` that replaces a missing value. */
  const IntZero: Cell := Int(0)

  /** `x if x is not None else d`. */
  function OrDefault(x: Cell, d: Cell): (r: Cell)
    ensures x != Empty ==> r == x
    ensures x == Empty ==> r == d
  {
    if x.Empty? then d else x
  }

  // ---------------------------------------------------------------------
  // Constructors with their __post_init__ defaulting
  // ---------------------------------------------------------------------

  function MakeAlarm(enable: bool, above: int, warningValue: Cell, interlockValue: Cell): (a: Alarm)
    ensures a.enable == enable && a.above == above
    ensures a.warningValue == (if warningValue == Empty then FloatZero else warningValue)
    ensures a.interlockValue == (if interlockValue == Empty then FloatZero else interlockValue)
  {
    Alarm(enable, above, OrDefault(warningValue, FloatZero), OrDefault(interlockValue, FloatZero))
  }

  function MakeExponential(enable: bool, b: Cell, r0: Cell, t0: Cell): (e: Exponential)
    ensures e.enable == enable
    ensures e.b == (if b == Empty then FloatZero else b)
    ensures e.r0 == (if r0 == Empty then FloatZero else r0)
    ensures e.t0 == (if t0 == Empty then FloatZero else t0)
  {
    Exponential(enable, OrDefault(b, FloatZero), OrDefault(r0, FloatZero), OrDefault(t0, FloatZero))
  }

  function MakeGui(display: bool, column: Cell, row: Cell, displayType: string, displayDirection: string): (g: Gui)
    ensures g.display == display
    ensures g.displayType == displayType && g.displayDirection == displayDirection
    ensures g.column == (if column == Empty then IntZero else column)
    ensures g.row == (if row == Empty then IntZero else row)
  {
    Gui(display, OrDefault(column, IntZero), OrDefault(row, IntZero), displayType, displayDirection)
  }

  /** `Gui(display=d)` with every other field left at its declared default. */
  function DefaultGui(display: bool): (g: Gui)
    ensures g.display == display
    ensures g.column == Int(0) && g.row == Int(0)
    ensures g.displayType == "" && g.displayDirection == ""
  {
    MakeGui(display, IntZero, IntZero, "", "")
  }

  /** `PinDefinition(...)` with the three optional parts left at `None`. */
  function MakePinDefinition(id: string, pinFunction: string, name: string, unit: string,
                             mainGui: Gui, value: Value, importantGui: Gui,
                             activeLow: bool, miscellaneous: Miscellaneous): (p: PinDefinition)
    ensures p.conversionCoefficients == None && p.exponential == None && p.alarm == None
    ensures p.id == id && p.pinFunction == pinFunction && p.mainGui == mainGui && p.importantGui == importantGui
    ensures p.name == name && p.unit == unit && p.value == value
    ensures p.activeLow == activeLow && p.miscellaneous == miscellaneous
  {
    PinDefinition(id, pinFunction, name, unit, mainGui, value, importantGui, activeLow, miscellaneous,
                  None, None, None)
  }

  // ---------------------------------------------------------------------
  // Normal forms: what __post_init__ guarantees
  // ---------------------------------------------------------------------

  predicate AlarmNormal(a: Alarm) {
    a.warningValue != Empty && a.interlockValue != Empty
  }

  predicate ExponentialNormal(e: Exponential) {
    e.b != Empty && e.r0 != Empty && e.t0 != Empty
  }

  predicate GuiNormal(g: Gui) {
    g.column != Empty && g.row != Empty
  }

  /** Every record built through its constructor is in normal form, and a
      record already in normal form is rebuilt unchanged: the defaulting is
      idempotent. */
  lemma AlarmDefaulting(a: Alarm)
    ensures AlarmNormal(MakeAlarm(a.enable, a.above, a.warningValue, a.interlockValue))
    ensures AlarmNormal(a) <==> MakeAlarm(a.enable, a.above, a.warningValue, a.interlockValue) == a
  {
  }

  lemma ExponentialDefaulting(e: Exponential)
    ensures ExponentialNormal(MakeExponential(e.enable, e.b, e.r0, e.t0))
    ensures ExponentialNormal(e) <==> MakeExponential(e.enable, e.b, e.r0, e.t0) == e
  {
  }

  lemma GuiDefaulting(g: Gui)
    ensures GuiNormal(MakeGui(g.display, g.column, g.row, g.displayType, g.displayDirection))
    ensures GuiNormal(g) <==> MakeGui(g.display, g.column, g.row, g.displayType, g.displayDirection) == g
  {
  }

  /** Applying the defaulting twice is the same as applying it once. */
  lemma DefaultingIdempotent(a: Alarm, e: Exponential, g: Gui)
    ensures var a1 := MakeAlarm(a.enable, a.above, a.warningValue, a.interlockValue);
            MakeAlarm(a1.enable, a1.above, a1.warningValue, a1.interlockValue) == a1
    ensures var e1 := MakeExponential(e.enable, e.b, e.r0, e.t0);
            MakeExponential(e1.enable, e1.b, e1.r0, e1.t0) == e1
    ensures var g1 := MakeGui(g.display, g.column, g.row, g.displayType, g.displayDirection);
            MakeGui(g1.display, g1.column, g1.row, g1.displayType, g1.displayDirection) == g1
  {
  }
}

=== FILE: predefinedwidgets.dfy ===
/** The registry of predefined GUI components: modules and controllers
    registered by name, to be offered to the GUI designer. The last
    registration under a name wins.
 */
module PredefinedWidgets {

  datatype Registry<C> = Registry(components: map<string, C>)

  /** The registry at program start. */
  function EmptyRegistry<C>(): (r: Registry<C>)
    ensures r.components.Keys == {}
  {
    Registry(map[])
  }

  /** `register_predefined_gui_component`. */
  function Register<C>(registry: Registry<C>, widgetName: string, data: C): (r: Registry<C>)
    ensures widgetName in r.components && r.components[widgetName] == data
    ensures r.components.Keys == registry.components.Keys + {widgetName}
    ensures forall n :: n in registry.components && n != widgetName ==>
              n in r.components && r.components[n] == registry.components[n]
  {
    Registry(registry.components[widgetName := data])
  }

  /** `get_predefined_gui_components`. */
  function Components<C>(registry: Registry<C>): map<string, C> {
    registry.components
  }

  /** Registering the components of a sequence in order. */
  function RegisterAll<C>(registry: Registry<C>, registrations: seq<(string, C)>): Registry<C>
    decreases |registrations|
  {
    if |registrations| == 0 then registry
    else RegisterAll(Register(registry, registrations[0].0, registrations[0].1), registrations[1..])
  }

  function Names<C>(registrations: seq<(string, C)>): set<string> {
    set j | 0 <= j < |registrations| :: registrations[j].0
  }

  /** The getter's key set is exactly the names registered so far. */
  lemma {:induction false} KeysAreRegisteredNames<C>(registry: Registry<C>, registrations: seq<(string, C)>)
    ensures Components(RegisterAll(registry, registrations)).Keys
         == registry.components.Keys + Names(registrations)
    decreases |registrations|
  {
    if |registrations| > 0 {
      var next := Register(registry, registrations[0].0, registrations[0].1);
      KeysAreRegisteredNames(next, registrations[1..]);
      assert Names(registrations) == {registrations[0].0} + Names(registrations[1..]) by {
        forall n | n in Names(registrations)
          ensures n in {registrations[0].0} + Names(registrations[1..])
        {
          var j :| 0 <= j < |registrations| && registrations[j].0 == n;
          if j > 0 {
            assert registrations[1..][j - 1] == registrations[j];
          }
        }
        forall n | n in Names(registrations[1..])
          ensures n in Names(registrations)
        {
          var j :| 0 <= j < |registrations[1..]| && registrations[1..][j].0 == n;
          assert registrations[j + 1] == registrations[1..][j];
        }
      }
    }
  }

  /** Starting from an empty registry, the key set is the set of names. */
  lemma KeysFromEmpty<C>(registrations: seq<(string, C)>)
    ensures Components(RegisterAll(EmptyRegistry<C>(), registrations)).Keys == Names(registrations)
  {
    KeysAreRegisteredNames(EmptyRegistry<C>(), registrations);
  }

  /** A later registration under the same name replaces the earlier one. */
  lemma LaterRegistrationReplaces<C>(registry: Registry<C>, widgetName: string, first: C, second: C)
    ensures Register(Register(registry, widgetName, first), widgetName, second) == Register(registry, widgetName, second)
  {
  }
}

=== FILE: pystrings.dfy ===
/** The pieces of Python's built-in string and sequence behaviour that the
    modelled code relies on: `str(int)`, `int(str)`, `str.split` with a
    one-character separator, `str.replace(pat, '')`, `str.endswith`,
    slicing with a negative stop, `str.capitalize` and indexing with
    negative indices.

    Case mapping is ASCII-only; see README for what that leaves out.
 */
module PyStrings {
  import opened Wrappers

  // ---------------------------------------------------------------------
  // Indexing and slicing
  // ---------------------------------------------------------------------

  /** `xs[i]`: negative indices count from the end; anything else raises. */
  function PyIndex<T>(xs: seq<T>, i: int): (r: Result<T>)
    ensures r.Ok? <==> -|xs| <= i < |xs|
    ensures 0 <= i < |xs| ==> r == Ok(xs[i])
    ensures -|xs| <= i < 0 ==> r == Ok(xs[|xs| + i])
    ensures r.Err? ==> r.error == IndexError(i)
  {
    if 0 <= i < |xs| then Ok(xs[i])
    else if -|xs| <= i < 0 then Ok(xs[|xs| + i])
    else Err(IndexError(i))
  }

  /** The head and tail of a concatenation with a non-empty front. */
  lemma ConsAppend<T>(a: seq<T>, b: seq<T>)
    requires |a| > 0
    ensures (a + b)[0] == a[0] && (a + b)[1..] == a[1..] + b
  {
  }

  lemma AppendAssoc<T>(x: seq<T>, y: seq<T>, z: seq<T>)
    ensures x + (y + z) == (x + y) + z
  {
  }

  /** `s[:n]` for n >= 0: never raises, shorter when `s` is shorter. */
  function Take(s: string, n: nat): (r: string)
    ensures |r| == if |s| < n then |s| else n
    ensures r <= s
  {
    if |s| < n then s else s[..n]
  }

  /** `s[:-n]` for n > 0: drops the last `n` characters, or all of them. */
  function DropLast(s: string, n: nat): (r: string)
    ensures |r| == if |s| < n then 0 else |s| - n
    ensures r <= s
  {
    if |s| < n then "" else s[..|s| - n]
  }

  predicate EndsWith(s: string, suffix: string) {
    |suffix| <= |s| && s[|s| - |suffix|..] == suffix
  }

  lemma EndsWithAppend(s: string, suffix: string)
    ensures EndsWith(s + suffix, suffix)
  {
    assert (s + suffix)[|s|..] == suffix;
  }

  // ---------------------------------------------------------------------
  // Decimal integers: str(int) and int(str)
  // ---------------------------------------------------------------------

  predicate IsDigit(c: char) {
    '0' <= c <= '9'
  }

  predicate AllDigits(s: string) {
    forall i :: 0 <= i < |s| ==> IsDigit(s[i])
  }

  function DigitChar(d: nat): (c: char)
    requires d < 10
    ensures IsDigit(c)
  {
    (d + '0' as int) as char
  }

  function DigitValue(c: char): nat
    requires IsDigit(c)
  {
    c as int - '0' as int
  }

  /** Decimal rendering of a natural number, without leading zeros. */
  function NatToString(n: nat): (s: string)
    decreases n
  {
    if n < 10 then [DigitChar(n)] else NatToString(n / 10) + [DigitChar(n % 10)]
  }

  /** Python's `str(i)` for an int. */
  function IntToString(i: int): string {
    if i < 0 then "-" + NatToString(-i) else NatToString(i)
  }

  /** The value of a string of decimal digits, most significant first. */
  function DigitsValue(s: string): nat
    requires AllDigits(s)
  {
    if |s| == 0 then 0 else DigitsValue(s[..|s| - 1]) * 10 + DigitValue(s[|s| - 1])
  }

  function ParseDigits(s: string): Option<nat> {
    if |s| > 0 && AllDigits(s) then Some(DigitsValue(s)) else None
  }

  /** Python's `int(s)` on a string: an optional sign followed by decimal
      digits. `None` stands for the ValueError Python raises. */
  function ParseInt(s: string): Option<int> {
    if |s| > 0 && s[0] == '-' then
      match ParseDigits(s[1..])
      case Some(n) => var m: int := n; Some(-m)
      case None => None
    else if |s| > 0 && s[0] == '+' then
      match ParseDigits(s[1..])
      case Some(n) => Some(n)
      case None => None
    else
      match ParseDigits(s)
      case Some(n) => Some(n)
      case None => None
  }

  lemma {:induction false} NatToStringDigits(n: nat)
    ensures |NatToString(n)| > 0
    ensures AllDigits(NatToString(n))
    ensures DigitsValue(NatToString(n)) == n
    decreases n
  {
    if n >= 10 {
      NatToStringDigits(n / 10);
      var s := NatToString(n);
      assert s[..|s| - 1] == NatToString(n / 10);
    }
  }

  /** `int(str(i)) == i` for every int. */
  lemma ParseIntOfIntToString(i: int)
    ensures ParseInt(IntToString(i)) == Some(i)
  {
    if i < 0 {
      NatToStringDigits(-i);
      var s := IntToString(i);
      assert s[0] == '-' && s[1..] == NatToString(-i);
      assert ParseDigits(s[1..]) == Some(-i);
    } else {
      NatToStringDigits(i);
      var s := NatToString(i);
      assert IsDigit(s[0]);
      assert ParseDigits(s) == Some(i);
    }
  }

  lemma IntToStringHasNoSpace(i: int)
    ensures ' ' !in IntToString(i)
    ensures 'A' !in IntToString(i)
  {
    NatToStringDigits(if i < 0 then -i else i);
    var s := IntToString(i);
    forall k | 0 <= k < |s|
      ensures s[k] != ' ' && s[k] != 'A'
    {
      if i < 0 && k > 0 {
        assert s[k] == NatToString(-i)[k - 1];
      }
    }
  }

  // ---------------------------------------------------------------------
  // str.split(sep) with a one-character separator
  // ---------------------------------------------------------------------

  /** `s.split(sep)`: always at least one piece; empty pieces are kept. */
  function Split(s: string, sep: char): (parts: seq<string>)
    ensures |parts| > 0
  {
    if |s| == 0 then [""]
    else
      var rest := Split(s[1..], sep);
      if s[0] == sep then [""] + rest
      else [[s[0]] + rest[0]] + rest[1..]
  }

  /** `sep.join(parts)`. */
  function Join(parts: seq<string>, sep: char): string
    requires |parts| > 0
  {
    if |parts| == 1 then parts[0] else parts[0] + [sep] + Join(parts[1..], sep)
  }

  /** Splitting and joining back on the same separator loses nothing. */
  lemma {:induction false} JoinSplit(s: string, sep: char)
    ensures Join(Split(s, sep), sep) == s
  {
    if |s| > 0 {
      var rest := Split(s[1..], sep);
      JoinSplit(s[1..], sep);
      if s[0] == sep {
        assert [s[0]] + s[1..] == s;
      } else {
        var parts := Split(s, sep);
        if |rest| == 1 {
          assert parts == [[s[0]] + rest[0]];
        } else {
          assert parts[1..] == rest[1..];
          assert Join(rest, sep) == rest[0] + [sep] + Join(rest[1..], sep);
        }
        assert [s[0]] + s[1..] == s;
      }
    }
  }

  /** No piece of a split contains the separator. */
  lemma {:induction false} SplitPiecesAvoidSep(s: string, sep: char)
    ensures forall k :: 0 <= k < |Split(s, sep)| ==> sep !in Split(s, sep)[k]
  {
    if |s| > 0 {
      SplitPiecesAvoidSep(s[1..], sep);
    }
  }

  /** A string without the separator splits into itself alone. */
  lemma {:induction false} SplitWithoutSep(s: string, sep: char)
    requires sep !in s
    ensures Split(s, sep) == [s]
  {
    if |s| > 0 {
      SplitWithoutSep(s[1..], sep);
      assert [s[0]] + s[1..] == s;
    }
  }

  /** Splitting `a + sep + b`, where `a` has no separator, gives `a` first. */
  lemma {:induction false} SplitAfterFirst(a: string, sep: char, b: string)
    requires sep !in a
    ensures Split(a + [sep] + b, sep) == [a] + Split(b, sep)
  {
    if |a| == 0 {
      assert (a + [sep] + b)[1..] == b;
    } else {
      var s := a + [sep] + b;
      assert s[1..] == a[1..] + [sep] + b;
      SplitAfterFirst(a[1..], sep, b);
      assert [a[0]] + a[1..] == a;
    }
  }

  /** Joining separator-free pieces and splitting again gives the pieces. */
  lemma {:induction false} SplitJoin(parts: seq<string>, sep: char)
    requires |parts| > 0
    requires forall k :: 0 <= k < |parts| ==> sep !in parts[k]
    ensures Split(Join(parts, sep), sep) == parts
    decreases |parts|
  {
    if |parts| == 1 {
      SplitWithoutSep(parts[0], sep);
    } else {
      SplitJoin(parts[1..], sep);
      SplitAfterFirst(parts[0], sep, Join(parts[1..], sep));
    }
  }

  // ---------------------------------------------------------------------
  // str.replace(pat, '')
  // ---------------------------------------------------------------------

  /** `s.replace(pat, '')`: removes non-overlapping occurrences, scanning
      from the left. */
  function RemoveAll(s: string, pat: string): string
    requires |pat| > 0
    decreases |s|
  {
    if |s| < |pat| then s
    else if s[..|pat|] == pat then RemoveAll(s[|pat|..], pat)
    else [s[0]] + RemoveAll(s[1..], pat)
  }

  lemma {:induction false} RemoveAllAbsent(s: string, pat: string)
    requires |pat| > 0
    requires pat[0] !in s
    ensures RemoveAll(s, pat) == s
    decreases |s|
  {
    if |s| >= |pat| {
      assert s[..|pat|][0] == s[0];
      RemoveAllAbsent(s[1..], pat);
      assert [s[0]] + s[1..] == s;
    }
  }

  lemma RemoveAllLeading(pat: string, t: string)
    requires |pat| > 0
    ensures RemoveAll(pat + t, pat) == RemoveAll(t, pat)
  {
    assert (pat + t)[..|pat|] == pat;
    assert (pat + t)[|pat|..] == t;
  }

  // ---------------------------------------------------------------------
  // ASCII case mapping and str.capitalize
  // ---------------------------------------------------------------------

  function LowerChar(c: char): char {
    if 'A' <= c <= 'Z' then (c as int + 32) as char else c
  }

  function UpperChar(c: char): char {
    if 'a' <= c <= 'z' then (c as int - 32) as char else c
  }

  function LowerStr(s: string): (r: string)
    ensures |r| == |s|
    ensures forall i :: 0 <= i < |s| ==> r[i] == LowerChar(s[i])
  {
    seq(|s|, i requires 0 <= i < |s| => LowerChar(s[i]))
  }

  lemma LowerOfUpper(c: char)
    ensures LowerChar(UpperChar(c)) == LowerChar(c)
  {
  }

  lemma LowerStrAppend(a: string, b: string)
    ensures LowerStr(a + b) == LowerStr(a) + LowerStr(b)
  {
    assert LowerStr(a + b) == LowerStr(a) + LowerStr(b);
  }

  /** `w.capitalize()`: first character upper-case, the rest lower-case. */
  function Capitalize(w: string): (r: string)
    ensures |r| == |w|
  {
    if |w| == 0 then "" else [UpperChar(w[0])] + LowerStr(w[1..])
  }

  /** Capitalizing changes case only. */
  lemma CapitalizeFolds(w: string)
    ensures LowerStr(Capitalize(w)) == LowerStr(w)
  {
    if |w| > 0 {
      var c := Capitalize(w);
      var l, m := LowerStr(c), LowerStr(w);
      forall i | 0 <= i < |w|
        ensures l[i] == m[i]
      {
        if i == 0 {
          LowerOfUpper(w[0]);
        } else {
          assert c[i] == LowerStr(w[1..])[i - 1] == LowerChar(w[i]);
        }
      }
      assert l == m;
    }
  }
}

=== FILE: router.dfy ===
/** The process-wide message router: a table from destination id to
    handler, where the last registration for an id wins.

    Calling a handler is a side effect of the program; here `Route` returns
    the call it makes, a handler paired with the payload it receives.
 */
module Router {
  import opened Wrappers

  datatype Routes<H> = Routes(table: map<string, H>)

  /** A handler invocation: `handler(payload)`. */
  datatype Call<H, P> = Call(handler: H, payload: P)

  /** The table at program start. */
  function Empty<H>(): (r: Routes<H>)
    ensures r.table.Keys == {}
  {
    Routes(map[])
  }

  /** `register_route`: the id now maps to the handler, replacing any
      earlier one; every other id keeps its handler. */
  function RegisterRoute<H>(routes: Routes<H>, destinationId: string, handler: H): (r: Routes<H>)
    ensures r.table.Keys == routes.table.Keys + {destinationId}
    ensures destinationId in r.table && r.table[destinationId] == handler
    ensures forall k :: k in routes.table && k != destinationId ==> r.table[k] == routes.table[k]
  {
    Routes(routes.table[destinationId := handler])
  }

  /** `route`: the registered handler, called with exactly the payload. */
  function Route<H, P>(routes: Routes<H>, destinationId: string, payload: P): (r: Result<Call<H, P>>)
    ensures r.Ok? <==> destinationId in routes.table
    ensures r.Ok? ==> r.value.handler == routes.table[destinationId] && r.value.payload == payload
    ensures r.Err? ==> r.error == KeyError(destinationId)
  {
    if destinationId in routes.table then Ok(Call(routes.table[destinationId], payload))
    else Err(KeyError(destinationId))
  }

  /** After registering a handler, routing to its id calls it with the
      payload, whatever was registered under that id before. */
  lemma RouteAfterRegister<H, P>(routes: Routes<H>, destinationId: string, handler: H, payload: P)
    ensures Route(RegisterRoute(routes, destinationId, handler), destinationId, payload) == Ok(Call(handler, payload))
  {
  }

  /** Registering one id leaves the routing of every other id as it was. */
  lemma RegisterIsLocal<H, P>(routes: Routes<H>, destinationId: string, handler: H, other: string, payload: P)
    requires other != destinationId
    ensures Route(RegisterRoute(routes, destinationId, handler), other, payload) == Route(routes, other, payload)
  {
  }

  /** Routing to an unregistered id raises KeyError and calls nothing. */
  lemma RouteUnregistered<H, P>(routes: Routes<H>, destinationId: string, payload: P)
    requires destinationId !in routes.table
    ensures Route(routes, destinationId, payload) == Err(KeyError(destinationId))
  {
  }

  /** Registering a sequence of (id, handler) pairs in order. */
  function RegisterAll<H>(routes: Routes<H>, registrations: seq<(string, H)>): Routes<H>
    decreases |registrations|
  {
    if |registrations| == 0 then routes
    else RegisterAll(RegisterRoute(routes, registrations[0].0, registrations[0].1), registrations[1..])
  }

  /** After any sequence of registrations, an id routes to the handler of
      its last registration; an id never registered routes as before. */
  lemma {:induction false} LastRegistrationWins<H, P>(routes: Routes<H>, registrations: seq<(string, H)>,
                                                        k: nat, payload: P)
    requires k < |registrations|
    requires forall j :: k < j < |registrations| ==> registrations[j].0 != registrations[k].0
    ensures Route(RegisterAll(routes, registrations), registrations[k].0, payload)
         == Ok(Call(registrations[k].1, payload))
    decreases |registrations|
  {
    var rest := registrations[1..];
    if k == 0 {
      NotRegisteredLater(RegisterRoute(routes, registrations[0].0, registrations[0].1), rest,
                         registrations[0].0, payload);
    } else {
      forall j | k - 1 < j < |rest|
        ensures rest[j].0 != rest[k - 1].0
      {
        assert rest[j] == registrations[j + 1];
      }
      LastRegistrationWins(RegisterRoute(routes, registrations[0].0, registrations[0].1), rest, k - 1, payload);
    }
  }

  lemma {:induction false} NotRegisteredLater<H, P>(routes: Routes<H>, registrations: seq<(string, H)>,
                                                     destinationId: string, payload: P)
    requires forall j :: 0 <= j < |registrations| ==> registrations[j].0 != destinationId
    ensures Route(RegisterAll(routes, registrations), destinationId, payload) == Route(routes, destinationId, payload)
    decreases |registrations|
  {
    if |registrations| > 0 {
      NotRegisteredLater(RegisterRoute(routes, registrations[0].0, registrations[0].1), registrations[1..],
                         destinationId, payload);
    }
  }
}

=== FILE: settingsdialog.dfy ===
/** The generic settings dialog: one labelled editor row per editable
    setting, chosen by the setting's type, and the write-back of the editors'
    values on accept.

    A settings dict is a sequence of (key, setting) pairs in insertion order
    with distinct keys; each setting is itself a dict. The editor widgets are
    represented by the values they are built from; the value an editor holds
    when the dialog is accepted is an input of `HandleAccept`.
 */
module SettingsDialog {
  import opened Wrappers
  import opened PyStrings
  import opened Utils

  type Setting = map<string, PyValue>

  type Settings = seq<(string, Setting)>

  predicate DistinctKeys(settings: Settings) {
    forall i, j :: 0 <= i < j < |settings| ==> settings[i].0 != settings[j].0
  }

  /** The editor widget built for a setting, with the values it receives. */
  datatype Editor =
    | StringEditor(value: PyValue)
    | IntEditor(value: PyValue, minValue: PyValue, maxValue: PyValue, step: PyValue)
    | FloatEditor(value: PyValue, minValue: PyValue, maxValue: PyValue, step: PyValue)
    | BoolEditor(value: PyValue)
    | ListEditor(value: PyValue, options: PyValue)
    | PathEditor(value: PyValue, validator: PyValue)

  /** `setting[key]`. */
  function Get(s: Setting, key: string): (r: Result<PyValue>)
    ensures r.Ok? <==> key in s
    ensures r.Ok? ==> r.value == s[key]
    ensures r.Err? ==> r.error == KeyError(key)
  {
    if key in s then Ok(s[key]) else Err(KeyError(key))
  }

  /** `setting.get(key, default)`. */
  function GetOr(s: Setting, key: string, default: PyValue): (r: PyValue)
    ensures key in s ==> r == s[key]
    ensures key !in s ==> r == default
  {
    if key in s then s[key] else default
  }

  /** Whether a setting gets an editor: the truthiness of `'editable'`. */
  function IsEditable(s: Setting): Result<bool> {
    var editable :- Get(s, "editable");
    Ok(Truthy(editable))
  }

  function TypeIs(t: PyValue, name: string): bool {
    t == VStr(name)
  }

  /** The setting type an editor is built for. */
  function EditorTypeName(e: Editor): string {
    match e
    case StringEditor(_) => "str"
    case IntEditor(_, _, _, _) => "int"
    case FloatEditor(_, _, _, _) => "float"
    case BoolEditor(_) => "bool"
    case ListEditor(_, _) => "list"
    case PathEditor(_, _) => "path"
  }

  /** The editor of an editable setting, by its type. */
  function EditorFor(s: Setting): (r: Result<Editor>)
    ensures r.Ok? ==> "type" in s && s["type"] == VStr(EditorTypeName(r.value))
    ensures r.Err? ==> r.error.KeyError? || r.error == ValueError("Unknown setting type")
    ensures r.Err? && r.error.KeyError? ==> r.error.key in {"type", "value", "options", "validator"}
  {
    var t :- Get(s, "type");
    if TypeIs(t, "str") then
      var value :- Get(s, "value");
      Ok(StringEditor(value))
    else if TypeIs(t, "int") then
      Ok(IntEditor(GetOr(s, "value", VInt(0)), GetOr(s, "min_value", VNone),
                   GetOr(s, "max_value", VNone), GetOr(s, "step", VNone)))
    else if TypeIs(t, "float") then
      Ok(FloatEditor(GetOr(s, "value", VFloat(0.0)), GetOr(s, "min_value", VNone),
                     GetOr(s, "max_value", VNone), GetOr(s, "step", VNone)))
    else if TypeIs(t, "bool") then
      var value :- Get(s, "value");
      Ok(BoolEditor(value))
    else if TypeIs(t, "list") then
      var value :- Get(s, "value");
      var options :- Get(s, "options");
      Ok(ListEditor(value, options))
    else if TypeIs(t, "path") then
      var value :- Get(s, "value");
      var validator :- Get(s, "validator");
      Ok(PathEditor(value, validator))
    else
      Err(ValueError("Unknown setting type"))
  }

  /** The names of the six known setting types. */
  predicate KnownType(t: PyValue) {
    t in {VStr("str"), VStr("int"), VStr("float"), VStr("bool"), VStr("list"), VStr("path")}
  }

  /** An editable setting of unknown type raises ValueError; int and float
      editors never raise, defaulting a missing value to 0 or 0.0 and missing
      bounds and step to None; str, bool, list and path editors read
      `value` first, then `options` or `validator`, raising KeyError for the
      first key missing. */
  lemma EditorForSpec(s: Setting)
    ensures "type" in s && !KnownType(s["type"]) ==> EditorFor(s) == Err(ValueError("Unknown setting type"))
    ensures "type" !in s ==> EditorFor(s) == Err(KeyError("type"))
    ensures "type" in s && s["type"] == VStr("int") ==>
      EditorFor(s) == Ok(IntEditor(GetOr(s, "value", VInt(0)), GetOr(s, "min_value", VNone),
                                   GetOr(s, "max_value", VNone), GetOr(s, "step", VNone)))
    ensures "type" in s && s["type"] == VStr("float") ==>
      EditorFor(s) == Ok(FloatEditor(GetOr(s, "value", VFloat(0.0)), GetOr(s, "min_value", VNone),
                                     GetOr(s, "max_value", VNone), GetOr(s, "step", VNone)))
    ensures "type" in s && s["type"] == VStr("float") ==>
      EditorFor(s).value.value == (if "value" in s then s["value"] else VFloat(0.0))
      && ("min_value" !in s ==> EditorFor(s).value.minValue == VNone)
      && ("max_value" !in s ==> EditorFor(s).value.maxValue == VNone)
      && ("step" !in s ==> EditorFor(s).value.step == VNone)
    ensures "type" in s && s["type"] == VStr("int") && "value" !in s && "step" !in s ==>
      EditorFor(s).value.value == VInt(0) && EditorFor(s).value.step == VNone
    ensures EditorFor(s).Ok? ==> KnownType(s["type"])
    ensures "type" in s && s["type"] == VStr("str") ==>
      EditorFor(s) == (if "value" !in s then Err(KeyError("value")) else Ok(StringEditor(s["value"])))
    ensures "type" in s && s["type"] == VStr("bool") ==>
      EditorFor(s) == (if "value" !in s then Err(KeyError("value")) else Ok(BoolEditor(s["value"])))
    ensures "type" in s && s["type"] == VStr("list") ==>
      EditorFor(s) == (if "value" !in s then Err(KeyError("value"))
                       else if "options" !in s then Err(KeyError("options"))
                       else Ok(ListEditor(s["value"], s["options"])))
    ensures "type" in s && s["type"] == VStr("path") ==>
      EditorFor(s) == (if "value" !in s then Err(KeyError("value"))
                       else if "validator" !in s then Err(KeyError("validator"))
                       else Ok(PathEditor(s["value"], s["validator"])))
  {
  }

  /** The keys of the editable settings, in order. */
  function EditableKeys(settings: Settings): seq<string>
    decreases |settings|
  {
    if |settings| == 0 then []
    else
      var last := settings[|settings| - 1];
      EditableKeys(settings[..|settings| - 1])
        + (if IsEditable(last.1) == Ok(true) then [last.0] else [])
  }

  /** What the dialog's constructor reads without raising. */
  predicate Buildable(settings: Settings) {
    forall i :: 0 <= i < |settings| ==> RowOk(settings[i].1)
  }

  /** A setting the constructor passes without raising. */
  predicate RowOk(s: Setting) {
    IsEditable(s).Ok? && (IsEditable(s).value ==> EditorFor(s).Ok?)
  }

  /** One more setting adds its key to the editable keys iff it is editable. */
  lemma EditableKeysStep(settings: Settings, i: nat)
    requires i < |settings|
    ensures EditableKeys(settings[..i + 1])
         == EditableKeys(settings[..i]) + (if IsEditable(settings[i].1) == Ok(true) then [settings[i].0] else [])
  {
    assert settings[..i + 1][..i] == settings[..i];
  }

  /** The dialog's rows: the label and editor key of each row, the editors
      by key, and the row the buttons are placed in. */
  datatype Dialog = Dialog(labels: seq<string>, rowKeys: seq<string>, editors: map<string, Editor>, lineCounter: nat)

  /** Each editable setting among the first `n` has its editor under its key. */
  ghost predicate EditorsMatch(settings: Settings, n: nat, editors: map<string, Editor>)
    requires n <= |settings|
  {
    forall j :: 0 <= j < n && IsEditable(settings[j].1) == Ok(true) ==>
      settings[j].0 in editors && Ok(editors[settings[j].0]) == EditorFor(settings[j].1)
  }

  /** Adding the editor of setting `i` under its key keeps the earlier ones,
      the keys being distinct. */
  lemma EditorsMatchAdd(settings: Settings, i: nat, editors: map<string, Editor>, editor: Editor)
    requires DistinctKeys(settings) && i < |settings|
    requires EditorsMatch(settings, i, editors)
    requires Ok(editor) == EditorFor(settings[i].1)
    ensures EditorsMatch(settings, i + 1, editors[settings[i].0 := editor])
  {
    var editors' := editors[settings[i].0 := editor];
    forall j | 0 <= j < i + 1 && IsEditable(settings[j].1) == Ok(true)
      ensures settings[j].0 in editors' && Ok(editors'[settings[j].0]) == EditorFor(settings[j].1)
    {
      if j < i {
        assert settings[j].0 != settings[i].0;
      }
    }
  }

  /** A setting that is not editable needs no editor. */
  lemma EditorsMatchSkip(settings: Settings, i: nat, editors: map<string, Editor>)
    requires i < |settings|
    requires EditorsMatch(settings, i, editors)
    requires IsEditable(settings[i].1) != Ok(true)
    ensures EditorsMatch(settings, i + 1, editors)
  {
  }

  /** The dialog after the first `n` settings: one capitalized label and
      one editor per editable setting among them, in order. */
  ghost predicate Partial(settings: Settings, n: nat, d: Dialog)
    requires n <= |settings|
  {
    && d.rowKeys == EditableKeys(settings[..n])
    && d.lineCounter == |d.rowKeys| == |d.labels|
    && (forall row :: 0 <= row < |d.labels| ==> d.labels[row] == Capitalize(d.rowKeys[row]))
    && (forall k :: k in d.editors <==> k in d.rowKeys)
    && EditorsMatch(settings, n, d.editors)
  }

  /** The row of an editable setting, added below the others. */
  function AddRow(d: Dialog, key: string, editor: Editor): Dialog {
    Dialog(d.labels + [Capitalize(key)], d.rowKeys + [key], d.editors[key := editor], d.lineCounter + 1)
  }

  /** One iteration of the constructor's loop on a setting it can read. */
  function Next(d: Dialog, key: string, setting: Setting): Dialog
    requires RowOk(setting)
  {
    if IsEditable(setting).value then AddRow(d, key, EditorFor(setting).value) else d
  }

  lemma PartialStep(settings: Settings, i: nat, d: Dialog)
    requires DistinctKeys(settings) && i < |settings|
    requires Partial(settings, i, d) && RowOk(settings[i].1)
    ensures Partial(settings, i + 1, Next(d, settings[i].0, settings[i].1))
  {
    EditableKeysStep(settings, i);
    if IsEditable(settings[i].1).value {
      EditorsMatchAdd(settings, i, d.editors, EditorFor(settings[i].1).value);
    } else {
      EditorsMatchSkip(settings, i, d.editors);
    }
  }

  lemma PartialComplete(settings: Settings, d: Dialog)
    requires Partial(settings, |settings|, d)
    ensures d.rowKeys == EditableKeys(settings)
    ensures forall i :: 0 <= i < |settings| && IsEditable(settings[i].1) == Ok(true) ==>
      settings[i].0 in d.editors && Ok(d.editors[settings[i].0]) == EditorFor(settings[i].1)
  {
    assert settings[..|settings|] == settings;
  }

  /** `SettingsDialog.__init__`. */
  method NewSettingsDialog(settings: Settings) returns (r: Result<Dialog>)
    requires DistinctKeys(settings)
    ensures r.Ok? <==> Buildable(settings)
    ensures r.Ok? ==>
      && r.value.rowKeys == EditableKeys(settings)
      && r.value.lineCounter == |EditableKeys(settings)|
      && |r.value.labels| == r.value.lineCounter
      && (forall row :: 0 <= row < |r.value.labels| ==> r.value.labels[row] == Capitalize(r.value.rowKeys[row]))
      && (forall k :: k in r.value.editors <==> k in r.value.rowKeys)
      && (forall i :: 0 <= i < |settings| && IsEditable(settings[i].1) == Ok(true) ==>
            settings[i].0 in r.value.editors && Ok(r.value.editors[settings[i].0]) == EditorFor(settings[i].1))
  {
    var d := Dialog([], [], map[], 0);
    var i := 0;
    while i < |settings|
      invariant 0 <= i <= |settings|
      invariant forall j :: 0 <= j < i ==> RowOk(settings[j].1)
      invariant Partial(settings, i, d)
    {
      var (key, setting) := settings[i];
      var editable := IsEditable(setting);
      if editable.Err? {
        r := Err(editable.error);
        return;
      }
      if editable.value && EditorFor(setting).Err? {
        r := Err(EditorFor(setting).error);
        return;
      }
      PartialStep(settings, i, d);
      d := Next(d, key, setting);
      i := i + 1;
    }
    PartialComplete(settings, d);
    r := Ok(d);
  }

  /** Settings that are not editable get no row and their type is never
      read: a dict of non-editable settings builds an empty dialog whose
      buttons sit in row 0, whatever their types. */
  lemma NonEditableNeverInspected(settings: Settings)
    requires forall i :: 0 <= i < |settings| ==> IsEditable(settings[i].1) == Ok(false)
    ensures Buildable(settings)
    ensures EditableKeys(settings) == []
  {
    NoEditableKeys(settings);
  }

  lemma {:induction false} NoEditableKeys(settings: Settings)
    requires forall i :: 0 <= i < |settings| ==> IsEditable(settings[i].1) == Ok(false)
    ensures EditableKeys(settings) == []
    decreases |settings|
  {
    if |settings| > 0 {
      NoEditableKeys(settings[..|settings| - 1]);
    }
  }

  /** `handle_accept`: every editable setting's `'value'` becomes what its
      editor holds; the other settings are left as they are. */
  function HandleAccept(settings: Settings, held: map<string, PyValue>): (r: Settings)
    requires Buildable(settings)
    requires forall i :: 0 <= i < |settings| && IsEditable(settings[i].1) == Ok(true) ==> settings[i].0 in held
    ensures |r| == |settings|
    decreases |settings|
  {
    if |settings| == 0 then []
    else
      var (key, setting) := settings[0];
      var updated := if IsEditable(setting) == Ok(true) then setting["value" := held[key]] else setting;
      [(key, updated)] + HandleAccept(settings[1..], held)
  }

  /** Accepting keeps every key in its place, writes the held value of each
      editable setting and nothing else, and leaves the non-editable ones. */
  lemma {:induction false} HandleAcceptSpec(settings: Settings, held: map<string, PyValue>)
    requires Buildable(settings)
    requires forall i :: 0 <= i < |settings| && IsEditable(settings[i].1) == Ok(true) ==> settings[i].0 in held
    ensures var r := HandleAccept(settings, held);
      forall i :: 0 <= i < |settings| ==>
        && r[i].0 == settings[i].0
        && (IsEditable(settings[i].1) == Ok(false) ==> r[i].1 == settings[i].1)
        && (IsEditable(settings[i].1) == Ok(true) ==>
              r[i].1.Keys == settings[i].1.Keys + {"value"}
              && r[i].1["value"] == held[settings[i].0]
              && forall k :: k in settings[i].1 && k != "value" ==> r[i].1[k] == settings[i].1[k])
    decreases |settings|
  {
    if |settings| > 0 {
      var rest := settings[1..];
      assert Buildable(rest) by {
        forall i | 0 <= i < |rest| ensures RowOk(rest[i].1) {
          assert rest[i] == settings[i + 1];
        }
      }
      forall i | 0 <= i < |rest| && IsEditable(rest[i].1) == Ok(true)
        ensures rest[i].0 in held
      {
        assert rest[i] == settings[i + 1];
      }
      HandleAcceptSpec(rest, held);
      var r := HandleAccept(settings, held);
      forall i | 0 < i < |settings|
        ensures r[i] == HandleAccept(rest, held)[i - 1]
      {
      }
    }
  }
}

=== FILE: systemdesigner.dfy ===
/** The system's typed key/value data and the way the system's name is
    shown in its info box.

    Each data entry carries a type tag (a name the type codec understands),
    display and edit flags, and a value; `set_data_value` only accepts a
    value whose exact Python type is the tagged one.
 */
module SystemDesigner {
  import opened Wrappers
  import opened PyStrings
  import opened Utils

  datatype DataEntry = DataEntry(typeTag: string, display: bool, editable: bool, value: PyValue)

  type SystemData = map<string, DataEntry>

  /** The data a new system starts with. */
  function DefaultData(): (d: SystemData)
    ensures d.Keys == {"description"}
    ensures d["description"].typeTag == "str" && d["description"].value == VStr("")
    ensures d["description"].display && d["description"].editable
  {
    map["description" := DataEntry("str", true, true, VStr(""))]
  }

  /** `set_data_value`: KeyError for an unknown key, TypeError when the
      stored tag is not a supported type name or the value's exact type is
      not the tagged one. */
  function SetDataValue(data: SystemData, key: string, value: PyValue): (r: Result<SystemData>)
    ensures key !in data ==> r == Err(KeyError(key))
    ensures key in data ==> (r.Ok? <==> StrToDatatype(data[key].typeTag) == Ok(TypeOf(value)))
    ensures key in data && r.Err? ==> r.error.TypeError?
    ensures r.Ok? ==> r.value.Keys == data.Keys && r.value[key].value == value
  {
    if key in data then
      var expected :- StrToDatatype(data[key].typeTag);
      if TypeOf(value) == expected then Ok(data[key := data[key].(value := value)])
      else Err(TypeError("Value is of the wrong type, expected: " + data[key].typeTag))
    else
      Err(KeyError(key))
  }

  /** `get_data_value`. */
  function GetDataValue(data: SystemData, key: string): (r: Result<PyValue>)
    ensures r.Ok? <==> key in data
    ensures r.Ok? ==> r.value == data[key].value
    ensures r.Err? ==> r.error == KeyError(key)
  {
    if key in data then Ok(data[key].value) else Err(KeyError(key))
  }

  /** When `set_data_value` succeeds and when it fails, and with which
      exception; on success only the one entry's value changes. */
  lemma SetDataValueSpec(data: SystemData, key: string, value: PyValue)
    ensures key !in data ==> SetDataValue(data, key, value) == Err(KeyError(key))
    ensures key in data ==>
      (SetDataValue(data, key, value).Ok? <==> StrToDatatype(data[key].typeTag) == Ok(TypeOf(value)))
    ensures key in data && SetDataValue(data, key, value).Err? ==> SetDataValue(data, key, value).error.TypeError?
    ensures SetDataValue(data, key, value).Ok? ==>
      var d := SetDataValue(data, key, value).value;
      && d.Keys == data.Keys
      && d[key].value == value
      && d[key].typeTag == data[key].typeTag
      && d[key].display == data[key].display
      && d[key].editable == data[key].editable
      && forall k :: k in data && k != key ==> d[k] == data[k]
  {
  }

  /** A value set successfully is the value read back. */
  lemma GetAfterSet(data: SystemData, key: string, value: PyValue)
    requires SetDataValue(data, key, value).Ok?
    ensures GetDataValue(SetDataValue(data, key, value).value, key) == Ok(value)
  {
  }

  /** The type check is on the exact class: a bool is rejected where an
      int is tagged, and an int where a float is tagged. */
  lemma SetDataValueExactType(data: SystemData, key: string, b: bool, i: int)
    requires key in data
    ensures data[key].typeTag == "int" ==> SetDataValue(data, key, VBool(b)).Err?
    ensures data[key].typeTag == "float" ==> SetDataValue(data, key, VInt(i)).Err?
    ensures data[key].typeTag == "int" ==> SetDataValue(data, key, VInt(i)).Ok?
  {
  }

  /** Reading a missing key raises KeyError. */
  lemma GetMissing(data: SystemData, key: string)
    requires key !in data
    ensures GetDataValue(data, key) == Err(KeyError(key))
  {
  }

  // ---------------------------------------------------------------------
  // The displayed system name
  // ---------------------------------------------------------------------

  /** The words of a list, each capitalized and followed by one space. */
  function CapitalizedWords(words: seq<string>): (r: string)
    ensures |words| > 0 ==> |r| > 0 && r[|r| - 1] == ' '
  {
    if |words| == 0 then "" else Capitalize(words[0]) + " " + CapitalizedWords(words[1..])
  }

  /** The name shown in the system info box: the system name split on
      `'-'`, each word capitalized and followed by one space. */
  function DisplayName(name: string): (r: string)
    ensures |r| > 0 && r[|r| - 1] == ' '
  {
    CapitalizedWords(Split(name, '-'))
  }

  function DashesToSpaces(s: string): (r: string)
    ensures |r| == |s|
  {
    seq(|s|, i requires 0 <= i < |s| => if s[i] == '-' then ' ' else s[i])
  }

  /** Up to case, the capitalized words are the words joined by spaces,
      plus a trailing space. */
  lemma {:induction false} CapitalizedWordsFold(words: seq<string>)
    requires |words| > 0
    ensures LowerStr(CapitalizedWords(words)) == LowerStr(Join(words, ' ')) + " "
    decreases |words|
  {
    var w := words[0];
    CapitalizeFolds(w);
    LowerStrAppend(Capitalize(w) + " ", CapitalizedWords(words[1..]));
    LowerStrAppend(Capitalize(w), " ");
    if |words| > 1 {
      CapitalizedWordsFold(words[1..]);
      LowerStrAppend(w + [' '], Join(words[1..], ' '));
      LowerStrAppend(w, [' ']);
    }
  }

  lemma {:induction false} DashesToSpacesJoin(words: seq<string>)
    requires |words| > 0
    requires forall k :: 0 <= k < |words| ==> '-' !in words[k]
    ensures DashesToSpaces(Join(words, '-')) == Join(words, ' ')
    decreases |words|
  {
    assert DashesToSpaces(words[0]) == words[0];
    if |words| > 1 {
      DashesToSpacesJoin(words[1..]);
      var a := words[0];
      var b := Join(words[1..], '-');
      assert DashesToSpaces(a + ['-'] + b) == DashesToSpaces(a) + [' '] + DashesToSpaces(b);
    }
  }

  /** Up to letter case, the displayed name is the system name with each
      dash turned into a space, plus one trailing space; so it is exactly
      one character longer. */
  lemma DisplayNameFolds(name: string)
    ensures LowerStr(DisplayName(name)) == LowerStr(DashesToSpaces(name)) + " "
    ensures |DisplayName(name)| == |name| + 1
  {
    var words := Split(name, '-');
    JoinSplit(name, '-');
    SplitPiecesAvoidSep(name, '-');
    DashesToSpacesJoin(words);
    CapitalizedWordsFold(words);
    assert |LowerStr(DisplayName(name))| == |DisplayName(name)|;
  }

  /** Each word starts with a capital: a name that does not start with a
      dash shows its first character upper-cased. */
  lemma DisplayNameStartsCapitalized(name: string)
    requires |name| > 0 && name[0] != '-'
    ensures DisplayName(name)[0] == UpperChar(name[0])
  {
    var rest := Split(name[1..], '-');
    assert Split(name, '-')[0] == [name[0]] + rest[0];
  }

  /** A name built from dash-free words shows each of those words,
      capitalized and followed by a space: `"a-test-project"` is shown as
      `"A Test Project "`. */
  lemma DisplayNameOfWords(words: seq<string>)
    requires |words| > 0
    requires forall k :: 0 <= k < |words| ==> '-' !in words[k]
    ensures DisplayName(Join(words, '-')) == CapitalizedWords(words)
  {
    SplitJoin(words, '-');
  }
}

=== FILE: utils.dfy ===
/** Python values and types, and the codec between a type and its name.

    `PyValue` is the small slice of Python values the settings and system
    data dictionaries hold; `TypeOf` is Python's `type(value)`.
 */
module Utils {
  import opened Wrappers

  /** Python classes: the eight the codec supports, `NoneType`, and any
      other class by name. */
  datatype PyType = TStr | TInt | TFloat | TBool | TList | TDict | TTuple | TSet
                  | TNoneType | TOther(className: string)

  datatype PyValue =
    | VNone
    | VStr(s: string)
    | VInt(i: int)
    | VFloat(f: real)
    | VBool(b: bool)
    | VList(items: seq<PyValue>)
    | VDict(entries: seq<(PyValue, PyValue)>)
    | VTuple(items: seq<PyValue>)
    | VSet(items: seq<PyValue>)

  /** `type(value)`: exact class, so `type(True)` is `bool`, not `int`. */
  function TypeOf(v: PyValue): PyType {
    match v
    case VNone => TNoneType
    case VStr(_) => TStr
    case VInt(_) => TInt
    case VFloat(_) => TFloat
    case VBool(_) => TBool
    case VList(_) => TList
    case VDict(_) => TDict
    case VTuple(_) => TTuple
    case VSet(_) => TSet
  }

  /** Python truthiness. */
  predicate Truthy(v: PyValue) {
    match v
    case VNone => false
    case VStr(s) => s != ""
    case VInt(i) => i != 0
    case VFloat(f) => f != 0.0
    case VBool(b) => b
    case VList(xs) => xs != []
    case VDict(es) => es != []
    case VTuple(xs) => xs != []
    case VSet(xs) => xs != []
  }

  predicate Supported(t: PyType) {
    t in {TStr, TInt, TFloat, TBool, TList, TDict, TTuple, TSet}
  }

  const SupportedNames: set<string> := {"str", "int", "float", "bool", "list", "dict", "tuple", "set"}

  /** `datatype_to_str`. */
  function DatatypeToStr(t: PyType): (r: Result<string>)
    ensures r.Ok? <==> Supported(t)
    ensures r.Ok? ==> r.value in SupportedNames
    ensures r.Err? ==> r.error.TypeError?
  {
    match t
    case TStr => Ok("str")
    case TInt => Ok("int")
    case TFloat => Ok("float")
    case TBool => Ok("bool")
    case TList => Ok("list")
    case TDict => Ok("dict")
    case TTuple => Ok("tuple")
    case TSet => Ok("set")
    case _ => Err(TypeError("Type is not supported"))
  }

  /** `str_to_datatype`. */
  function StrToDatatype(name: string): (r: Result<PyType>)
    ensures r.Ok? <==> name in SupportedNames
    ensures r.Ok? ==> Supported(r.value)
    ensures r.Err? ==> r.error.TypeError?
  {
    if name == "str" then Ok(TStr)
    else if name == "int" then Ok(TInt)
    else if name == "float" then Ok(TFloat)
    else if name == "bool" then Ok(TBool)
    else if name == "list" then Ok(TList)
    else if name == "dict" then Ok(TDict)
    else if name == "tuple" then Ok(TTuple)
    else if name == "set" then Ok(TSet)
    else Err(TypeError("Type " + name + " is not supported"))
  }

  /** Serialising a supported type and reading it back gives the type. */
  lemma TypeRoundTrip(t: PyType)
    ensures DatatypeToStr(t).Ok? <==> Supported(t)
    ensures DatatypeToStr(t).Ok? ==> DatatypeToStr(t).value in SupportedNames
    ensures DatatypeToStr(t).Ok? ==> StrToDatatype(DatatypeToStr(t).value) == Ok(t)
    ensures DatatypeToStr(t).Err? ==> DatatypeToStr(t).error.TypeError?
  {
  }

  /** Reading a supported name and serialising the type gives the name. */
  lemma NameRoundTrip(name: string)
    ensures StrToDatatype(name).Ok? <==> name in SupportedNames
    ensures StrToDatatype(name).Ok? ==> Supported(StrToDatatype(name).value)
    ensures StrToDatatype(name).Ok? ==> DatatypeToStr(StrToDatatype(name).value) == Ok(name)
    ensures StrToDatatype(name).Err? ==> StrToDatatype(name).error.TypeError?
  {
  }

  /** Distinct names give distinct types, and distinct types distinct names. */
  lemma CodecInjective(a: string, b: string, s: PyType, t: PyType)
    ensures StrToDatatype(a).Ok? && StrToDatatype(a) == StrToDatatype(b) ==> a == b
    ensures DatatypeToStr(s).Ok? && DatatypeToStr(s) == DatatypeToStr(t) ==> s == t
  {
  }
}

=== FILE: wrappers.dfy ===
/** Failure-compatible wrappers used throughout the model.

    Python code in the modelled program signals failure by raising an
    exception. Each exception kind that the modelled code can raise is a
    constructor of `Error`; an operation that may raise returns a `Result`.
 */
module Wrappers {

  datatype Option<+T> = None | Some(value: T)

  /** The exceptions the modelled code raises, by Python class. */
  datatype Error =
    | KeyError(key: string)             // dict lookup of a missing key
    | TypeError(reason: string)         // unsupported type tag, wrong value type
    | ValueError(reason: string)        // unknown function, colour, id, type index
    | IndexError(index: int)            // sequence index out of range
    | AttributeError(reason: string)    // attribute looked up on None
    | NotAFloat(column: nat)            // float()'s TypeError or ValueError on a cell

  datatype Result<+T> = Ok(value: T) | Err(error: Error) {

    predicate IsFailure() {
      Err?
    }

    function PropagateFailure<U>(): Result<U>
      requires Err?
    {
      Err(error)
    }

    function Extract(): T
      requires Ok?
    {
      value
    }
  }
}
